=== FILE: README.md ===
# SMM panel backend: balance ledger and catalog rules in Dafny

This project models the core of an Express/Prisma backend for a social-media
marketing panel. Customers hold a balance in rupiah. They place orders for
services bought from upstream providers. An administrator confirms deposits,
processes withdrawals, sets each provider's markup and keeps the catalog of
providers, categories and services. The model covers two parts: the
balance-and-order ledger (placing and cancelling orders, deposits,
withdrawals), and the catalog pricing and integrity rules (markups, repricing,
bulk and import batches, and the uniqueness and dependency guards on
providers, categories and users).

Every route handler reads the store, validates, then writes. Each handler is
modelled in three parts:

- a pure guard `…Error` returns the first check the request fails, in the
  handler's own order;
- a pure `…Step` maps the tables before the request to the tables after it
  and the response (`Ok` or `Err(kind)`);
- a method on the `Model.Store` class does the handler's writes and is proved
  to agree with the step.

Lemmas named `…Effect` say what a successful request changes. Lemmas named
`…Keeps` say which invariants it preserves: the integrity rules
(`Model.TablesValid`), the ledger (`Model.LedgerPreserved`: each balance moves
by exactly its counted transactions) and non-negative balances.

Modules, one per route file plus shared ones:

- `Common`: optional request fields, outcomes and error kinds, and the string
  helpers (`trim`, decimal rendering).
- `Model`: the records, the tables, the integrity rules, the ledger and the
  `Store` class.
- `Pricing`: the markup price formula and the repricing of one provider's
  products.
- `Orders`, `Transactions`, `Services`, `Admin`, `Providers`, `Categories`
  and `Users`: the handlers of the route file of the same name.

## Model

| member | source | states |
|---|---|---|
| Common.Trim | backend/src/routes/orders.js:25 | `trim` returns the slice of the input that has only white space before and after it, and that starts and ends with a non-space character (or is empty) |
| Common.TrimUnique | backend/src/routes/orders.js:25 | a slice that starts and ends with a non-space character and is surrounded only by white space is the trimmed string |
| Common.TrimJoin | backend/src/routes/orders.js:490 | trimming two joined non-blank parts trims the start of the first and the end of the second |
| Common.TrimEmptyIff | backend/src/routes/orders.js:25 | `s.trim() === ''` exactly when every character of `s` is white space |
| Common.TrimIdempotent | backend/src/routes/users.js:90 | trimming an already trimmed id changes nothing |
| Common.Decimal | backend/src/routes/services.js:246 | the rendering of `Date.now()` is a non-empty run of digits, one digit exactly for values below 10 |
| Common.DecimalRoundTrip | backend/src/routes/services.js:246 | reading a rendered number back gives the number, so distinct clock values give distinct `custom_` identifiers |
| Model.ParseOrderStatus | backend/src/routes/orders.js:362-363 | exactly the seven status names are accepted, each mapped to its status |
| Model.OrderStatusRoundTrip | backend/src/routes/orders.js:362 | parsing a status's name gives the status back |
| Model.ParseFinalStatus | backend/src/routes/transactions.js:170-171 | exactly SUCCESS, FAILED and CANCELLED are accepted |
| Model.FinalStatusRoundTrip | backend/src/routes/transactions.js:170 | parsing a final status's name gives it back |
| Model.ParsePaymentMethod | backend/src/routes/transactions.js:100-101 | exactly the six payment-method names are accepted |
| Model.PaymentMethodRoundTrip | backend/src/routes/transactions.js:100 | parsing a method's name gives it back |
| Model.LedgerSumAppend | backend/src/routes/orders.js:165-172 | recording a transaction changes a user's ledger sum by exactly its share |
| Model.LedgerSumUpdate | backend/src/routes/transactions.js:210-227 | changing a recorded transaction changes the sum by the difference of its shares |
| Model.BalancedPreserved | backend/src/routes/transactions.js:225-228 | a ledger-keeping step keeps every balance equal to its opening amount plus its counted transactions |
| Model.LedgerPreservedTrans | backend/src/routes/orders.js:159-172 | ledger-keeping steps compose |
| Model.WithBalance | backend/src/routes/orders.js:159-162 | `increment`/`decrement` moves one balance by exactly the delta; the user set, that user's other fields and every other user stay as they were |
| Model.WithBalanceNonNegative | backend/src/routes/orders.js:114-162 | a credit, or a debit the balance covers, turns no balance negative |
| Model.LedgerAppend | backend/src/routes/orders.js:159-172 | moving a balance by the share of the transaction recorded with it keeps the ledger |
| Model.LedgerReplace | backend/src/routes/transactions.js:210-228 | amending a transaction and moving the balance by the change of its share keeps the ledger |
| Model.RecordKeepsLedger | backend/src/routes/orders.js:159-172 | the one way handlers move money keeps the ledger |
| Model.RecordValid | backend/src/routes/orders.js:165-172 | recording a well-signed transaction of an existing user keeps every integrity rule |
| Model.CreditValid | backend/src/routes/transactions.js:225-228 | moving an existing user's balance keeps every integrity rule |
| Model.NotifyValid | backend/src/routes/transactions.js:231-240 | notifying an existing user keeps every integrity rule |
| Model.AmendValid | backend/src/routes/transactions.js:210-220 | changing a transaction's status or payment reference keeps every integrity rule |
| Pricing.Price | backend/src/routes/services.js:227-229 | `Math.round(cost * (1 + markup/100))` in exact arithmetic: the rounded value lies within half a rupiah of the exact price, halves rounding up |
| Pricing.PriceWithoutMarkup | backend/src/routes/services.js:228-229 | with markup 0 the price is the cost |
| Pricing.PriceSplits | backend/src/routes/services.js:229 | the price is the cost plus the rounded markup amount |
| Pricing.PriceAboveOriginalIff | backend/src/routes/services.js:229 | for a positive cost the price is above it exactly when cost × markup ≥ 50, and never below it |
| Pricing.PriceMonotoneInMarkup | backend/src/routes/admin.js:91 | for a non-negative cost, a higher markup never lowers the price |
| Pricing.PriceMonotoneInCost | backend/src/routes/services.js:229 | for a non-negative markup, a higher cost never lowers the price |
| Pricing.PriceExamples | backend/src/routes/services.js:229 | concrete prices, including a positive markup that leaves a cost of 1 unchanged |
| Pricing.Repriced | backend/src/routes/admin.js:91-95 | a repriced product differs from the old one only in its price, which is its cost at the markup |
| Pricing.RepriceProvider | backend/src/routes/admin.js:86-98 | repricing keeps every product identifier |
| Pricing.RepriceProviderEffect | backend/src/routes/admin.js:86-98 | every product of the provider is priced at the markup from its unchanged cost; other products are untouched |
| Pricing.RepriceAtCurrentMarkup | backend/src/routes/admin.js:86-98 | repricing products already priced at the markup changes nothing |
| Pricing.RepriceIdempotent | backend/src/routes/admin.js:86-98 | repricing twice at the same markup is repricing once |
| Orders.ValidateOrderData | backend/src/routes/orders.js:6-35 | the request passes exactly when it has a product, a positive quantity and a non-blank link |
| Orders.PlacementError | backend/src/routes/orders.js:37-128 | placement is refused exactly when the customer is unknown, suspended or short of funds, or the service or provider is unavailable, or the quantity is out of range; the funds check precedes the range check |
| Orders.TrimmedNotes | backend/src/routes/orders.js:138 | `notes?.trim() \|\| null`: the trimmed notes, or none when absent or blank |
| Orders.PlacedOrder | backend/src/routes/orders.js:132-141 | the new order is the caller's, for the product and a positive quantity, totals price times quantity, is PENDING with no timestamps, and has a trimmed non-empty link |
| Orders.Payment | backend/src/routes/orders.js:165-177 | the payment row is the customer's ORDER_PAYMENT for the order and takes exactly the order's total off their ledger sum |
| Orders.PlaceOrderStep | backend/src/routes/orders.js:37-195 | placement succeeds exactly when the guard passes; a refused request changes nothing |
| Orders.PlaceOrderEffect | backend/src/routes/orders.js:110-185 | a placed order is the caller's, PENDING, at price × quantity; exactly that total leaves the balance, which stays non-negative; one matching payment is recorded; the catalog is unchanged |
| Orders.PlaceOrderKeeps | backend/src/routes/orders.js:132-172 | placing keeps the ledger and every integrity rule, and turns no balance negative |
| Orders.PlaceOrder | backend/src/routes/orders.js:132-185 | the handler's writes produce exactly the step's tables and response and keep the store valid |
| Orders.StatusUpdateError | backend/src/routes/orders.js:340-383 | an update passes exactly when a known status is given and the order exists |
| Orders.WithStatus | backend/src/routes/orders.js:386-400 | the status is set; who ordered what and its total never change; startedAt is stamped once; completedAt is restamped on every finished status; free text is overwritten only by non-empty values |
| Orders.UpdateStatusStep | backend/src/routes/orders.js:340-425 | only the one order changes: no balance or transaction moves |
| Orders.UpdateStatusKeeps | backend/src/routes/orders.js:402-406 | a status update keeps every integrity rule |
| Orders.UpdateOrderStatus | backend/src/routes/orders.js:402-425 | the handler's write agrees with the step and keeps the store valid |
| Orders.CancelError | backend/src/routes/orders.js:428-482 | cancellation passes exactly when the caller owns the order and it is PENDING or PROCESSING |
| Orders.CancelNotes | backend/src/routes/orders.js:490 | without a reason the notes are kept; with one they become the trimmed join of the old notes, a new line and `[CANCELLED] reason`: the old text's start trimmed when it holds text, the reason's end trimmed, and never blank |
| Orders.CancelNotesCarryReason | backend/src/routes/orders.js:490 | with a non-blank reason the notes are the old text (start-trimmed, then a line break) when it holds any, followed by `[CANCELLED] ` and the end-trimmed reason |
| Orders.CancelledOrder | backend/src/routes/orders.js:485-491 | the cancelled order is CANCELLED, stamped with the time and the cancellation notes; every other field is kept |
| Orders.RefundOf | backend/src/routes/orders.js:507-519 | the refund row is the customer's REFUND for the order, adds exactly the order's total to their ledger sum, and cancels the payment's share |
| Orders.CancelStep | backend/src/routes/orders.js:428-538 | cancellation succeeds exactly when the guard passes; a refused one changes nothing |
| Orders.CancelEffect | backend/src/routes/orders.js:485-528 | the order becomes CANCELLED and stamped with the cancellation notes; exactly its total goes back to its customer as a recorded refund; no other order changes and every table other than orders, users and transactions is unchanged |
| Orders.CancelKeeps | backend/src/routes/orders.js:485-518 | cancelling keeps the ledger and every integrity rule, and turns no balance negative when the total is non-negative |
| Orders.CancelOrder | backend/src/routes/orders.js:485-528 | the handler's writes agree with the step and keep the store valid |
| Orders.CancelOnce | backend/src/routes/orders.js:474-482 | a cancelled order cannot be cancelled again |
| Orders.PlaceThenCancel | backend/src/routes/orders.js:110-528 | placing then cancelling restores the balance, with both transactions on record |
| Orders.CancelReopenCancel | backend/src/routes/orders.js:362-528 | an administrator can reopen a cancelled order, and cancelling it again refunds the total a second time |
| Transactions.ReferenceInjective | backend/src/routes/transactions.js:690 | different deposits are quoted under different `DEP-` references |
| Transactions.Reference | backend/src/routes/transactions.js:690 | the reference line is `Use reference: DEP-` followed by decimal digits that read back as the transaction's id |
| Transactions.PaymentInstructions | backend/src/routes/transactions.js:684-724 | every method's instructions include the deposit's reference line |
| Transactions.InstructionsIdentifyDeposit | backend/src/routes/transactions.js:684-724 | a deposit's instructions quote its own reference, and the reference of a different deposit appears nowhere in them |
| Transactions.DepositError | backend/src/routes/transactions.js:47-108 | a deposit passes exactly when the caller is a known, active user, the amount is positive and the method is known |
| Transactions.DepositStep | backend/src/routes/transactions.js:47-153 | a PENDING deposit is recorded and no balance moves |
| Transactions.DepositEffect | backend/src/routes/transactions.js:110-140 | the deposit is the caller's, PENDING, of the requested amount, quoted under its own reference; no balance changes |
| Transactions.DepositKeeps | backend/src/routes/transactions.js:110-125 | creating a deposit keeps the ledger and every integrity rule |
| Transactions.CreateDeposit | backend/src/routes/transactions.js:110-145 | the handler's write agrees with the step and keeps the store valid |
| Transactions.ConfirmError | backend/src/routes/transactions.js:156-207 | confirmation passes exactly when a final status is given and the transaction is a PENDING deposit |
| Transactions.Settled | backend/src/routes/transactions.js:210-220 | the confirmed deposit takes the final status and the payment id (none when blank) and keeps its owner, order, kind, amount and method |
| Transactions.ConfirmStep | backend/src/routes/transactions.js:156-260 | the balance is reported updated exactly for SUCCESS, and then exactly one DEPOSIT_SUCCESSFUL notification for the deposit's owner and amount is appended; otherwise no notification |
| Transactions.ConfirmEffect | backend/src/routes/transactions.js:210-250 | the deposit is settled with the final status and payment id; SUCCESS credits exactly its amount and appends one success notification; FAILED and CANCELLED credit and notify nothing; every other table is unchanged |
| Transactions.ConfirmKeeps | backend/src/routes/transactions.js:210-240 | confirming keeps the ledger and every integrity rule, and turns no balance negative |
| Transactions.ConfirmPayment | backend/src/routes/transactions.js:210-250 | the handler's writes agree with the step and keep the store valid |
| Transactions.DepositCreditedOnce | backend/src/routes/transactions.js:194-228 | a deposit is credited at most once: a second confirmation is refused |
| Transactions.WithdrawalError | backend/src/routes/transactions.js:263-323 | a withdrawal passes exactly when the user is known, the amount positive and covered by the balance |
| Transactions.WithdrawalStep | backend/src/routes/transactions.js:263-385 | the funds leave the balance at once, held by a PENDING withdrawal |
| Transactions.WithdrawalEffect | backend/src/routes/transactions.js:326-360 | exactly the amount leaves the balance, never below zero, recorded as a PENDING withdrawal of the negated amount, with one WITHDRAWAL_INITIATED notification appended; every other table is unchanged |
| Transactions.WithdrawalKeeps | backend/src/routes/transactions.js:326-360 | a withdrawal keeps the ledger and every integrity rule, and turns no balance negative |
| Transactions.WithdrawalOf | backend/src/routes/transactions.js:326-342 | the withdrawal row belongs to the user, is a PENDING WITHDRAWAL of the negated amount, and so takes exactly the amount off the user's ledger sum |
| Transactions.InitiateWithdrawal | backend/src/routes/transactions.js:326-375 | the handler's writes agree with the step and keep the store valid |
| Transactions.Abs | backend/src/routes/transactions.js:467 | `Math.abs`: the magnitude, never negative |
| Transactions.ProcessError | backend/src/routes/transactions.js:388-449 | processing passes exactly when a final status is given and the transaction is a PENDING withdrawal |
| Transactions.ProcessStep | backend/src/routes/transactions.js:388-514 | a failed or cancelled withdrawal gives the held funds back; the fee only enters the response |
| Transactions.ProcessEffect | backend/src/routes/transactions.js:452-500 | the withdrawal leaves PENDING; failed or cancelled, exactly the held amount returns with one WITHDRAWAL_FAILED warning appended; paid out, no balance moves, no notification is added and the net amount is the held amount less the fee; every other table is unchanged |
| Transactions.ProcessKeeps | backend/src/routes/transactions.js:452-485 | processing keeps the ledger and every integrity rule, and turns no balance negative |
| Transactions.ProcessWithdrawal | backend/src/routes/transactions.js:452-505 | the handler's writes agree with the step and keep the store valid |
| Transactions.WithdrawalFailedRestoresBalance | backend/src/routes/transactions.js:326-470 | a withdrawal initiated and then failed leaves the balance where it started |
| Services.AddProductValid | backend/src/routes/services.js:232-250 | adding a product whose provider and category exist keeps every integrity rule |
| Services.ReplaceProductValid | backend/src/routes/services.js:402-406 | replacing a product by one whose references exist keeps every integrity rule |
| Services.CustomProduct | backend/src/routes/services.js:226-250 | the created product is priced at the provider's markup, custom-named (falling back to the name), active unless `isActive` is false, custom and not imported, and keeps a given provider-side id or else gets `custom_` followed by the clock's digits |
| Services.CreateError | backend/src/routes/services.js:153-225 | a create passes exactly when every required field is truthy, the range is valid, the cost positive and the provider (and category, if given) exist |
| Services.CreateStep | backend/src/routes/services.js:153-278 | the new service is stored under the next identifier; a refused request changes nothing |
| Services.CreateEffect | backend/src/routes/services.js:227-250 | the new service has a valid range, a positive cost and the provider-markup price (never below cost, above it exactly when cost × markup ≥ 50); name and description defaults apply; only the product table changes |
| Services.CreateKeeps | backend/src/routes/services.js:232-250 | a create keeps every integrity rule and touches no user, order or transaction |
| Services.CreateService | backend/src/routes/services.js:232-278 | the handler's write agrees with the step and keeps the store valid |
| Services.UpdatedProduct | backend/src/routes/services.js:375-399 | the provider and cost are the supplied or stored ones; the price is recomputed at the resulting provider's markup when the cost or the provider is supplied and kept otherwise; the provider-side id and origin flags are kept |
| Services.UpdateError | backend/src/routes/services.js:281-372 | an update passes exactly when the service exists, the merged range is valid, a supplied cost is non-negative, and any changed provider or category exists |
| Services.UpdateStep | backend/src/routes/services.js:281-433 | a refused update changes nothing |
| Services.UpdatedFields | backend/src/routes/services.js:375-399 | exactly the supplied fields are written; the price follows the cost and the resulting provider's markup when either is supplied, and is untouched otherwise |
| Services.UpdateEffect | backend/src/routes/services.js:375-406 | the updated service points at existing provider and category, has a valid range and a non-negative supplied cost |
| Services.UpdateKeeps | backend/src/routes/services.js:402-406 | an update keeps every integrity rule and touches no user, order or transaction |
| Services.UpdateService | backend/src/routes/services.js:375-433 | the handler's write agrees with the step and keeps the store valid |
| Services.FindOrder | backend/src/routes/services.js:463-471 | the order found is on the product (and open when asked), and none is found only when there is none |
| Services.DeleteError | backend/src/routes/services.js:436-479 | a delete is refused for a missing service, for an open order on it, and by the store for any order on it |
| Services.DeleteStep | backend/src/routes/services.js:436-499 | a delete removes exactly the one product and answers with it |
| Services.DeleteKeeps | backend/src/routes/services.js:481-483 | a delete keeps every integrity rule |
| Services.DeleteService | backend/src/routes/services.js:481-499 | the handler's write agrees with the step and keeps the store valid |
| Services.BulkCreateItem | backend/src/routes/services.js:527-600 | a bulk create item checks only field presence and the provider; the store refuses an unknown category |
| Services.BulkCreateAgreesWithCreate | backend/src/routes/services.js:527-600 | where the create handler accepts an item, the bulk create does exactly the same |
| Services.BulkCreateSkipsRangeAndPrice | backend/src/routes/services.js:540-568 | a bulk create accepts an invalid range or a negative cost that the create handler refuses |
| Services.Patched | backend/src/routes/services.js:641-644 | each supplied field (names, descriptions, category, provider, service type, quantity bounds, cost, price, activity, provider-side id) replaces the stored one, and each field not supplied is kept; the origin flags never change |
| Services.PatchedWithNothing | backend/src/routes/services.js:641-644 | a body that supplies no field leaves the product as it was |
| Services.BulkUpdateItem | backend/src/routes/services.js:605-660 | an item is accepted exactly when it names an existing service and the patched product's provider and category (when set) exist; a missing id, an unknown service and a store refusal give their own errors; a refused item changes nothing |
| Services.BulkUpdateEffect | backend/src/routes/services.js:632-645 | a supplied cost is priced at the markup of the product's provider BEFORE the update; otherwise the supplied or stored price is kept |
| Services.FindKey | backend/src/routes/services.js:739-745 | the product found carries the upsert key, and none is found only when none carries it |
| Services.ImportedProduct | backend/src/routes/services.js:771-790 | an imported product has the item's key and provider; its name and custom name are the item's name, its description and custom description the item's description, and its category, service type and quantity bounds the item's; its cost is priced at the provider's markup; it is active, imported and not custom |
| Services.Refreshed | backend/src/routes/services.js:748-761 | a refreshed product takes the item's name, service type, quantity bounds and cost (priced at the provider's markup), and its description and category when given (keeping the stored ones otherwise); it keeps its key, custom name, custom description, activity and origin flags |
| Services.ImportItem | backend/src/routes/services.js:716-805 | an item missing a required field fails; otherwise it refreshes or adds a product |
| Services.ImportUpsert | backend/src/routes/services.js:739-797 | an imported item ends as a product with its key, cost and the provider's current-markup price; an existing keyed product is refreshed and none added, otherwise exactly one is added |
| Services.FindKeyLowest | backend/src/routes/services.js:739-745 | the lowest keyed identifier is the one found |
| Services.ImportTwiceAddsNothing | backend/src/routes/services.js:739-797 | importing the same item twice adds at most one product |
| Services.ImportKeeps | backend/src/routes/services.js:751-790 | an import item keeps every integrity rule |
| Services.ItemKeeps | backend/src/routes/services.js:527-805 | every batch item keeps every integrity rule; only the product table and the identifier counter may change |
| Services.RunBatch | backend/src/routes/services.js:527-660 | one outcome per item; the tables stay valid; only the product table and the identifier counter change (providers, categories, markup history, users, orders, transactions and notifications are untouched) |
| Services.RunBatchOutcome | backend/src/routes/services.js:527-660 | each item's outcome is its step on the tables the earlier items left; a failing item neither stops nor undoes the others |
| Services.OutcomesPartition | backend/src/routes/services.js:665-668 | every item lands in exactly one of `results` and `errors` |
| Services.Report | backend/src/routes/services.js:665-669 | successful + failed = total = number of items |
| Services.ParseOperation | backend/src/routes/services.js:514 | exactly `create` and `update` are operations |
| Services.BulkStep | backend/src/routes/services.js:502-677 | an empty or missing list and an unknown operation are refused before any item runs |
| Services.ImportStep | backend/src/routes/services.js:680-824 | a missing provider, an empty list and an unknown provider are refused before any item runs |
| Services.CreateItem | backend/src/routes/services.js:540-595 | one bulk create item's writes agree with its step |
| Services.UpdateItem | backend/src/routes/services.js:605-650 | one bulk update item's writes agree with its step |
| Services.ImportOne | backend/src/routes/services.js:716-800 | one import item's writes agree with its step |
| Services.ApplyItem | backend/src/routes/services.js:527-805 | one item of a batch, as its step says |
| Services.RunItems | backend/src/routes/services.js:527-668 | the item loop leaves exactly the run's tables and answers with its report |
| Services.BulkServices | backend/src/routes/services.js:502-677 | the bulk handler agrees with its step and keeps the store valid |
| Services.ImportServices | backend/src/routes/services.js:680-824 | the import handler agrees with its step and keeps the store valid |
| Admin.MarkupError | backend/src/routes/admin.js:31-64 | a markup change passes exactly when a provider and markup are given (0 counts as given), the markup is within 0..1000 and the provider exists |
| Admin.MarkupStep | backend/src/routes/admin.js:29-119 | a refused change leaves the tables as they were |
| Admin.HistoryRow | backend/src/routes/admin.js:74-82 | the history row records the provider and both markups, `admin` as author, and the given reason or a non-empty default |
| Admin.MarkupEffect | backend/src/routes/admin.js:66-113 | the provider gets the new markup; exactly one history row with old and new markup and the defaulted reason is appended; every product of the provider is priced at the new markup from its unchanged cost; other products are untouched; `servicesUpdated` counts the provider's products |
| Admin.MarkupKeeps | backend/src/routes/admin.js:66-98 | a markup change keeps every integrity rule |
| Admin.MarkupRepeat | backend/src/routes/admin.js:66-98 | repeating a change leaves the prices as they are but appends another history row |
| Admin.RepriceAll | backend/src/routes/admin.js:86-98 | the repricing loop gives exactly the repriced product table and counts the provider's products |
| Admin.UpdateMarkup | backend/src/routes/admin.js:66-113 | the handler's writes agree with the step and keep the store valid |
| Admin.AdminImportStep | backend/src/routes/admin.js:122-273 | the admin import does what the services import does, and also answers with the provider and its markup |
| Admin.AdminImport | backend/src/routes/admin.js:122-273 | the handler's writes agree with the step and keep the store valid |
| Providers.MaskApiKey | backend/src/routes/providers.js:189-192 | the mask is three stars then the key's last four characters (the whole key when shorter) |
| Providers.MaskHidesPrefix | backend/src/routes/providers.js:189-192 | keys that end alike are masked alike |
| Providers.MaskNeverFullKey | backend/src/routes/providers.js:189-192 | a key longer than four characters is never shown in full |
| Providers.Masked | backend/src/routes/providers.js:280-284 | a response differs from the provider only in its masked key |
| Providers.QueryInt | backend/src/routes/providers.js:14-15 | `parseInt(q) \|\| d` is the parsed number when it parses to a non-zero value, the default otherwise, and so never zero for a non-zero default |
| Providers.CeilDiv | backend/src/routes/providers.js:52 | `Math.ceil(count / limit)` for a positive limit is the least page count covering the items |
| Providers.Paginate | backend/src/routes/providers.js:14-54 | the page and limit reported are never zero, the count is reported as is, and there is a previous page exactly from page 2 on |
| Providers.PaginateMeaning | backend/src/routes/providers.js:52-54 | with a positive limit the pages just cover the count; there is a next page exactly when items remain after the current one, and a previous page exactly past the first |
| Providers.PaginateDefaults | backend/src/routes/providers.js:14-54 | concrete pagination blocks |
| Providers.NewProvider | backend/src/routes/providers.js:176-186 | the new provider has the given name, key and URL, is active unless `isActive` is false, has markup 10 when none is given and an allowed markup in 0..1000, and a non-empty currency that is IDR by default |
| Providers.CreateError | backend/src/routes/providers.js:133-173 | a create passes exactly when name, key and base URL are given, a supplied markup lies in 0..1000, and no provider shares the name or the base URL |
| Providers.CreateStep | backend/src/routes/providers.js:133-204 | the new provider is stored under the next identifier and answered masked; a refused request changes nothing |
| Providers.CreateEffect | backend/src/routes/providers.js:176-191 | the markup is within 0..1000 and 10 when omitted or 0; active by default; currency IDR by default; name and base URL unique; the key is shown masked |
| Providers.CreateKeeps | backend/src/routes/providers.js:176-186 | a create keeps every integrity rule |
| Providers.CreateProvider | backend/src/routes/providers.js:176-204 | the handler's write agrees with the step and keeps the store valid |
| Providers.UpdatedProvider | backend/src/routes/providers.js:264-278 | each supplied field replaces the stored one and every other field is kept; a body that supplies nothing leaves the provider as it was |
| Providers.UpdateError | backend/src/routes/providers.js:207-258 | an update passes exactly when the provider exists, a supplied markup lies in 0..1000, and, when a truthy name or base URL changes, no other provider shares the resulting pair |
| Providers.UpdateStep | backend/src/routes/providers.js:207-296 | a refused update changes nothing |
| Providers.UpdateEffect | backend/src/routes/providers.js:260-284 | exactly the supplied fields are written; the markup stays within 0..1000; no product is repriced; the key is shown masked |
| Providers.UpdateKeeps | backend/src/routes/providers.js:239-272 | an update keeps non-empty names and base URLs unique and every other integrity rule |
| Providers.UpdateProvider | backend/src/routes/providers.js:260-296 | the handler's write agrees with the step and keeps the store valid |
| Providers.DeleteError | backend/src/routes/providers.js:299-340 | a delete passes exactly when the provider exists and owns no product |
| Providers.DeleteStep | backend/src/routes/providers.js:299-359 | a delete removes exactly the one provider and answers with its id and name |
| Providers.DeleteKeeps | backend/src/routes/providers.js:333-344 | a delete leaves no product without its provider |
| Providers.DeleteProvider | backend/src/routes/providers.js:342-359 | the handler's write agrees with the step and keeps the store valid |
| Categories.Filed | backend/src/routes/categories.js:262-288 | the products counted are exactly those filed under the category |
| Categories.NewCategory | backend/src/routes/categories.js:156-164 | the new category has the given name, a description and icon exactly when non-empty ones are given, is active unless `isActive` is false, and has the given sort order or 0 |
| Categories.CreateError | backend/src/routes/categories.js:127-153 | a create passes exactly when a name is given and no category has it |
| Categories.CreateStep | backend/src/routes/categories.js:127-176 | the new category is stored under the next identifier; a refused request changes nothing |
| Categories.CreateEffect | backend/src/routes/categories.js:155-164 | the name is unique; description and icon are stored only when truthy; active by default; sort order 0 by default |
| Categories.CreateKeeps | backend/src/routes/categories.js:155-164 | a create keeps every integrity rule |
| Categories.CreateCategory | backend/src/routes/categories.js:155-176 | the handler's write agrees with the step and keeps the store valid |
| Categories.UpdatedCategory | backend/src/routes/categories.js:222-229 | each supplied field replaces the stored one and every other field is kept; a body that supplies nothing leaves the category as it was |
| Categories.UpdateError | backend/src/routes/categories.js:179-235 | an update passes exactly when the category exists and no other category holds the resulting name; a truthy changed name that is taken is a conflict |
| Categories.UpdateRejectedOnlyEmpty | backend/src/routes/categories.js:207-229 | in a store with unique names, the only name the handler lets through to the store's refusal is the empty one |
| Categories.UpdateStep | backend/src/routes/categories.js:179-245 | a refused update changes nothing |
| Categories.UpdateEffect | backend/src/routes/categories.js:221-235 | exactly the supplied fields are written and the name stays unique |
| Categories.UpdateKeeps | backend/src/routes/categories.js:207-235 | an update keeps category names pairwise distinct and every other integrity rule |
| Categories.UpdateCategory | backend/src/routes/categories.js:221-245 | the handler's write agrees with the step and keeps the store valid |
| Categories.DeleteError | backend/src/routes/categories.js:248-290 | a delete passes exactly when the category exists and no product is filed under it |
| Categories.DeleteStep | backend/src/routes/categories.js:248-308 | a delete removes exactly the one category and answers with its id and name |
| Categories.DeleteKeeps | backend/src/routes/categories.js:282-295 | a delete leaves no product filed under a missing category |
| Categories.DeleteCategory | backend/src/routes/categories.js:292-308 | the handler's write agrees with the step and keeps the store valid |
| Users.IsAlnumId | backend/src/routes/users.js:89-90 | `/^[a-z0-9]{1,}$/i`: an accepted id is non-empty and holds no white space and no hyphen |
| Users.UserIdError | backend/src/routes/users.js:79-97 | an id is refused exactly when, once trimmed, it is not one or more ASCII letters or digits |
| Users.UserIdAccepted | backend/src/routes/users.js:79-101 | an accepted id is looked up trimmed, and an id free of white space is accepted exactly when it is alphanumeric |
| Users.UserIdExamples | backend/src/routes/users.js:88-97 | `invalid-id` and a blank id are refused; `99999` and a padded alphanumeric id are accepted |
| Users.IsEmail | backend/src/routes/users.js:151-152 | an address the email pattern accepts has at least five characters |
| Users.EmailShape | backend/src/routes/users.js:152 | an accepted email has exactly one `@`, no white space and at least five characters |
| Users.EmailIntro | backend/src/routes/users.js:152 | every non-empty local part and dotted domain form an accepted email |
| Users.EmailAccepted | backend/src/routes/users.js:152-153 | `test@example.com` is accepted |
| Users.EmailRefused | backend/src/routes/users.js:152-153 | `invalid-email`, `a@b` and `a b@c.d` are refused |
| Users.NewUser | backend/src/routes/users.js:175-181 | the new user has the given email and name, the given role or CUSTOMER, the given balance or 0, and is active unless `isActive` is false |
| Users.CreateError | backend/src/routes/users.js:136-172 | a create passes exactly when email and name are given, the email is well formed and no user has it (and the store's new id is free) |
| Users.CreateStep | backend/src/routes/users.js:136-205 | the new user is stored under the store's id; a refused request changes nothing |
| Users.CreateEffect | backend/src/routes/users.js:174-183 | the email is well formed and unique; role CUSTOMER, balance 0 and active by default; no other account changes |
| Users.CreateKeeps | backend/src/routes/users.js:174-183 | a create keeps every integrity rule |
| Users.CreateUser | backend/src/routes/users.js:174-205 | the handler's write agrees with the step and keeps the store valid |
| Users.UpdatedUser | backend/src/routes/users.js:273-278 | each supplied field replaces the stored one and every other field is kept; a body that supplies nothing leaves the user as it was |
| Users.UpdateError | backend/src/routes/users.js:208-272 | an update passes exactly when the id is valid and known, a truthy email is well formed, and no other user holds the resulting email |
| Users.UpdateStep | backend/src/routes/users.js:208-308 | a refused update changes nothing |
| Users.UpdateEffect | backend/src/routes/users.js:274-285 | exactly the supplied fields of the one user are written and the email stays unique |
| Users.UpdateRejectedOnlyEmpty | backend/src/routes/users.js:245-280 | in a store with unique emails, the only email the handler lets through to the store's refusal is the empty one |
| Users.UpdateBalanceOffLedger | backend/src/routes/users.js:275-280 | the balance is set with no transaction: the update keeps the ledger exactly when it leaves the balance unchanged |
| Users.UpdateAcceptsAnyBalance | backend/src/routes/users.js:275-280 | any balance, negative ones included, is accepted for an existing user |
| Users.UpdateKeeps | backend/src/routes/users.js:274-285 | an update keeps emails pairwise distinct and every other integrity rule |
| Users.UpdateUser | backend/src/routes/users.js:274-308 | the handler's write agrees with the step and keeps the store valid |
| Users.DeleteError | backend/src/routes/users.js:311-345 | a delete passes exactly when the id is valid and known and no order, transaction or notification points at the user |
| Users.DeleteStep | backend/src/routes/users.js:311-365 | a delete removes exactly the one user and answers with its id, email and name |
| Users.DeleteKeeps | backend/src/routes/users.js:347-350 | a delete leaves no record pointing at a missing user, and every other user's ledger as it was |
| Users.DeleteUser | backend/src/routes/users.js:347-365 | the handler's write agrees with the step and keeps the store valid |

## Left out

- Express routing, authentication middleware and the HTTP status codes. Each failure is an `ErrorKind` whose comment names the handler's `error` string.
- Dynamic JavaScript types. A request field is absent (`None`) or a value of the expected type. A string where a number is expected, `null`, and floating-point amounts are not modelled. Amounts and prices are integers.
- The difference between `null` and `undefined` in update bodies. A category's description or icon cannot be cleared with `null` in the model.
- Store-generated string identifiers. Catalog rows are numbered by a counter. Orders and transactions are numbered by position, and they are never deleted. The path-id checks of the catalog, order and transaction routes (`id.trim() === ''`) are not modelled. The user id check is modelled.
- Users.CreateUser: the store's generated id is a parameter; the store refuses an id already in use.
- Timestamps are a clock parameter `now`. A bulk create gives every item the same `now`, where the source reads `Date.now()` per item.
- Concurrency and atomicity. A handler runs alone, and its writes, which the source makes in separate awaits, all happen. Two requests racing on one balance are not modelled.
- Cascade and restrict rules of the database schema. The schema file is not part of this model. Required relations are taken to be restrictive: deleting a service with any order, or a user with any order, transaction or notification, is refused by the store.
- The markup history rows are not tied to existing providers.
- `findFirst` without an ordering is taken to return the row with the lowest identifier.
- A role is one of the two roles. An unknown role string is not modelled.
- The `config` JSON of providers, provider and service metadata, and the `include` blocks of responses (only the fields the model keeps are returned).
- Listing, search, filter and statistics endpoints (`GET` lists, `/stats`, `/dashboard`, `/markup-history`). They are database queries. Only the provider list's pagination arithmetic is modelled.
- Provider sync and stats, which call the upstream provider over the network; websockets; the seed script.
- Admin.RepriceAll computes the new product table from the old one and assigns it once. The source updates the products one by one, all at once with `Promise.all`.
- Orders.CancelKeeps promises non-negative balances only for orders with a non-negative total. Bulk creates and imports can store a negative price, because they do not check the cost's sign.
- Orders.UpdateOrderStatus allows every transition, as the source does. Orders.CancelReopenCancel shows the double refund this permits.
- Services.BulkUpdateItem copies only the modelled fields of an item into the product.
- Pricing.Price rounds the exact rational price half up. The handlers compute `cost * (1 + markup / 100)` in double precision, where `1 + markup / 100` is inexact, so a price that is exactly a half can fall just below it and round down: a cost of 50 at a 13% markup gives 56 in the source and 57 here. Prices whose exact value is not a half agree for costs and markups of ordinary size.

=== FILE: admin.dfy ===
/** The administrator's catalog handlers: changing a provider's markup, which
    is logged and reprices every product of the provider, and importing a
    provider's service list. */
module Admin {
  import opened Common
  import opened Model
  import opened Pricing
  import opened Services

  /** The response of a markup change. */
  datatype MarkupChange = MarkupChange(
    providerId: CatalogId, name: string, oldMarkup: int, newMarkup: int, servicesUpdated: nat)

  /** The first check the markup handler fails: a missing provider or markup
      (a markup of 0 is present), a markup outside 0..1000 percent, an
      unknown provider. */
  function MarkupError(t: Tables, providerId: Option<CatalogId>, newMarkup: Option<int>): (e: Option<ErrorKind>)
    ensures e.None? <==>
      providerId.Some? && newMarkup.Some? && 0 <= newMarkup.value <= 1000 && providerId.value in t.providers
    ensures e == Some(MissingFields) <==> providerId.None? || newMarkup.None?
    ensures e == Some(InvalidMarkup) <==>
      providerId.Some? && newMarkup.Some? && (newMarkup.value < 0 || newMarkup.value > 1000)
  {
    if providerId.None? || newMarkup.None? then Some(MissingFields)
    else if newMarkup.value < 0 || newMarkup.value > 1000 then Some(InvalidMarkup)
    else if providerId.value !in t.providers then Some(NotFound)
    else None
  }

  /** The history row of a markup change; the reason defaults when empty. */
  function HistoryRow(providerId: CatalogId, oldMarkup: int, newMarkup: int, reason: Option<string>): (h: MarkupRecord)
    ensures h.providerId == providerId && h.oldMarkup == oldMarkup && h.newMarkup == newMarkup
    ensures h.changedBy == "admin" && h.reason != ""
    ensures Given(reason) ==> h.reason == reason.value
  {
    MarkupRecord(providerId, oldMarkup, newMarkup, "admin", if Given(reason) then reason.value else "Markup updated by admin")
  }

  /** PUT /api/admin/markup: the provider's new markup, one history row, and
      every product of the provider repriced at the new markup. */
  function MarkupStep(t: Tables, providerId: Option<CatalogId>, newMarkup: Option<int>, reason: Option<string>)
    : (s: Step<MarkupChange>)
    ensures s.response.Ok? <==> MarkupError(t, providerId, newMarkup).None?
    ensures s.response.Err? ==> s.tables == t && Some(s.response.kind) == MarkupError(t, providerId, newMarkup)
  {
    var e := MarkupError(t, providerId, newMarkup);
    if e.Some? then Step(t, Err(e.value))
    else
      var pid := providerId.value;
      var m := newMarkup.value;
      var p := t.providers[pid];
      Step(t.(providers := t.providers[pid := p.(markup := m)],
              markupHistory := t.markupHistory + [HistoryRow(pid, p.markup, m, reason)],
              products := RepriceProvider(t.products, pid, m)),
           Ok(MarkupChange(pid, p.name, p.markup, m, |Owned(t.products, pid)|)))
  }

  /** After a markup change the provider carries the new markup and nothing
      else about it changes; exactly one history row is appended, recording
      the previous and the new markup; every product of the provider is
      priced at the new markup from its unchanged cost; the products of other
      providers are untouched; the response counts the provider's products. */
  lemma MarkupEffect(t: Tables, providerId: Option<CatalogId>, newMarkup: Option<int>, reason: Option<string>)
    requires MarkupStep(t, providerId, newMarkup, reason).response.Ok?
    ensures var s := MarkupStep(t, providerId, newMarkup, reason);
      var pid := providerId.value;
      var c := s.response.value;
      && CatalogOnly(t, s.tables) && s.tables.categories == t.categories && s.tables.nextId == t.nextId
      && s.tables.providers == t.providers[pid := t.providers[pid].(markup := newMarkup.value)]
      && c.oldMarkup == t.providers[pid].markup && c.newMarkup == newMarkup.value
      && s.tables.markupHistory == t.markupHistory + [MarkupRecord(pid, c.oldMarkup, c.newMarkup, "admin",
           if Given(reason) then reason.value else "Markup updated by admin")]
      && PricedAt(s.tables.products, pid, s.tables.providers[pid].markup)
      && s.tables.products.Keys == t.products.Keys
      && (forall id :: id in t.products ==>
            s.tables.products[id].originalPrice == t.products[id].originalPrice
            && (t.products[id].providerId != pid ==> s.tables.products[id] == t.products[id]))
      && c.servicesUpdated == |Owned(t.products, pid)|
  {
    RepriceProviderEffect(t.products, providerId.value, newMarkup.value);
  }

  lemma MarkupKeeps(t: Tables, providerId: Option<CatalogId>, newMarkup: Option<int>, reason: Option<string>)
    requires TablesValid(t)
    ensures TablesValid(MarkupStep(t, providerId, newMarkup, reason).tables)
  {
    if MarkupError(t, providerId, newMarkup).None? {
      var s := MarkupStep(t, providerId, newMarkup, reason);
      RepriceProviderEffect(t.products, providerId.value, newMarkup.value);
      assert ProductRefsValid(s.tables.products, s.tables.providers, s.tables.categories);
      assert OrderRefsValid(s.tables.orders, s.tables.users, s.tables.products);
    }
  }

  /** Repeating a markup change with the same markup leaves every price as
      the first left it but appends another history row, recording no
      change. */
  lemma MarkupRepeat(t: Tables, providerId: Option<CatalogId>, newMarkup: Option<int>, reason: Option<string>)
    requires MarkupStep(t, providerId, newMarkup, reason).response.Ok?
    ensures var s1 := MarkupStep(t, providerId, newMarkup, reason);
      var s2 := MarkupStep(s1.tables, providerId, newMarkup, reason);
      && s2.response.Ok?
      && s2.tables.products == s1.tables.products
      && s2.tables.providers == s1.tables.providers
      && |s2.tables.markupHistory| == |s1.tables.markupHistory| + 1
      && s2.response.value.oldMarkup == s2.response.value.newMarkup
  {
    RepriceIdempotent(t.products, providerId.value, newMarkup.value);
  }

  /** The repricing loop: every product the provider owns, fetched once,
      gets the price of its cost at the new markup; `count` is how many were
      fetched. */
  method RepriceAll(products: map<CatalogId, Product>, providerId: CatalogId, markup: int)
    returns (updated: map<CatalogId, Product>, count: nat)
    ensures updated == RepriceProvider(products, providerId, markup)
    ensures count == |Owned(products, providerId)|
  {
    var owned := Owned(products, providerId);
    count := |owned|;
    var todo := owned;
    updated := products;
    while todo != {}
      invariant todo <= owned
      invariant updated.Keys == products.Keys
      invariant forall id :: id in products ==>
        updated[id] == (if id in owned && id !in todo then Repriced(products[id], markup) else products[id])
      decreases |todo|
    {
      var id :| id in todo;
      updated := updated[id := updated[id].(price := Price(products[id].originalPrice, markup))];
      todo := todo - {id};
    }
    assert forall id :: id in products ==> updated[id] == RepriceProvider(products, providerId, markup)[id];
  }

  method UpdateMarkup(db: Store, providerId: Option<CatalogId>, newMarkup: Option<int>, reason: Option<string>)
    returns (r: Result<MarkupChange>)
    requires db.Valid()
    modifies db
    ensures db.Valid()
    ensures Step(db.Snapshot(), r) == MarkupStep(old(db.Snapshot()), providerId, newMarkup, reason)
  {
    ghost var t := db.Snapshot();
    var e := MarkupError(db.Snapshot(), providerId, newMarkup);
    if e.Some? {
      return Err(e.value);
    }
    var pid := providerId.value;
    var m := newMarkup.value;
    var p := db.providers[pid];
    db.providers := db.providers[pid := p.(markup := m)];
    db.markupHistory := db.markupHistory + [HistoryRow(pid, p.markup, m, reason)];
    var updated, count := RepriceAll(db.products, pid, m);
    db.products := updated;
    r := Ok(MarkupChange(pid, p.name, p.markup, m, count));
    assert Step(db.Snapshot(), r) == MarkupStep(t, providerId, newMarkup, reason);
    MarkupKeeps(t, providerId, newMarkup, reason);
  }

  /** The response of an import: the provider with its markup, and the report. */
  datatype ImportSummary = ImportSummary(providerId: CatalogId, name: string, markup: int, report: BatchReport)

  /** POST /api/admin/import: the services import, answering with the
      provider as well. */
  function AdminImportStep(t: Tables, providerId: Option<CatalogId>, services: Option<seq<ServiceFields>>)
    : (s: Step<ImportSummary>)
    requires TablesValid(t)
    ensures var i := ImportStep(t, providerId, services);
      && s.tables == i.tables
      && (s.response.Ok? <==> i.response.Ok?)
      && (s.response.Err? ==> s.response.kind == i.response.kind)
      && (s.response.Ok? ==>
            s.response.value.report == i.response.value
            && s.response.value.providerId == providerId.value
            && s.response.value.markup == t.providers[providerId.value].markup)
  {
    var i := ImportStep(t, providerId, services);
    if i.response.Err? then Step(t, Err(i.response.kind))
    else
      var p := t.providers[providerId.value];
      Step(i.tables, Ok(ImportSummary(providerId.value, p.name, p.markup, i.response.value)))
  }

  method AdminImport(db: Store, providerId: Option<CatalogId>, services: Option<seq<ServiceFields>>)
    returns (r: Result<ImportSummary>)
    requires db.Valid()
    modifies db
    ensures db.Valid()
    ensures Step(db.Snapshot(), r) == AdminImportStep(old(db.Snapshot()), providerId, services)
  {
    if providerId.None? {
      return Err(MissingFields);
    }
    if services.None? || services.value == [] {
      return Err(InvalidServices);
    }
    if providerId.value !in db.providers {
      return Err(NotFound);
    }
    var p := db.providers[providerId.value];
    var rep := RunItems(db, ImportFor(providerId.value), services.value);
    r := Ok(ImportSummary(providerId.value, p.name, p.markup, rep));
  }
}

=== FILE: categories.dfy ===
/** The category handlers: creating, updating and deleting the categories
    services are filed under, with category names kept unique. */
module Categories {
  import opened Common
  import opened Model

  /** The fields of a category in a request body. */
  datatype CategoryFields = CategoryFields(
    name: Option<string>, description: Option<string>, icon: Option<string>,
    isActive: Option<bool>, sortOrder: Option<int>)

  /** Some category other than `except` has the name. */
  predicate NameTaken(categories: map<CatalogId, Category>, name: string, except: Option<CatalogId>) {
    exists id :: id in categories && Some(id) != except && categories[id].name == name
  }

  /** The products filed under category `id`. */
  function Filed(products: map<CatalogId, Product>, id: CatalogId): (s: set<CatalogId>)
    ensures forall k :: k in s <==> k in products && products[k].categoryId == Some(id)
  {
    set k | k in products && products[k].categoryId == Some(id)
  }

  // ---------------------------------------------------------------------------
  // POST /api/categories

  function CreateError(t: Tables, f: CategoryFields): (e: Option<ErrorKind>)
    ensures e.None? <==> Given(f.name) && !NameTaken(t.categories, f.name.value, None)
    ensures e == Some(Conflict) <==> Given(f.name) && NameTaken(t.categories, f.name.value, None)
  {
    if !Given(f.name) then Some(MissingFields)
    else if NameTaken(t.categories, f.name.value, None) then Some(Conflict)
    else None
  }

  /** The category a create writes: a falsy description or icon is stored
      as none, the category is active unless told otherwise, and it sorts at
      0 when no order is given. */
  function NewCategory(f: CategoryFields): (c: Category)
    requires Given(f.name)
    ensures c.name == f.name.value
    ensures (c.description.Some? <==> Given(f.description)) && (c.description.Some? ==> c.description == f.description)
    ensures (c.icon.Some? <==> Given(f.icon)) && (c.icon.Some? ==> c.icon == f.icon)
    ensures c.isActive == (f.isActive != Some(false))
    ensures c.sortOrder == (if f.sortOrder.Some? then f.sortOrder.value else 0)
  {
    Category(f.name.value, if Given(f.description) then f.description else None,
             if Given(f.icon) then f.icon else None, ValueOr(f.isActive, true), ValueOr(f.sortOrder, 0))
  }

  /** POST /api/categories: the new category under the next catalog identifier. */
  function CreateStep(t: Tables, f: CategoryFields): (s: Step<CatalogId>)
    ensures s.response.Ok? <==> CreateError(t, f).None?
    ensures s.response.Err? ==> s.tables == t && Some(s.response.kind) == CreateError(t, f)
    ensures s.response.Ok? ==>
      s.response.value == t.nextId
      && s.tables == t.(categories := t.categories[t.nextId := NewCategory(f)], nextId := t.nextId + 1)
  {
    var e := CreateError(t, f);
    if e.Some? then Step(t, Err(e.value))
    else Step(t.(categories := t.categories[t.nextId := NewCategory(f)], nextId := t.nextId + 1), Ok(t.nextId))
  }

  /** A created category takes a fresh identifier and a name no other
      category has; its description and icon are stored only when truthy,
      it is active unless told otherwise, and its sort order defaults to 0. */
  lemma CreateEffect(t: Tables, f: CategoryFields)
    requires TablesValid(t)
    requires CreateStep(t, f).response.Ok?
    ensures var s := CreateStep(t, f);
      var c := s.tables.categories[s.response.value];
      && s.response.value !in t.categories
      && c.name == f.name.value
      && (forall id :: id in t.categories ==> t.categories[id].name != c.name)
      && (c.description.Some? <==> Given(f.description)) && (c.icon.Some? <==> Given(f.icon))
      && c.isActive == (f.isActive != Some(false))
      && (f.sortOrder.None? ==> c.sortOrder == 0)
  {
  }

  lemma CreateKeeps(t: Tables, f: CategoryFields)
    requires TablesValid(t)
    ensures var s := CreateStep(t, f);
      TablesValid(s.tables) && CatalogOnly(t, s.tables) && s.tables.products == t.products
  {
  }

  method CreateCategory(db: Store, f: CategoryFields) returns (r: Result<CatalogId>)
    requires db.Valid()
    modifies db
    ensures db.Valid()
    ensures Step(db.Snapshot(), r) == CreateStep(old(db.Snapshot()), f)
  {
    ghost var t := db.Snapshot();
    var e := CreateError(db.Snapshot(), f);
    if e.Some? {
      return Err(e.value);
    }
    r := Ok(db.nextId);
    db.categories := db.categories[db.nextId := NewCategory(f)];
    db.nextId := db.nextId + 1;
    assert Step(db.Snapshot(), r) == CreateStep(t, f);
    CreateKeeps(t, f);
  }

  // ---------------------------------------------------------------------------
  // PUT /api/categories/:id

  /** `c` with every supplied field written over it. */
  function UpdatedCategory(c: Category, f: CategoryFields): (d: Category)
    ensures d.name == (if f.name.Some? then f.name.value else c.name)
    ensures d.description == (if f.description.Some? then f.description else c.description)
    ensures d.icon == (if f.icon.Some? then f.icon else c.icon)
    ensures d.isActive == (if f.isActive.Some? then f.isActive.value else c.isActive)
    ensures d.sortOrder == (if f.sortOrder.Some? then f.sortOrder.value else c.sortOrder)
    ensures f == CategoryFields(None, None, None, None, None) ==> d == c
  {
    c.(name := ValueOr(f.name, c.name),
       description := if f.description.Some? then f.description else c.description,
       icon := if f.icon.Some? then f.icon else c.icon,
       isActive := ValueOr(f.isActive, c.isActive), sortOrder := ValueOr(f.sortOrder, c.sortOrder))
  }

  /** The first check the update fails: an unknown category; a truthy new
      name another category holds; and, past the handler's checks, the
      store's unique index refusing a name another category holds (the
      empty name, which the handler does not check). */
  function UpdateError(t: Tables, id: CatalogId, f: CategoryFields): (e: Option<ErrorKind>)
    ensures e.None? <==>
      id in t.categories && !NameTaken(t.categories, ValueOr(f.name, t.categories[id].name), Some(id))
    ensures e == Some(Conflict) <==>
      id in t.categories && Given(f.name) && f.name.value != t.categories[id].name
      && NameTaken(t.categories, f.name.value, None)
  {
    if id !in t.categories then Some(NotFound)
    else
      var c := t.categories[id];
      if Given(f.name) && f.name.value != c.name && NameTaken(t.categories, f.name.value, None) then Some(Conflict)
      else if NameTaken(t.categories, ValueOr(f.name, c.name), Some(id)) then Some(StoreRejected)
      else None
  }

  /** In a store whose names are unique, the only name the handler lets
      through to the unique index's refusal is the empty one. */
  lemma UpdateRejectedOnlyEmpty(t: Tables, id: CatalogId, f: CategoryFields)
    requires CategoryNamesDistinct(t.categories)
    requires UpdateError(t, id, f) == Some(StoreRejected)
    ensures f.name == Some("")
  {
    var c := t.categories[id];
    var k :| k in t.categories && Some(k) != Some(id) && t.categories[k].name == ValueOr(f.name, c.name);
    assert k != id && t.categories[k].name != c.name;
  }

  function UpdateStep(t: Tables, id: CatalogId, f: CategoryFields): (s: Step<Category>)
    ensures s.response.Ok? <==> UpdateError(t, id, f).None?
    ensures s.response.Err? ==> s.tables == t && Some(s.response.kind) == UpdateError(t, id, f)
  {
    var e := UpdateError(t, id, f);
    if e.Some? then Step(t, Err(e.value))
    else
      var c := UpdatedCategory(t.categories[id], f);
      Step(t.(categories := t.categories[id := c]), Ok(c))
  }

  /** An update writes exactly the supplied fields of the one category and
      leaves it with a name no other category has. */
  lemma UpdateEffect(t: Tables, id: CatalogId, f: CategoryFields)
    requires TablesValid(t)
    requires UpdateStep(t, id, f).response.Ok?
    ensures var s := UpdateStep(t, id, f);
      var c := t.categories[id];
      var d := s.response.value;
      && s.tables == t.(categories := t.categories[id := d])
      && d.name == (if f.name.Some? then f.name.value else c.name)
      && d.description == (if f.description.Some? then f.description else c.description)
      && d.icon == (if f.icon.Some? then f.icon else c.icon)
      && d.isActive == (if f.isActive.Some? then f.isActive.value else c.isActive)
      && d.sortOrder == (if f.sortOrder.Some? then f.sortOrder.value else c.sortOrder)
      && (forall k :: k in t.categories && k != id ==> t.categories[k].name != d.name)
  {
  }

  lemma UpdateKeeps(t: Tables, id: CatalogId, f: CategoryFields)
    requires TablesValid(t)
    ensures var s := UpdateStep(t, id, f);
      TablesValid(s.tables) && CatalogOnly(t, s.tables) && s.tables.products == t.products
  {
    if UpdateError(t, id, f).None? {
      var c := UpdatedCategory(t.categories[id], f);
      var cs := t.categories[id := c];
      forall a, b | a in cs && b in cs && a != b
        ensures cs[a].name != cs[b].name
      {
        if a == id {
          assert !(b in t.categories && Some(b) != Some(id) && t.categories[b].name == c.name);
        } else if b == id {
          assert !(a in t.categories && Some(a) != Some(id) && t.categories[a].name == c.name);
        }
      }
    }
  }

  method UpdateCategory(db: Store, id: CatalogId, f: CategoryFields) returns (r: Result<Category>)
    requires db.Valid()
    modifies db
    ensures db.Valid()
    ensures Step(db.Snapshot(), r) == UpdateStep(old(db.Snapshot()), id, f)
  {
    ghost var t := db.Snapshot();
    var e := UpdateError(db.Snapshot(), id, f);
    if e.Some? {
      return Err(e.value);
    }
    var c := UpdatedCategory(db.categories[id], f);
    db.categories := db.categories[id := c];
    r := Ok(c);
    assert Step(db.Snapshot(), r) == UpdateStep(t, id, f);
    UpdateKeeps(t, id, f);
  }

  // ---------------------------------------------------------------------------
  // DELETE /api/categories/:id

  /** The identifier and name a delete answers with. */
  datatype Deleted = Deleted(id: CatalogId, name: string)

  function DeleteError(t: Tables, id: CatalogId): (e: Option<ErrorKind>)
    ensures e.None? <==> id in t.categories && Filed(t.products, id) == {}
    ensures e == Some(HasDependants) <==> id in t.categories && Filed(t.products, id) != {}
  {
    if id !in t.categories then Some(NotFound)
    else if |Filed(t.products, id)| > 0 then Some(HasDependants)
    else None
  }

  /** DELETE /api/categories/:id: refused while a product is filed under it. */
  function DeleteStep(t: Tables, id: CatalogId): (s: Step<Deleted>)
    ensures s.response.Ok? <==> DeleteError(t, id).None?
    ensures s.response.Err? ==> s.tables == t && Some(s.response.kind) == DeleteError(t, id)
    ensures s.response.Ok? ==>
      && s.tables == t.(categories := s.tables.categories)
      && s.tables.categories.Keys == t.categories.Keys - {id}
      && (forall k :: k in s.tables.categories ==> s.tables.categories[k] == t.categories[k])
      && s.response.value == Deleted(id, t.categories[id].name)
  {
    var e := DeleteError(t, id);
    if e.Some? then Step(t, Err(e.value))
    else Step(t.(categories := t.categories - {id}), Ok(Deleted(id, t.categories[id].name)))
  }

  /** Deleting a category leaves no product filed under a missing category. */
  lemma DeleteKeeps(t: Tables, id: CatalogId)
    requires TablesValid(t)
    ensures var s := DeleteStep(t, id);
      TablesValid(s.tables) && CatalogOnly(t, s.tables)
  {
    if DeleteError(t, id).None? {
      var s := DeleteStep(t, id);
      forall k | k in t.products && t.products[k].categoryId.Some?
        ensures t.products[k].categoryId.value in s.tables.categories
      {
        assert k !in Filed(t.products, id);
      }
    }
  }

  method DeleteCategory(db: Store, id: CatalogId) returns (r: Result<Deleted>)
    requires db.Valid()
    modifies db
    ensures db.Valid()
    ensures Step(db.Snapshot(), r) == DeleteStep(old(db.Snapshot()), id)
  {
    ghost var t := db.Snapshot();
    var e := DeleteError(db.Snapshot(), id);
    if e.Some? {
      return Err(e.value);
    }
    r := Ok(Deleted(id, db.categories[id].name));
    db.categories := db.categories - {id};
    assert Step(db.Snapshot(), r) == DeleteStep(t, id);
    DeleteKeeps(t, id);
  }
}

=== FILE: common.dfy ===
/** Shared vocabulary of the route handlers: optional request fields, typed
    outcomes, the error kinds the handlers answer with, and the two string
    helpers the handlers lean on (JavaScript's `trim` and the decimal
    rendering of numbers inside messages). */
module Common {

  /** A request field that may be absent (`undefined` in the request body). */
  datatype Option<+T> = None | Some(value: T)

  /** The stable, machine-readable failure of a handler; each constructor
      corresponds to one `error` string the handlers answer with. */
  datatype ErrorKind =
    | MissingFields           // 'Missing required fields' / 'Missing status' / 'Missing provider ID'
    | InvalidQuantity         // 'Invalid quantity'
    | InvalidLink             // 'Invalid link'
    | Unauthorized            // 'Unauthorized' (no user id)
    | NotFound                // '... not found'
    | Suspended               // 'Account suspended'
    | ServiceUnavailable      // 'Service unavailable'
    | ProviderUnavailable     // 'Provider unavailable'
    | InsufficientBalance     // 'Insufficient balance'
    | InvalidStatus           // 'Invalid status'
    | Forbidden               // 'Forbidden'
    | CannotCancel            // 'Cannot cancel order'
    | InvalidAmount           // 'Invalid amount'
    | InvalidPaymentMethod    // 'Invalid payment method'
    | InvalidTransactionType  // 'Invalid transaction type'
    | InvalidTransactionState // 'Invalid transaction status'
    | InvalidQuantityRange    // 'Invalid quantity range'
    | InvalidPrice            // 'Invalid price'
    | InvalidMarkup           // 'Invalid markup percentage'
    | InvalidServices         // 'Invalid services data'
    | InvalidOperation        // 'Invalid operation'
    | Conflict                // 409: name, base URL or email already in use
    | HasDependants           // 'Cannot delete ...' while dependants exist
    | InvalidEmail            // 'Invalid email format'
    | InvalidId               // 'Invalid user ID'
    | StoreRejected           // the data store refuses the write (unique index, required relation)

  /** The outcome of a handler: its response data, or the error it answers with. */
  datatype Result<+T> = Ok(value: T) | Err(kind: ErrorKind)

  /** JavaScript truthiness of an optional string: present and not empty. */
  predicate Given(s: Option<string>) {
    s.Some? && s.value != ""
  }

  /** JavaScript truthiness of an optional number: present and not zero. */
  predicate GivenNumber(n: Option<int>) {
    n.Some? && n.value != 0
  }

  /** `a || b` on optional strings: `a` when it is truthy, otherwise `b`. */
  function OrElse(a: Option<string>, b: Option<string>): (r: Option<string>)
    ensures Given(a) ==> r == a
    ensures !Given(a) ==> r == b
  {
    if Given(a) then a else b
  }

  /** `s || d` for an optional string: `s` when it is truthy, otherwise `d`. */
  function TextOr(s: Option<string>, d: string): (r: string)
    ensures Given(s) ==> r == s.value
    ensures !Given(s) ==> r == d
  {
    if Given(s) then s.value else d
  }

  /** A request field when it is supplied (`!== undefined`), otherwise `d`. */
  function ValueOr<T>(o: Option<T>, d: T): T {
    if o.Some? then o.value else d
  }

  /** The characters JavaScript's `trim` removes and the regular-expression
      class `\s` matches: white space and line terminators. */
  predicate IsSpace(c: char) {
    c == ' ' || c == '\t' || c == '\n' || c == '\r' || c == '\U{000B}' || c == '\U{000C}'
    || c == '\U{00A0}' || c == '\U{1680}' || ('\U{2000}' <= c <= '\U{200A}')
    || c == '\U{2028}' || c == '\U{2029}' || c == '\U{202F}' || c == '\U{205F}'
    || c == '\U{3000}' || c == '\U{FEFF}'
  }

  /** The first position at or after `i` that does not hold white space
      (`|s|` when there is none). */
  function SkipSpaces(s: string, i: nat): (k: nat)
    requires i <= |s|
    ensures i <= k <= |s|
    ensures forall j :: i <= j < k ==> IsSpace(s[j])
    ensures k < |s| ==> !IsSpace(s[k])
    decreases |s| - i
  {
    if i < |s| && IsSpace(s[i]) then SkipSpaces(s, i + 1) else i
  }

  /** The end of `s[lo..j]` once its trailing white space is dropped. */
  function SkipSpacesBack(s: string, lo: nat, j: nat): (k: nat)
    requires lo <= j <= |s|
    ensures lo <= k <= j
    ensures forall m :: k <= m < j ==> IsSpace(s[m])
    ensures lo < k ==> !IsSpace(s[k - 1])
  {
    if lo < j && IsSpace(s[j - 1]) then SkipSpacesBack(s, lo, j - 1) else j
  }

  /** Every character of `s` is white space. */
  predicate AllSpace(s: string) {
    forall k :: 0 <= k < |s| ==> IsSpace(s[k])
  }

  /** JavaScript's `String.prototype.trim`: `s` without its leading and
      trailing white space. */
  function Trim(s: string): (r: string)
    ensures r == [] || (!IsSpace(r[0]) && !IsSpace(r[|r| - 1]))
    ensures exists i, j :: 0 <= i <= j <= |s| && r == s[i..j] && AllSpace(s[..i]) && AllSpace(s[j..])
  {
    var a := SkipSpaces(s, 0);
    var b := SkipSpacesBack(s, a, |s|);
    assert AllSpace(s[..a]) && AllSpace(s[b..]);
    s[a..b]
  }

  /** `trimStart`: `s` without its leading white space. */
  function TrimStart(s: string): (r: string)
    ensures |r| <= |s| && r == s[|s| - |r|..] && AllSpace(s[..|s| - |r|])
    ensures r == [] || !IsSpace(r[0])
    ensures !AllSpace(s) ==> r != []
  {
    var a := SkipSpaces(s, 0);
    assert AllSpace(s[..a]);
    s[a..]
  }

  /** `trimEnd`: `s` without its trailing white space. */
  function TrimEnd(s: string): (r: string)
    ensures |r| <= |s| && r == s[..|r|] && AllSpace(s[|r|..])
    ensures r == [] || !IsSpace(r[|r| - 1])
    ensures !AllSpace(s) ==> r != []
  {
    var b := SkipSpacesBack(s, 0, |s|);
    assert AllSpace(s[b..]);
    s[..b]
  }

  /** A slice with only white space around it and none at its ends is the trim. */
  lemma TrimUnique(s: string, i: nat, j: nat)
    requires i < j <= |s| && AllSpace(s[..i]) && AllSpace(s[j..])
    requires !IsSpace(s[i]) && !IsSpace(s[j - 1])
    ensures Trim(s) == s[i..j]
  {
    forall k | 0 <= k < i
      ensures IsSpace(s[k])
    {
      assert s[..i][k] == s[k];
    }
    forall k | j <= k < |s|
      ensures IsSpace(s[k])
    {
      assert s[j..][k - j] == s[k];
    }
    assert SkipSpaces(s, 0) == i;
    assert SkipSpacesBack(s, i, |s|) == j;
  }

  /** Trimming a joined string whose halves both hold text trims the front
      of the first half and the back of the second. */
  lemma TrimJoin(x: string, y: string)
    requires !AllSpace(x) && !AllSpace(y)
    ensures Trim(x + y) == TrimStart(x) + TrimEnd(y)
  {
    var s := x + y;
    var u, v := TrimStart(x), TrimEnd(y);
    var i, j := |x| - |u|, |x| + |v|;
    assert s[..i] == x[..i];
    assert s[j..] == y[|v|..];
    assert s[i] == u[0];
    assert s[j - 1] == v[|v| - 1];
    TrimUnique(s, i, j);
    assert s[i..j] == u + v;
  }

  /** Leading white space is dropped in full when what follows starts with text. */
  lemma TrimAfterBlank(x: string, y: string)
    requires AllSpace(x) && y != [] && !IsSpace(y[0])
    ensures Trim(x + y) == TrimEnd(y)
  {
    var s := x + y;
    var v := TrimEnd(y);
    assert !AllSpace(y);
    var i, j := |x|, |x| + |v|;
    assert s[..i] == x;
    assert s[j..] == y[|v|..];
    assert s[i] == v[0];
    assert s[j - 1] == v[|v| - 1];
    TrimUnique(s, i, j);
    assert s[i..j] == v;
  }

  /** Dropping trailing white space only reaches into the second half of a
      join when that half holds text. */
  lemma TrimEndJoin(x: string, y: string)
    requires !AllSpace(y)
    ensures TrimEnd(x + y) == x + TrimEnd(y)
  {
    var s := x + y;
    var v := TrimEnd(y);
    var j := |x| + |v|;
    forall k | j <= k < |s|
      ensures IsSpace(s[k])
    {
      assert s[k] == y[|v|..][k - j];
    }
    assert s[j - 1] == v[|v| - 1];
    assert SkipSpacesBack(s, 0, |s|) == j;
    assert s[..j] == x + v;
  }

  /** `s.trim() === ''` holds exactly when every character of `s` is white space. */
  lemma TrimEmptyIff(s: string)
    ensures Trim(s) == [] <==> forall i :: 0 <= i < |s| ==> IsSpace(s[i])
  {
    var a := SkipSpaces(s, 0);
    if a < |s| {
      assert !IsSpace(s[a]);
      assert SkipSpacesBack(s, a, |s|) > a;
    }
  }

  /** Trimming twice is trimming once. */
  lemma TrimIdempotent(s: string)
    ensures Trim(Trim(s)) == Trim(s)
  {
    var t := Trim(s);
    if t != [] {
      assert SkipSpaces(t, 0) == 0;
      assert SkipSpacesBack(t, 0, |t|) == |t|;
    }
  }

  predicate IsDigit(c: char) {
    '0' <= c <= '9'
  }

  function DigitChar(d: nat): (c: char)
    requires d < 10
    ensures IsDigit(c)
  {
    "0123456789"[d]
  }

  /** The decimal rendering of a natural number, as a template literal prints it. */
  function Decimal(n: nat): (s: string)
    ensures 1 <= |s|
    ensures forall i :: 0 <= i < |s| ==> IsDigit(s[i])
    ensures n < 10 <==> |s| == 1
  {
    if n < 10 then [DigitChar(n)] else Decimal(n / 10) + [DigitChar(n % 10)]
  }

  /** The value of a string of decimal digits. */
  function DigitsValue(s: string): int
    requires forall i :: 0 <= i < |s| ==> IsDigit(s[i])
  {
    if s == [] then 0 else 10 * DigitsValue(s[..|s| - 1]) + (s[|s| - 1] as int - '0' as int)
  }

  /** Reading back a rendered number gives the number: the rendering is injective. */
  lemma {:induction false} DecimalRoundTrip(n: nat)
    ensures DigitsValue(Decimal(n)) == n
  {
    if n >= 10 {
      var s := Decimal(n);
      assert s[..|s| - 1] == Decimal(n / 10);
      DecimalRoundTrip(n / 10);
    }
  }
}

=== FILE: model.dfy ===
/** The records the route handlers read and write, the enumerations they
    validate against, and the store that holds them all. */
module Model {
  import opened Common

  type UserId = string
  /** Identifier of a provider, a category or a product. */
  type CatalogId = nat
  /** Identifier of an order: its position in the order table. */
  type OrderId = nat
  /** Identifier of a transaction: its position in the transaction table. */
  type TxnId = nat

  datatype Role = Customer | Admin

  /** A customer or an administrator; `balance` is in whole IDR. */
  datatype User = User(email: string, name: string, role: Role, balance: int, isActive: bool)

  /** An upstream provider; `markup` is a percentage. The `config` JSON is not modelled. */
  datatype Provider = Provider(
    name: string, apiKey: string, baseUrl: string, isActive: bool, markup: int, currency: string)

  datatype Category = Category(
    name: string, description: Option<string>, icon: Option<string>, isActive: bool, sortOrder: int)

  /** A service of the catalog; `price` is derived from `originalPrice` and the
      provider's markup when it is written. */
  datatype Product = Product(
    name: string, customName: string, description: Option<string>, customDescription: Option<string>,
    categoryId: Option<CatalogId>, providerId: CatalogId, serviceType: string,
    minQuantity: int, maxQuantity: int, originalPrice: int, price: int,
    isActive: bool, apiServiceId: string, isImported: bool, isCustom: bool)

  datatype OrderStatus = Pending | Processing | InProgress | Completed | Cancelled | Failed | Partial

  /** A customer's order; `totalPrice` is frozen when the order is placed.
      Timestamps are clock ticks. */
  datatype Order = Order(
    userId: UserId, productId: CatalogId, quantity: int, link: string, notes: Option<string>,
    totalPrice: int, status: OrderStatus, startedAt: Option<nat>, completedAt: Option<nat>,
    providerOrderId: Option<string>, providerResponse: Option<string>)

  datatype TxnType = Deposit | Withdrawal | OrderPayment | Refund | ServiceFailedRefund

  datatype TxnStatus = Pending | Success | Failed | Cancelled

  datatype PaymentMethod = Midtrans | Xendit | BankTransfer | EWallet | CreditCard | DebitCard

  /** A ledger entry; `amount` is signed: negative when money leaves the balance. */
  datatype Transaction = Transaction(
    userId: UserId, orderId: Option<OrderId>, kind: TxnType, amount: int, status: TxnStatus,
    paymentMethod: Option<PaymentMethod>, paymentId: Option<string>)

  /** One row of the append-only markup history. */
  datatype MarkupRecord = MarkupRecord(
    providerId: CatalogId, oldMarkup: int, newMarkup: int, changedBy: string, reason: string)

  datatype NoticeTitle = DepositSuccessful | WithdrawalInitiated | WithdrawalFailed
  datatype NoticeLevel = SuccessLevel | InfoLevel | WarningLevel

  /** A user-facing notification written by the ledger handlers; `amount` is the sum it reports. */
  datatype Notification = Notification(userId: UserId, title: NoticeTitle, level: NoticeLevel, amount: int)

  // ---------------------------------------------------------------------------
  // Status and payment-method names as they travel in requests

  function OrderStatusName(s: OrderStatus): string {
    match s
    case Pending => "PENDING"
    case Processing => "PROCESSING"
    case InProgress => "IN_PROGRESS"
    case Completed => "COMPLETED"
    case Cancelled => "CANCELLED"
    case Failed => "FAILED"
    case Partial => "PARTIAL"
  }

  /** The status named by a request, when it is one of the seven valid ones. */
  function ParseOrderStatus(s: string): (r: Option<OrderStatus>)
    ensures r.Some? ==> OrderStatusName(r.value) == s
  {
    if s == "PENDING" then Some(OrderStatus.Pending)
    else if s == "PROCESSING" then Some(Processing)
    else if s == "IN_PROGRESS" then Some(InProgress)
    else if s == "COMPLETED" then Some(Completed)
    else if s == "CANCELLED" then Some(OrderStatus.Cancelled)
    else if s == "FAILED" then Some(OrderStatus.Failed)
    else if s == "PARTIAL" then Some(Partial)
    else None
  }

  /** Every status's own name is accepted, and read back as that status. */
  lemma OrderStatusRoundTrip(s: OrderStatus)
    ensures ParseOrderStatus(OrderStatusName(s)) == Some(s)
  {
    match s
    case Pending =>
    case Processing =>
    case InProgress =>
    case Completed =>
    case Cancelled =>
    case Failed =>
    case Partial =>
  }

  function TxnStatusName(s: TxnStatus): string {
    match s
    case Pending => "PENDING"
    case Success => "SUCCESS"
    case Failed => "FAILED"
    case Cancelled => "CANCELLED"
  }

  /** The final status named by a confirmation or processing request: one of
      SUCCESS, FAILED and CANCELLED (PENDING is not a final status). */
  function ParseFinalStatus(s: string): (r: Option<TxnStatus>)
    ensures r.Some? ==> TxnStatusName(r.value) == s && r.value != TxnStatus.Pending
  {
    if s == "SUCCESS" then Some(Success)
    else if s == "FAILED" then Some(TxnStatus.Failed)
    else if s == "CANCELLED" then Some(TxnStatus.Cancelled)
    else None
  }

  lemma FinalStatusRoundTrip(s: TxnStatus)
    ensures ParseFinalStatus(TxnStatusName(s)) == (if s == TxnStatus.Pending then None else Some(s))
  {
  }

  function PaymentMethodName(m: PaymentMethod): string {
    match m
    case Midtrans => "MIDTRANS"
    case Xendit => "XENDIT"
    case BankTransfer => "BANK_TRANSFER"
    case EWallet => "E_WALLET"
    case CreditCard => "CREDIT_CARD"
    case DebitCard => "DEBIT_CARD"
  }

  /** The payment method named by a deposit request, when it is one of the six accepted. */
  function ParsePaymentMethod(s: string): (r: Option<PaymentMethod>)
    ensures r.Some? ==> PaymentMethodName(r.value) == s
  {
    if s == "MIDTRANS" then Some(Midtrans)
    else if s == "XENDIT" then Some(Xendit)
    else if s == "BANK_TRANSFER" then Some(BankTransfer)
    else if s == "E_WALLET" then Some(EWallet)
    else if s == "CREDIT_CARD" then Some(CreditCard)
    else if s == "DEBIT_CARD" then Some(DebitCard)
    else None
  }

  lemma PaymentMethodRoundTrip(m: PaymentMethod)
    ensures ParsePaymentMethod(PaymentMethodName(m)) == Some(m)
  {
    match m
    case Midtrans =>
    case Xendit =>
    case BankTransfer =>
    case EWallet =>
    case CreditCard =>
    case DebitCard =>
  }

  // ---------------------------------------------------------------------------
  // The ledger: which transactions are reflected in a balance

  /** A transaction is reflected in its user's balance when it succeeded, or
      when it is a withdrawal still pending (withdrawals hold the funds at once). */
  predicate Counted(t: Transaction) {
    t.status == Success || (t.kind == Withdrawal && t.status == TxnStatus.Pending)
  }

  /** What transaction `t` contributes to the balance of user `u`. */
  function Share(t: Transaction, u: UserId): int {
    if t.userId == u && Counted(t) then t.amount else 0
  }

  /** The sum of the amounts of `u`'s counted transactions. */
  function LedgerSum(ts: seq<Transaction>, u: UserId): int {
    if ts == [] then 0 else LedgerSum(ts[..|ts| - 1], u) + Share(ts[|ts| - 1], u)
  }

  /** Appending a transaction changes a user's sum by exactly its share. */
  lemma LedgerSumAppend(ts: seq<Transaction>, t: Transaction, u: UserId)
    ensures LedgerSum(ts + [t], u) == LedgerSum(ts, u) + Share(t, u)
  {
    assert (ts + [t])[..|ts|] == ts;
  }

  /** Replacing one transaction changes a user's sum by the difference of the shares. */
  lemma {:induction false} LedgerSumUpdate(ts: seq<Transaction>, i: nat, t: Transaction, u: UserId)
    requires i < |ts|
    ensures LedgerSum(ts[i := t], u) == LedgerSum(ts, u) - Share(ts[i], u) + Share(t, u)
  {
    var n := |ts| - 1;
    if i == n {
      assert ts[i := t][..n] == ts[..n];
    } else {
      assert ts[i := t][..n] == ts[..n][i := t];
      LedgerSumUpdate(ts[..n], i, t, u);
    }
  }

  /** Every user's balance is an opening amount plus the sum of its counted transactions. */
  ghost predicate Balanced(users: map<UserId, User>, txns: seq<Transaction>, opening: map<UserId, int>) {
    forall u :: u in users ==> u in opening && users[u].balance == opening[u] + LedgerSum(txns, u)
  }

  /** A step from (users0, txns0) to (users1, txns1) keeps the same users and
      moves every balance by exactly the change in its counted transactions. */
  ghost predicate LedgerPreserved(users0: map<UserId, User>, txns0: seq<Transaction>,
                                  users1: map<UserId, User>, txns1: seq<Transaction>) {
    users1.Keys == users0.Keys &&
    forall u :: u in users0 ==> Net(users1, txns1, u) == Net(users0, txns0, u)
  }

  /** What a user's balance holds beyond its counted transactions. */
  function Net(users: map<UserId, User>, txns: seq<Transaction>, u: UserId): int
    requires u in users
  {
    users[u].balance - LedgerSum(txns, u)
  }

  /** A step that keeps the ledger keeps every balance equal to its opening
      amount plus its counted transactions. */
  lemma BalancedPreserved(users0: map<UserId, User>, txns0: seq<Transaction>,
                          users1: map<UserId, User>, txns1: seq<Transaction>, opening: map<UserId, int>)
    requires Balanced(users0, txns0, opening)
    requires LedgerPreserved(users0, txns0, users1, txns1)
    ensures Balanced(users1, txns1, opening)
  {
  }

  /** Ledger-keeping steps compose. */
  lemma LedgerPreservedTrans(users0: map<UserId, User>, txns0: seq<Transaction>,
                             users1: map<UserId, User>, txns1: seq<Transaction>,
                             users2: map<UserId, User>, txns2: seq<Transaction>)
    requires LedgerPreserved(users0, txns0, users1, txns1)
    requires LedgerPreserved(users1, txns1, users2, txns2)
    ensures LedgerPreserved(users0, txns0, users2, txns2)
  {
  }

  /** `users` with the balance of `u` moved by `delta`: no user is added or
      removed, every other user and every other field of `u` stay as they were. */
  function WithBalance(users: map<UserId, User>, u: UserId, delta: int): (r: map<UserId, User>)
    requires u in users
    ensures r.Keys == users.Keys
    ensures r[u].balance == users[u].balance + delta
    ensures r[u].email == users[u].email && r[u].name == users[u].name && r[u].role == users[u].role
      && r[u].isActive == users[u].isActive
    ensures forall v :: v in users && v != u ==> r[v] == users[v]
  {
    users[u := users[u].(balance := users[u].balance + delta)]
  }

  /** Every balance that was non-negative still is. */
  ghost predicate NoBalanceTurnsNegative(users0: map<UserId, User>, users1: map<UserId, User>) {
    forall u :: u in users0 && u in users1 && users0[u].balance >= 0 ==> users1[u].balance >= 0
  }

  /** Moving one balance up, or down to no less than zero, turns no balance negative. */
  lemma WithBalanceNonNegative(users: map<UserId, User>, u: UserId, delta: int)
    requires u in users && (delta >= 0 || users[u].balance + delta >= 0)
    ensures NoBalanceTurnsNegative(users, WithBalance(users, u, delta))
  {
  }

  /** Recording a transaction and moving its user's balance by its share keeps the ledger. */
  lemma LedgerAppend(users: map<UserId, User>, txns: seq<Transaction>, t: Transaction, delta: int)
    requires t.userId in users && delta == Share(t, t.userId)
    ensures LedgerPreserved(users, txns, WithBalance(users, t.userId, delta), txns + [t])
  {
    forall v | v in users {
      LedgerSumAppend(txns, t, v);
    }
  }

  /** Changing a recorded transaction (same user) and moving the balance by the
      change of its share keeps the ledger. */
  lemma LedgerReplace(users: map<UserId, User>, txns: seq<Transaction>, i: nat, t: Transaction, delta: int)
    requires i < |txns| && t.userId == txns[i].userId && t.userId in users
    requires delta == Share(t, t.userId) - Share(txns[i], t.userId)
    ensures LedgerPreserved(users, txns, WithBalance(users, t.userId, delta), txns[i := t])
  {
    forall v | v in users {
      LedgerSumUpdate(txns, i, t, v);
    }
  }

  // ---------------------------------------------------------------------------
  // Integrity of the tables

  /** Emails are unique among users (the store's unique index). */
  ghost predicate EmailsDistinct(users: map<UserId, User>) {
    forall a, b {:trigger users[a].email, users[b].email} :: a in users && b in users && a != b ==> users[a].email != users[b].email
  }

  /** Category names are unique (the store's unique index). */
  ghost predicate CategoryNamesDistinct(categories: map<CatalogId, Category>) {
    forall a, b :: a in categories && b in categories && a != b ==> categories[a].name != categories[b].name
  }

  /** No two providers share a non-empty name or a non-empty base URL. */
  ghost predicate ProviderKeysDistinct(providers: map<CatalogId, Provider>) {
    forall a, b :: a in providers && b in providers && a != b ==>
      (providers[a].name != "" ==> providers[a].name != providers[b].name) &&
      (providers[a].baseUrl != "" ==> providers[a].baseUrl != providers[b].baseUrl)
  }

  /** Every product's provider exists, and so does its category when it has one. */
  ghost predicate ProductRefsValid(products: map<CatalogId, Product>, providers: map<CatalogId, Provider>,
                                   categories: map<CatalogId, Category>) {
    forall id :: id in products ==>
      products[id].providerId in providers &&
      (products[id].categoryId.Some? ==> products[id].categoryId.value in categories)
  }

  /** Every order's user and product exist. */
  ghost predicate OrderRefsValid(orders: seq<Order>, users: map<UserId, User>, products: map<CatalogId, Product>) {
    forall i :: 0 <= i < |orders| ==> orders[i].userId in users && orders[i].productId in products
  }

  /** Every transaction's user exists, and so does its order when it has one. */
  ghost predicate TxnRefsValid(txns: seq<Transaction>, users: map<UserId, User>, orderCount: nat) {
    forall i :: 0 <= i < |txns| ==>
      txns[i].userId in users && (txns[i].orderId.Some? ==> txns[i].orderId.value < orderCount)
  }

  /** Deposits are recorded with a positive amount and withdrawals with a
      negative one, as the handlers that create them ensure. */
  ghost predicate AmountsSigned(txns: seq<Transaction>) {
    forall i :: 0 <= i < |txns| ==>
      (txns[i].kind == Deposit ==> txns[i].amount > 0) && (txns[i].kind == Withdrawal ==> txns[i].amount < 0)
  }

  /** Every notification is addressed to an existing user. */
  ghost predicate NoticeRefsValid(notifications: seq<Notification>, users: map<UserId, User>) {
    forall i :: 0 <= i < |notifications| ==> notifications[i].userId in users
  }

  /** The catalog's rules: identifiers below the next one to hand out,
      markups within 0..1000 percent, unique category names and provider
      keys, and products that point at existing providers and categories. */
  ghost predicate CatalogValid(providers: map<CatalogId, Provider>, categories: map<CatalogId, Category>,
                               products: map<CatalogId, Product>, nextId: nat) {
    && (forall id :: id in providers ==> id < nextId)
    && (forall id :: id in categories ==> id < nextId)
    && (forall id :: id in products ==> id < nextId)
    && (forall p :: p in providers ==> 0 <= providers[p].markup <= 1000)
    && CategoryNamesDistinct(categories)
    && ProviderKeysDistinct(providers)
    && ProductRefsValid(products, providers, categories)
  }

  /** The contents of every table at one moment. */
  datatype Tables = Tables(
    users: map<UserId, User>,
    providers: map<CatalogId, Provider>,
    categories: map<CatalogId, Category>,
    products: map<CatalogId, Product>,
    orders: seq<Order>,
    txns: seq<Transaction>,
    markupHistory: seq<MarkupRecord>,
    notifications: seq<Notification>,
    nextId: nat)

  /** The integrity rules every handler keeps. */
  ghost predicate TablesValid(t: Tables) {
    && CatalogValid(t.providers, t.categories, t.products, t.nextId)
    && EmailsDistinct(t.users)
    && OrderRefsValid(t.orders, t.users, t.products)
    && TxnRefsValid(t.txns, t.users, |t.orders|)
    && AmountsSigned(t.txns)
    && NoticeRefsValid(t.notifications, t.users)
  }

  /** `t1` differs from `t0` at most in the catalog: no user, order,
      transaction or notification changes. */
  predicate CatalogOnly(t0: Tables, t1: Tables) {
    t1.users == t0.users && t1.orders == t0.orders && t1.txns == t0.txns && t1.notifications == t0.notifications
  }

  /** The tables of a fresh store. */
  function EmptyTables(): (t: Tables)
    ensures TablesValid(t)
  {
    Tables(map[], map[], map[], map[], [], [], [], [], 0)
  }

  /** What a handler leaves behind: the new tables and its response. */
  datatype Step<+T> = Step(tables: Tables, response: Result<T>)

  /** `t` with transaction `x` recorded and the balance of its user moved by
      what it contributes: the one way the handlers move money. */
  function Record(t: Tables, x: Transaction): Tables
    requires x.userId in t.users
  {
    t.(users := WithBalance(t.users, x.userId, Share(x, x.userId)), txns := t.txns + [x])
  }

  /** Recording keeps the ledger: the user's balance moves by exactly what
      the new transaction adds to their ledger sum. */
  lemma RecordKeepsLedger(t: Tables, x: Transaction)
    requires x.userId in t.users
    ensures LedgerPreserved(t.users, t.txns, Record(t, x).users, Record(t, x).txns)
  {
    LedgerAppend(t.users, t.txns, x, Share(x, x.userId));
  }

  /** Recording a transaction of an existing user, about an existing order or
      none, with an amount of the sign its type calls for, keeps every
      integrity rule. */
  lemma RecordValid(t: Tables, x: Transaction)
    requires TablesValid(t) && x.userId in t.users
    requires x.orderId.Some? ==> x.orderId.value < |t.orders|
    requires (x.kind == Deposit ==> x.amount > 0) && (x.kind == Withdrawal ==> x.amount < 0)
    ensures TablesValid(Record(t, x))
  {
  }

  /** Moving an existing user's balance keeps every integrity rule. */
  lemma CreditValid(t: Tables, u: UserId, delta: int)
    requires TablesValid(t) && u in t.users
    ensures TablesValid(t.(users := WithBalance(t.users, u, delta)))
  {
  }

  /** Notifying an existing user keeps every integrity rule. */
  lemma NotifyValid(t: Tables, n: Notification)
    requires TablesValid(t) && n.userId in t.users
    ensures TablesValid(t.(notifications := t.notifications + [n]))
  {
  }

  /** Changing the status or payment reference of a transaction keeps every
      integrity rule. */
  lemma AmendValid(t: Tables, i: nat, y: Transaction)
    requires TablesValid(t) && i < |t.txns|
    requires y.userId == t.txns[i].userId && y.orderId == t.txns[i].orderId
    requires y.kind == t.txns[i].kind && y.amount == t.txns[i].amount
    ensures TablesValid(t.(txns := t.txns[i := y]))
  {
  }

  /** The store: the tables the handlers read and write. Orders and
      transactions are never deleted, so their identifiers are positions. */
  class Store {
    var users: map<UserId, User>
    var providers: map<CatalogId, Provider>
    var categories: map<CatalogId, Category>
    var products: map<CatalogId, Product>
    var orders: seq<Order>
    var txns: seq<Transaction>
    var markupHistory: seq<MarkupRecord>
    var notifications: seq<Notification>
    /** The next catalog identifier the store hands out. */
    var nextId: nat

    function Snapshot(): Tables
      reads this
    {
      Tables(users, providers, categories, products, orders, txns, markupHistory, notifications, nextId)
    }

    ghost predicate Valid()
      reads this
    {
      TablesValid(Snapshot())
    }

    constructor ()
      ensures Valid()
      ensures Snapshot() == EmptyTables()
    {
      users, providers, categories, products := map[], map[], map[], map[];
      orders, txns, markupHistory, notifications := [], [], [], [];
      nextId := 0;
    }
  }
}

=== FILE: orders.dfy ===
/** The order routes: placing an order against the customer's balance,
    administrative status updates, and cancellation with refund. */
module Orders {
  import opened Common
  import opened Model

  /** The body of a request to place an order. */
  datatype OrderRequest = OrderRequest(
    productId: Option<CatalogId>, quantity: Option<int>, link: Option<string>, notes: Option<string>)

  /** The response of a placed order. */
  datatype Placement = Placement(orderId: OrderId, balanceDeducted: int, newBalance: int)

  /** The response of a cancelled order. */
  datatype Cancellation = Cancellation(orderId: OrderId, refundAmount: int, newBalance: int)

  /** `s` has a character other than white space. */
  predicate HasText(s: string) {
    exists i :: 0 <= i < |s| && !IsSpace(s[i])
  }

  /** The request-shape check that runs before the handler: a product, a
      non-zero quantity and a link are required, the quantity must be positive
      and the link must not be blank. */
  function ValidateOrderData(req: OrderRequest): (e: Option<ErrorKind>)
    ensures e.None? <==>
      req.productId.Some? && req.quantity.Some? && req.quantity.value > 0 &&
      req.link.Some? && HasText(req.link.value)
    ensures e.Some? ==> e.value in {MissingFields, InvalidQuantity, InvalidLink}
  {
    if req.productId.None? || !GivenNumber(req.quantity) || !Given(req.link) then Some(MissingFields)
    else if req.quantity.value <= 0 then Some(InvalidQuantity)
    else if (TrimEmptyIff(req.link.value); Trim(req.link.value) == "") then Some(InvalidLink)
    else None
  }

  /** Everything an order needs except funds and a quantity in range: a
      well-formed request from a known, active customer for an active service
      of an active provider. */
  ghost predicate Eligible(users: map<UserId, User>, products: map<CatalogId, Product>,
                           providers: map<CatalogId, Provider>, userId: Option<UserId>, req: OrderRequest)
  {
    && ValidateOrderData(req).None?
    && Given(userId) && userId.value in users && users[userId.value].isActive
    && req.productId.value in products && products[req.productId.value].isActive
    && products[req.productId.value].providerId in providers
    && providers[products[req.productId.value].providerId].isActive
  }

  /** What the order costs: the service's current price times the quantity. */
  function OrderTotal(products: map<CatalogId, Product>, req: OrderRequest): int
    requires req.productId.Some? && req.productId.value in products && req.quantity.Some?
  {
    products[req.productId.value].price * req.quantity.value
  }

  /** The first check an order request fails, in the order the handler makes
      them. The balance is checked before the quantity range, so a customer
      who cannot pay is told so even when the quantity is also out of range. */
  function PlacementError(users: map<UserId, User>, products: map<CatalogId, Product>,
                          providers: map<CatalogId, Provider>, userId: Option<UserId>, req: OrderRequest)
    : (e: Option<ErrorKind>)
    requires forall id :: id in products ==> products[id].providerId in providers
    ensures e.None? <==>
      Eligible(users, products, providers, userId, req)
      && users[userId.value].balance >= OrderTotal(products, req)
      && products[req.productId.value].minQuantity <= req.quantity.value <= products[req.productId.value].maxQuantity
    ensures e == Some(InsufficientBalance) <==>
      Eligible(users, products, providers, userId, req) && users[userId.value].balance < OrderTotal(products, req)
    ensures Eligible(users, products, providers, userId, req) && e == Some(InvalidQuantity) ==>
      !(products[req.productId.value].minQuantity <= req.quantity.value <= products[req.productId.value].maxQuantity)
  {
    var v := ValidateOrderData(req);
    if v.Some? then v
    else if !Given(userId) then Some(Unauthorized)
    else if userId.value !in users then Some(NotFound)
    else if !users[userId.value].isActive then Some(Suspended)
    else if req.productId.value !in products then Some(NotFound)
    else
      var product := products[req.productId.value];
      var q := req.quantity.value;
      if !product.isActive then Some(ServiceUnavailable)
      else if !providers[product.providerId].isActive then Some(ProviderUnavailable)
      else if users[userId.value].balance < product.price * q then Some(InsufficientBalance)
      else if q < product.minQuantity || q > product.maxQuantity then Some(InvalidQuantity)
      else None
  }

  /** `notes?.trim() || null`: the trimmed notes, or none when they are absent or blank. */
  function TrimmedNotes(notes: Option<string>): (r: Option<string>)
    ensures r.Some? <==> notes.Some? && HasText(notes.value)
    ensures r.Some? ==> r.value == Trim(notes.value)
  {
    if notes.Some? then TrimEmptyIff(notes.value); (if Trim(notes.value) == "" then None else Some(Trim(notes.value)))
    else None
  }

  /** The order a valid request places: PENDING, for the trimmed link, at the
      service's current price times the quantity. */
  function PlacedOrder(products: map<CatalogId, Product>, u: UserId, req: OrderRequest): (o: Order)
    requires ValidateOrderData(req).None? && req.productId.value in products
    ensures o.userId == u && o.productId == req.productId.value && o.quantity == req.quantity.value > 0
    ensures o.totalPrice == products[o.productId].price * o.quantity
    ensures o.status == OrderStatus.Pending && o.startedAt.None? && o.completedAt.None?
    ensures o.link != [] && !IsSpace(o.link[0]) && !IsSpace(o.link[|o.link| - 1])
  {
    TrimEmptyIff(req.link.value);
    Order(u, req.productId.value, req.quantity.value, Trim(req.link.value), TrimmedNotes(req.notes),
          OrderTotal(products, req), OrderStatus.Pending, None, None, None, None)
  }

  /** The payment recorded for order `o`, stored as order `id`. */
  function Payment(o: Order, id: OrderId): (x: Transaction)
    ensures x.userId == o.userId && x.orderId == Some(id) && x.kind == OrderPayment
    ensures Share(x, o.userId) == -o.totalPrice
  {
    Transaction(o.userId, Some(id), OrderPayment, -o.totalPrice, Success, None, None)
  }

  /** Placing an order, as a change of the tables: on success the order is
      appended and paid for from the customer's balance. */
  function PlaceOrderStep(t: Tables, userId: Option<UserId>, req: OrderRequest): (s: Step<Placement>)
    requires TablesValid(t)
    ensures s.response.Ok? <==> PlacementError(t.users, t.products, t.providers, userId, req).None?
    ensures s.response.Err? ==>
      s.tables == t && Some(s.response.kind) == PlacementError(t.users, t.products, t.providers, userId, req)
  {
    var e := PlacementError(t.users, t.products, t.providers, userId, req);
    if e.Some? then Step(t, Err(e.value))
    else
      var o := PlacedOrder(t.products, userId.value, req);
      var t' := Record(t.(orders := t.orders + [o]), Payment(o, |t.orders|));
      Step(t', Ok(Placement(|t.orders|, o.totalPrice, t'.users[o.userId].balance)))
  }

  /** A placed order is the caller's, PENDING, for the requested quantity at
      the service's current price; the caller pays exactly its total, never
      ending below zero; the catalog does not change. */
  lemma PlaceOrderEffect(t: Tables, userId: Option<UserId>, req: OrderRequest)
    requires TablesValid(t)
    ensures var s := PlaceOrderStep(t, userId, req);
      s.response.Ok? ==>
        var u := userId.value;
        var p := req.productId.value;
        var total := t.products[p].price * req.quantity.value;
        && s.response.value.orderId == |t.orders|
        && |s.tables.orders| == |t.orders| + 1 && s.tables.orders[..|t.orders|] == t.orders
        && s.tables.orders[|t.orders|].userId == u
        && s.tables.orders[|t.orders|].productId == p
        && s.tables.orders[|t.orders|].status == OrderStatus.Pending
        && s.tables.orders[|t.orders|].totalPrice == total
        && s.response.value.balanceDeducted == total
        && s.tables.users.Keys == t.users.Keys
        && s.tables.users[u].balance == t.users[u].balance - total
        && s.response.value.newBalance == s.tables.users[u].balance
        && s.tables.users[u].balance >= 0
        && (forall v :: v in t.users && v != u ==> s.tables.users[v] == t.users[v])
        && s.tables.txns == t.txns + [Transaction(u, Some(|t.orders|), OrderPayment, -total, Success, None, None)]
        && s.tables.products == t.products && s.tables.providers == t.providers
        && s.tables.categories == t.categories
  {
    var s := PlaceOrderStep(t, userId, req);
    if s.response.Ok? {
      assert (t.orders + [PlacedOrder(t.products, userId.value, req)])[..|t.orders|] == t.orders;
    }
  }

  /** Placing an order keeps the ledger, keeps every integrity rule and turns
      no balance negative. */
  lemma PlaceOrderKeeps(t: Tables, userId: Option<UserId>, req: OrderRequest)
    requires TablesValid(t)
    ensures var s := PlaceOrderStep(t, userId, req);
      && TablesValid(s.tables)
      && LedgerPreserved(t.users, t.txns, s.tables.users, s.tables.txns)
      && NoBalanceTurnsNegative(t.users, s.tables.users)
  {
    var e := PlacementError(t.users, t.products, t.providers, userId, req);
    if e.None? {
      var o := PlacedOrder(t.products, userId.value, req);
      var t1 := t.(orders := t.orders + [o]);
      assert TablesValid(t1);
      RecordValid(t1, Payment(o, |t.orders|));
      RecordKeepsLedger(t1, Payment(o, |t.orders|));
    }
  }

  /** Places an order: records it as PENDING at the current price, takes the
      total from the customer's balance and records the matching payment. */
  method PlaceOrder(db: Store, userId: Option<UserId>, req: OrderRequest) returns (r: Result<Placement>)
    requires db.Valid()
    modifies db
    ensures db.Valid()
    ensures Step(db.Snapshot(), r) == PlaceOrderStep(old(db.Snapshot()), userId, req)
  {
    ghost var t := db.Snapshot();
    var e := PlacementError(db.users, db.products, db.providers, userId, req);
    if e.Some? {
      return Err(e.value);
    }
    var o := PlacedOrder(db.products, userId.value, req);
    var id := |db.orders|;
    var x := Payment(o, id);
    db.orders := db.orders + [o];
    db.users := WithBalance(db.users, x.userId, Share(x, x.userId));
    db.txns := db.txns + [x];
    r := Ok(Placement(id, o.totalPrice, db.users[userId.value].balance));
    assert db.Snapshot() == Record(t.(orders := t.orders + [o]), x);
    assert Step(db.Snapshot(), r) == PlaceOrderStep(t, userId, req);
    PlaceOrderKeeps(t, userId, req);
  }

  /** The first check a status update fails: a status is required, it must be
      one of the seven order statuses, and the order must exist. */
  function StatusUpdateError(orders: seq<Order>, orderId: OrderId, status: Option<string>): (e: Option<ErrorKind>)
    ensures e.None? <==> status.Some? && ParseOrderStatus(status.value).Some? && orderId < |orders|
  {
    if !Given(status) then Some(MissingFields)
    else if ParseOrderStatus(status.value).None? then Some(InvalidStatus)
    else if orderId >= |orders| then Some(NotFound)
    else None
  }

  predicate IsStarted(s: OrderStatus) {
    s == Processing || s == InProgress
  }

  predicate IsFinished(s: OrderStatus) {
    s == Completed || s == OrderStatus.Failed || s == OrderStatus.Cancelled
  }

  /** Order `o` after an administrative status update at time `now`. */
  function WithStatus(o: Order, status: OrderStatus, notes: Option<string>, providerOrderId: Option<string>,
                      providerResponse: Option<string>, now: nat): (r: Order)
    ensures r.status == status
    // who ordered what, and what was paid for it, never change
    ensures r.userId == o.userId && r.productId == o.productId && r.quantity == o.quantity
    ensures r.link == o.link && r.totalPrice == o.totalPrice
    // the start time is stamped once, by the first update to a started status
    ensures o.startedAt.Some? ==> r.startedAt == o.startedAt
    ensures o.startedAt.None? ==> (r.startedAt.Some? <==> IsStarted(status))
    ensures o.startedAt.None? && r.startedAt.Some? ==> r.startedAt == Some(now)
    // the finish time is restamped by every update to a finished status
    ensures IsFinished(status) ==> r.completedAt == Some(now)
    ensures !IsFinished(status) ==> r.completedAt == o.completedAt
    // the free-text fields are overwritten only by non-empty values
    ensures r.notes == OrElse(notes, o.notes)
    ensures r.providerOrderId == OrElse(providerOrderId, o.providerOrderId)
    ensures r.providerResponse == OrElse(providerResponse, o.providerResponse)
  {
    o.(status := status,
       notes := if Given(notes) then notes else o.notes,
       providerOrderId := if Given(providerOrderId) then providerOrderId else o.providerOrderId,
       providerResponse := if Given(providerResponse) then providerResponse else o.providerResponse,
       startedAt := if IsStarted(status) && o.startedAt.None? then Some(now) else o.startedAt,
       completedAt := if IsFinished(status) then Some(now) else o.completedAt)
  }

  /** An administrative status update, as a change of the tables. */
  function UpdateStatusStep(t: Tables, orderId: OrderId, status: Option<string>, notes: Option<string>,
                            providerOrderId: Option<string>, providerResponse: Option<string>, now: nat)
    : (s: Step<Order>)
    ensures s.response.Ok? <==> StatusUpdateError(t.orders, orderId, status).None?
    ensures s.response.Err? ==> s.tables == t && Some(s.response.kind) == StatusUpdateError(t.orders, orderId, status)
    // only the one order changes: no balance, transaction or other table moves
    ensures s.tables == t.(orders := s.tables.orders) && |s.tables.orders| == |t.orders|
    ensures forall i :: 0 <= i < |t.orders| && i != orderId ==> s.tables.orders[i] == t.orders[i]
    ensures s.response.Ok? ==>
      s.tables.orders[orderId] == s.response.value &&
      s.response.value.status == ParseOrderStatus(status.value).value
  {
    var e := StatusUpdateError(t.orders, orderId, status);
    if e.Some? then Step(t, Err(e.value))
    else
      var o := WithStatus(t.orders[orderId], ParseOrderStatus(status.value).value,
                          notes, providerOrderId, providerResponse, now);
      Step(t.(orders := t.orders[orderId := o]), Ok(o))
  }

  /** A status update keeps every integrity rule. */
  lemma UpdateStatusKeeps(t: Tables, orderId: OrderId, status: Option<string>, notes: Option<string>,
                          providerOrderId: Option<string>, providerResponse: Option<string>, now: nat)
    requires TablesValid(t)
    ensures TablesValid(UpdateStatusStep(t, orderId, status, notes, providerOrderId, providerResponse, now).tables)
  {
  }

  /** Sets an order's status (an administrative action). Any status may follow
      any other; no balance or transaction is touched. */
  method UpdateOrderStatus(db: Store, orderId: OrderId, status: Option<string>, notes: Option<string>,
                           providerOrderId: Option<string>, providerResponse: Option<string>, now: nat)
    returns (r: Result<Order>)
    requires db.Valid()
    modifies db
    ensures db.Valid()
    ensures Step(db.Snapshot(), r) ==
      UpdateStatusStep(old(db.Snapshot()), orderId, status, notes, providerOrderId, providerResponse, now)
  {
    ghost var t := db.Snapshot();
    var e := StatusUpdateError(db.orders, orderId, status);
    if e.Some? {
      return Err(e.value);
    }
    var o := WithStatus(db.orders[orderId], ParseOrderStatus(status.value).value,
                        notes, providerOrderId, providerResponse, now);
    db.orders := db.orders[orderId := o];
    r := Ok(o);
    assert db.Snapshot() == t.(orders := t.orders[orderId := o]);
    assert Step(db.Snapshot(), r) == UpdateStatusStep(t, orderId, status, notes, providerOrderId, providerResponse, now);
    UpdateStatusKeeps(t, orderId, status, notes, providerOrderId, providerResponse, now);
  }

  /** The statuses a customer may cancel from. */
  predicate Cancellable(s: OrderStatus) {
    s == OrderStatus.Pending || s == Processing
  }

  /** The first check a cancellation fails: the caller must name itself, the
      order must exist and be the caller's own, and it must not have gone past
      PROCESSING. */
  function CancelError(orders: seq<Order>, orderId: OrderId, userId: Option<UserId>): (e: Option<ErrorKind>)
    ensures e.None? <==>
      Given(userId) && orderId < |orders| && orders[orderId].userId == userId.value &&
      Cancellable(orders[orderId].status)
    ensures e == Some(CannotCancel) <==>
      Given(userId) && orderId < |orders| && orders[orderId].userId == userId.value &&
      !Cancellable(orders[orderId].status)
  {
    if !Given(userId) then Some(Unauthorized)
    else if orderId >= |orders| then Some(NotFound)
    else if orders[orderId].userId != userId.value then Some(Forbidden)
    else if !Cancellable(orders[orderId].status) then Some(CannotCancel)
    else None
  }

  /** The cancellation line joined to the old notes, trimmed: it starts with
      text, and either the old notes had none and the line stands alone, or
      the old notes (less their leading white space) precede it. */
  lemma CancelLineTrim(prefix: string, reason: string)
    ensures var t := Trim(prefix + "\n[CANCELLED] " + reason);
      && t != [] && !IsSpace(t[0])
      && (AllSpace(prefix) ==> t == TrimEnd("[CANCELLED] " + reason))
      && (!AllSpace(prefix) ==> t == TrimStart(prefix) + TrimEnd("\n[CANCELLED] " + reason))
  {
    var line := prefix + "\n[CANCELLED] " + reason;
    if AllSpace(prefix) {
      var x, y := prefix + "\n", "[CANCELLED] " + reason;
      assert line == x + y;
      forall k | 0 <= k < |x|
        ensures IsSpace(x[k])
      {
        if k < |prefix| {
          assert x[k] == prefix[k];
        }
      }
      assert y[0] == '[';
      TrimAfterBlank(x, y);
    } else {
      var y := "\n[CANCELLED] " + reason;
      assert line == prefix + y;
      assert !IsSpace(y[1]);
      TrimJoin(prefix, y);
    }
  }

  /** The notes of a cancelled order: with a reason, the old notes followed by
      a `[CANCELLED]` line carrying the reason, trimmed; without one, the old
      notes. */
  function CancelNotes(notes: Option<string>, reason: Option<string>): (r: Option<string>)
    ensures !Given(reason) ==> r == notes
    ensures Given(reason) ==> r.Some? && HasText(r.value)
    ensures Given(reason) && notes.Some? && !AllSpace(notes.value) ==>
      r == Some(TrimStart(notes.value) + TrimEnd("\n[CANCELLED] " + reason.value))
    ensures Given(reason) && !(notes.Some? && !AllSpace(notes.value)) ==>
      r == Some(TrimEnd("[CANCELLED] " + reason.value))
  {
    if Given(reason) then
      var prefix := if Given(notes) then notes.value else "";
      CancelLineTrim(prefix, reason.value);
      var t := Trim(prefix + "\n[CANCELLED] " + reason.value);
      assert !IsSpace(t[0]);
      Some(t)
    else notes
  }

  /** A reason with text ends the notes: the old notes' text, if any, then
      `[CANCELLED]` and the reason without its trailing white space. */
  lemma CancelNotesCarryReason(notes: Option<string>, reason: string)
    requires !AllSpace(reason)
    ensures CancelNotes(notes, Some(reason)).value ==
      (if notes.Some? && !AllSpace(notes.value) then TrimStart(notes.value) + "\n" else "")
      + "[CANCELLED] " + TrimEnd(reason)
  {
    assert reason != "";
    if notes.Some? && !AllSpace(notes.value) {
      TrimEndJoin("\n[CANCELLED] ", reason);
      assert TrimEnd("\n[CANCELLED] " + reason) == "\n[CANCELLED] " + TrimEnd(reason);
      var u := TrimStart(notes.value);
      assert u + ("\n[CANCELLED] " + TrimEnd(reason)) == u + "\n" + "[CANCELLED] " + TrimEnd(reason);
    } else {
      TrimEndJoin("[CANCELLED] ", reason);
      assert "" + "[CANCELLED] " + TrimEnd(reason) == "[CANCELLED] " + TrimEnd(reason);
    }
  }

  /** Order `o` once cancelled at time `now` for `reason`. */
  function CancelledOrder(o: Order, reason: Option<string>, now: nat): (c: Order)
    ensures c.status == OrderStatus.Cancelled && c.completedAt == Some(now) && c.notes == CancelNotes(o.notes, reason)
    ensures c.userId == o.userId && c.productId == o.productId && c.quantity == o.quantity && c.link == o.link
    ensures c.totalPrice == o.totalPrice && c.startedAt == o.startedAt
    ensures c.providerOrderId == o.providerOrderId && c.providerResponse == o.providerResponse
  {
    o.(status := OrderStatus.Cancelled, completedAt := Some(now), notes := CancelNotes(o.notes, reason))
  }

  /** The refund recorded for order `o`, stored as order `id`: its total, back to its customer. */
  function RefundOf(o: Order, id: OrderId): (x: Transaction)
    ensures x.userId == o.userId && x.orderId == Some(id) && x.kind == Refund
    ensures Share(x, o.userId) == o.totalPrice
    ensures Share(x, o.userId) + Share(Payment(o, id), o.userId) == 0
  {
    Transaction(o.userId, Some(id), Refund, o.totalPrice, Success, None, None)
  }

  /** A cancellation, as a change of the tables. */
  function CancelStep(t: Tables, orderId: OrderId, userId: Option<UserId>, reason: Option<string>, now: nat)
    : (s: Step<Cancellation>)
    requires TablesValid(t)
    ensures s.response.Ok? <==> CancelError(t.orders, orderId, userId).None?
    ensures s.response.Err? ==> s.tables == t && Some(s.response.kind) == CancelError(t.orders, orderId, userId)
  {
    var e := CancelError(t.orders, orderId, userId);
    if e.Some? then Step(t, Err(e.value))
    else
      var o := t.orders[orderId];
      var t' := Record(t.(orders := t.orders[orderId := CancelledOrder(o, reason, now)]), RefundOf(o, orderId));
      Step(t', Ok(Cancellation(orderId, o.totalPrice, t'.users[o.userId].balance)))
  }

  /** A cancelled order is CANCELLED and stamped; its customer gets back
      exactly its total, recorded as a refund; nothing else changes. */
  lemma CancelEffect(t: Tables, orderId: OrderId, userId: Option<UserId>, reason: Option<string>, now: nat)
    requires TablesValid(t)
    ensures var s := CancelStep(t, orderId, userId, reason, now);
      s.response.Ok? ==>
        var o := t.orders[orderId];
        && o.userId == userId.value
        && |s.tables.orders| == |t.orders|
        && s.tables.orders[orderId].status == OrderStatus.Cancelled
        && s.tables.orders[orderId].completedAt == Some(now)
        && s.tables.orders[orderId].totalPrice == o.totalPrice
        && (forall i :: 0 <= i < |t.orders| && i != orderId ==> s.tables.orders[i] == t.orders[i])
        && s.response.value.refundAmount == o.totalPrice
        && s.tables.users.Keys == t.users.Keys
        && s.tables.users[o.userId].balance == t.users[o.userId].balance + o.totalPrice
        && s.response.value.newBalance == s.tables.users[o.userId].balance
        && (forall v :: v in t.users && v != o.userId ==> s.tables.users[v] == t.users[v])
        && s.tables.txns == t.txns + [Transaction(o.userId, Some(orderId), Refund, o.totalPrice, Success, None, None)]
        && s.tables.orders[orderId].notes == CancelNotes(o.notes, reason)
        && s.tables == t.(orders := s.tables.orders, users := s.tables.users, txns := s.tables.txns)
  {
  }

  /** Cancelling keeps the ledger and every integrity rule; it turns no
      balance negative unless the order's total was itself negative. */
  lemma CancelKeeps(t: Tables, orderId: OrderId, userId: Option<UserId>, reason: Option<string>, now: nat)
    requires TablesValid(t)
    ensures var s := CancelStep(t, orderId, userId, reason, now);
      && TablesValid(s.tables)
      && LedgerPreserved(t.users, t.txns, s.tables.users, s.tables.txns)
      && (orderId < |t.orders| && t.orders[orderId].totalPrice >= 0 ==> NoBalanceTurnsNegative(t.users, s.tables.users))
  {
    if CancelError(t.orders, orderId, userId).None? {
      var o := t.orders[orderId];
      var t1 := t.(orders := t.orders[orderId := CancelledOrder(o, reason, now)]);
      assert TablesValid(t1);
      RecordValid(t1, RefundOf(o, orderId));
      RecordKeepsLedger(t1, RefundOf(o, orderId));
    }
  }

  /** Cancels a customer's own PENDING or PROCESSING order: the order becomes
      CANCELLED, its total goes back to the customer and a matching refund is
      recorded. */
  method CancelOrder(db: Store, orderId: OrderId, userId: Option<UserId>, reason: Option<string>, now: nat)
    returns (r: Result<Cancellation>)
    requires db.Valid()
    modifies db
    ensures db.Valid()
    ensures Step(db.Snapshot(), r) == CancelStep(old(db.Snapshot()), orderId, userId, reason, now)
  {
    ghost var t := db.Snapshot();
    var e := CancelError(db.orders, orderId, userId);
    if e.Some? {
      return Err(e.value);
    }
    var o := db.orders[orderId];
    db.orders := db.orders[orderId := CancelledOrder(o, reason, now)];
    db.users := WithBalance(db.users, o.userId, o.totalPrice);
    db.txns := db.txns + [RefundOf(o, orderId)];
    r := Ok(Cancellation(orderId, o.totalPrice, db.users[o.userId].balance));
    assert db.Snapshot() == Record(t.(orders := t.orders[orderId := CancelledOrder(o, reason, now)]), RefundOf(o, orderId));
    assert Step(db.Snapshot(), r) == CancelStep(t, orderId, userId, reason, now);
    CancelKeeps(t, orderId, userId, reason, now);
  }

  /** A cancelled order cannot be cancelled a second time. */
  lemma CancelOnce(t: Tables, orderId: OrderId, userId: Option<UserId>, reason: Option<string>, now: nat)
    requires TablesValid(t)
    ensures var s := CancelStep(t, orderId, userId, reason, now);
      s.response.Ok? ==>
        (CancelKeeps(t, orderId, userId, reason, now);
         CancelStep(s.tables, orderId, userId, reason, now).response == Err(CannotCancel))
  {
    CancelEffect(t, orderId, userId, reason, now);
    CancelKeeps(t, orderId, userId, reason, now);
  }

  /** A customer who places an order and cancels it is back at the balance
      they started from, with the payment and the refund both on record. */
  lemma PlaceThenCancel(t: Tables, u: UserId, req: OrderRequest, reason: Option<string>, now: nat)
    requires TablesValid(t)
    ensures var placed := PlaceOrderStep(t, Some(u), req);
      placed.response.Ok? ==>
        (PlaceOrderKeeps(t, Some(u), req);
         var cancelled := CancelStep(placed.tables, placed.response.value.orderId, Some(u), reason, now);
         && cancelled.response.Ok?
         && cancelled.tables.users[u].balance == t.users[u].balance
         && |cancelled.tables.txns| == |t.txns| + 2)
  {
    var placed := PlaceOrderStep(t, Some(u), req);
    if placed.response.Ok? {
      PlaceOrderEffect(t, Some(u), req);
      PlaceOrderKeeps(t, Some(u), req);
      CancelEffect(placed.tables, placed.response.value.orderId, Some(u), reason, now);
    }
  }

  /** Nothing stops an administrator from setting a cancelled order back to
      PENDING, after which its customer may cancel it again and is refunded a
      second time. */
  lemma CancelReopenCancel(t: Tables, orderId: OrderId, u: UserId, now: nat)
    requires TablesValid(t)
    requires u != "" && orderId < |t.orders| && t.orders[orderId].userId == u
    requires Cancellable(t.orders[orderId].status)
    ensures
      var first := CancelStep(t, orderId, Some(u), None, now);
      (CancelKeeps(t, orderId, Some(u), None, now);
       var reopened := UpdateStatusStep(first.tables, orderId, Some("PENDING"), None, None, None, now);
       (UpdateStatusKeeps(first.tables, orderId, Some("PENDING"), None, None, None, now);
        var second := CancelStep(reopened.tables, orderId, Some(u), None, now);
        && first.response.Ok? && reopened.response.Ok? && second.response.Ok?
        && second.tables.users[u].balance == t.users[u].balance + 2 * t.orders[orderId].totalPrice))
  {
    var first := CancelStep(t, orderId, Some(u), None, now);
    CancelEffect(t, orderId, Some(u), None, now);
    CancelKeeps(t, orderId, Some(u), None, now);
    var reopened := UpdateStatusStep(first.tables, orderId, Some("PENDING"), None, None, None, now);
    UpdateStatusKeeps(first.tables, orderId, Some("PENDING"), None, None, None, now);
    CancelEffect(reopened.tables, orderId, Some(u), None, now);
  }
}

=== FILE: pricing.dfy ===
/** The customer-facing price of a service: the provider's cost raised by the
    provider's markup percentage and rounded to a whole rupiah. */
module Pricing {
  import opened Model

  /** `Math.round(originalPrice * (1 + markup / 100))` on exact numbers: the
      integer nearest to originalPrice × (100 + markup) / 100, halves rounded
      up. The handlers compute the product in double precision, where
      `1 + markup / 100` is not always exact: a true half can fall just below
      it and round down (a cost of 50 at 13 % gives 56 there and 57 here). */
  function Price(originalPrice: int, markup: int): (r: int)
    ensures 100 * r - 50 <= originalPrice * (100 + markup) < 100 * r + 50
  {
    (originalPrice * (100 + markup) + 50) / 100
  }

  /** Without markup the price is the original price. */
  lemma PriceWithoutMarkup(originalPrice: int)
    ensures Price(originalPrice, 0) == originalPrice
  {
  }

  /** The price is the original price plus the rounded markup amount. */
  lemma PriceSplits(originalPrice: int, markup: int)
    ensures Price(originalPrice, markup) == originalPrice + (originalPrice * markup + 50) / 100
  {
    assert originalPrice * (100 + markup) == 100 * originalPrice + originalPrice * markup;
  }

  /** With a non-negative cost and markup the price is never below the cost,
      and it is strictly above it exactly when the markup amount reaches half
      a rupiah (cost × markup ≥ 50): a positive markup on a tiny cost can
      round away entirely. */
  lemma PriceAboveOriginalIff(originalPrice: int, markup: int)
    requires originalPrice >= 0 && markup >= 0
    ensures Price(originalPrice, markup) >= originalPrice
    ensures Price(originalPrice, markup) > originalPrice <==> originalPrice * markup >= 50
  {
    PriceSplits(originalPrice, markup);
    assert originalPrice * markup >= 0;
  }

  /** A larger markup never gives a smaller price. */
  lemma PriceMonotoneInMarkup(originalPrice: int, m1: int, m2: int)
    requires originalPrice >= 0 && m1 <= m2
    ensures Price(originalPrice, m1) <= Price(originalPrice, m2)
  {
    assert originalPrice * (100 + m1) <= originalPrice * (100 + m2) by {
      assert originalPrice * (100 + m2) - originalPrice * (100 + m1) == originalPrice * (m2 - m1);
      assert originalPrice * (m2 - m1) >= 0;
    }
  }

  /** A larger cost never gives a smaller price. */
  lemma PriceMonotoneInCost(o1: int, o2: int, markup: int)
    requires o1 <= o2 && markup >= 0
    ensures Price(o1, markup) <= Price(o2, markup)
  {
    assert o1 * (100 + markup) <= o2 * (100 + markup) by {
      assert o2 * (100 + markup) - o1 * (100 + markup) == (o2 - o1) * (100 + markup);
      assert (o2 - o1) * (100 + markup) >= 0;
    }
  }

  /** The figures the catalog's own examples use: cost 1000 at 20% sells at
      1200, and cost 4167 at 20% sells at 5000. */
  lemma PriceExamples()
    ensures Price(1000, 20) == 1200
    ensures Price(4167, 20) == 5000
    ensures Price(1, 1) == 1
  {
  }

  /** `p` with its price recomputed at `markup`; nothing else changes. */
  function Repriced(p: Product, markup: int): (r: Product)
    ensures r.price == Price(p.originalPrice, markup)
    ensures r.(price := p.price) == p
  {
    p.(price := Price(p.originalPrice, markup))
  }

  /** The products of `providerId`. */
  function Owned(products: map<CatalogId, Product>, providerId: CatalogId): set<CatalogId> {
    set id | id in products && products[id].providerId == providerId
  }

  /** The catalog after every product of `providerId` is repriced at `markup`. */
  function RepriceProvider(products: map<CatalogId, Product>, providerId: CatalogId, markup: int)
    : (r: map<CatalogId, Product>)
    ensures r.Keys == products.Keys
  {
    map id | id in products ::
      if products[id].providerId == providerId then Repriced(products[id], markup) else products[id]
  }

  /** Every product of `providerId` is priced at `markup`. */
  ghost predicate PricedAt(products: map<CatalogId, Product>, providerId: CatalogId, markup: int) {
    forall id :: id in products && products[id].providerId == providerId ==>
      products[id].price == Price(products[id].originalPrice, markup)
  }

  /** After repricing: every product of the provider is priced at the new
      markup from its unchanged cost, and every other product is untouched. */
  lemma RepriceProviderEffect(products: map<CatalogId, Product>, providerId: CatalogId, markup: int)
    ensures PricedAt(RepriceProvider(products, providerId, markup), providerId, markup)
    ensures forall id :: id in products ==>
      var q := RepriceProvider(products, providerId, markup)[id];
      && q.originalPrice == products[id].originalPrice
      && q.providerId == products[id].providerId
      && q.(price := products[id].price) == products[id]
      && (products[id].providerId != providerId ==> q == products[id])
  {
  }

  /** Repricing products that are already priced at the markup changes nothing:
      an update that repeats the current markup leaves every price as it was. */
  lemma RepriceAtCurrentMarkup(products: map<CatalogId, Product>, providerId: CatalogId, markup: int)
    requires PricedAt(products, providerId, markup)
    ensures RepriceProvider(products, providerId, markup) == products
  {
    var r := RepriceProvider(products, providerId, markup);
    forall id | id in products
      ensures r[id] == products[id]
    {
      if products[id].providerId == providerId {
        assert products[id].price == Price(products[id].originalPrice, markup);
      }
    }
  }

  /** Repricing twice at the same markup is repricing once. */
  lemma RepriceIdempotent(products: map<CatalogId, Product>, providerId: CatalogId, markup: int)
    ensures RepriceProvider(RepriceProvider(products, providerId, markup), providerId, markup)
         == RepriceProvider(products, providerId, markup)
  {
    RepriceProviderEffect(products, providerId, markup);
    RepriceAtCurrentMarkup(RepriceProvider(products, providerId, markup), providerId, markup);
  }
}

=== FILE: providers.dfy ===
/** The provider handlers: creating, updating and deleting upstream
    providers, the masking of their API keys in every response, and the
    pagination arithmetic of the provider list. */
module Providers {
  import opened Common
  import opened Model
  import opened Pricing

  // ---------------------------------------------------------------------------
  // API-key masking

  /** `'***' + apiKey.slice(-4)`: three stars and the last four characters
      (the whole key when it is shorter). */
  function MaskApiKey(key: string): (m: string)
    ensures |m| == 3 + (if |key| < 4 then |key| else 4)
    ensures m[..3] == "***"
    ensures m[3..] == key[|key| - (|m| - 3)..]
  {
    "***" + (if |key| <= 4 then key else key[|key| - 4..])
  }

  /** The mask shows nothing of a key but its last four characters: keys
      that end alike are masked alike, whatever comes before. */
  lemma MaskHidesPrefix(k1: string, k2: string)
    requires |k1| >= 4 && |k2| >= 4 && k1[|k1| - 4..] == k2[|k2| - 4..]
    ensures MaskApiKey(k1) == MaskApiKey(k2)
  {
  }

  /** A key longer than the four characters it shows is never returned in
      full: the mask differs from it unless the key itself is three stars
      followed by its last four characters. */
  lemma MaskNeverFullKey(key: string)
    requires |key| > 4 && key[..3] != "***"
    ensures MaskApiKey(key) != key
  {
    assert MaskApiKey(key)[..3] == "***";
  }

  /** The provider as the handlers answer with it: the API key masked. */
  function Masked(p: Provider): (v: Provider)
    ensures v.apiKey == MaskApiKey(p.apiKey)
    ensures v.(apiKey := p.apiKey) == p
  {
    p.(apiKey := MaskApiKey(p.apiKey))
  }

  // ---------------------------------------------------------------------------
  // Pagination of GET /api/providers

  /** The pagination block of a list response. */
  datatype Pagination = Pagination(
    currentPage: int, totalPages: int, totalCount: nat, limit: int, hasNextPage: bool, hasPreviousPage: bool)

  /** `parseInt(q) || d`: an unparsable (`None`) or zero query value gives the default. */
  function QueryInt(parsed: Option<int>, d: int): (r: int)
    ensures parsed.Some? && parsed.value != 0 ==> r == parsed.value
    ensures parsed.None? || parsed.value == 0 ==> r == d
    ensures d != 0 ==> r != 0
  {
    if parsed.Some? && parsed.value != 0 then parsed.value else d
  }

  /** `Math.ceil(a / b)` for a count `a` and a non-zero `b`. */
  function CeilDiv(a: nat, b: int): (q: int)
    requires b != 0
    ensures b > 0 ==> (q - 1) * b < a <= q * b
    ensures b < 0 ==> q <= 0
  {
    if b > 0 then (a + b - 1) / b else -(a / -b)
  }

  /** The pagination block of a listing of `totalCount` providers: the page
      and the limit are never zero, the count is reported as is, and there is
      a previous page exactly past the first. */
  function Paginate(page: Option<int>, limit: Option<int>, totalCount: nat): (p: Pagination)
    ensures p.currentPage != 0 && p.limit != 0 && p.totalCount == totalCount
    ensures p.hasPreviousPage <==> p.currentPage >= 2
  {
    var pg := QueryInt(page, 1);
    var lim := QueryInt(limit, 10);
    var pages := CeilDiv(totalCount, lim);
    Pagination(pg, pages, totalCount, lim, pg < pages, pg > 1)
  }

  /** A page comes before the last of `pages` pages of `limit` items exactly
      when items remain after it. */
  lemma BeforeLastPage(page: int, pages: int, limit: int, count: nat)
    requires limit > 0 && (pages - 1) * limit < count <= pages * limit
    ensures page < pages <==> page * limit < count
  {
    if page < pages {
      assert page * limit <= (pages - 1) * limit by {
        assert (pages - 1) * limit - page * limit == (pages - 1 - page) * limit;
      }
    } else {
      assert page * limit >= pages * limit by {
        assert page * limit - pages * limit == (page - pages) * limit;
      }
    }
  }

  /** With a positive limit the pages just cover the count, and there is a
      next page exactly when items remain after the current one; there is a
      previous page exactly when the current one is past the first. */
  lemma PaginateMeaning(page: Option<int>, limit: Option<int>, totalCount: nat)
    requires QueryInt(limit, 10) > 0
    ensures var p := Paginate(page, limit, totalCount);
      && (p.totalPages - 1) * p.limit < totalCount <= p.totalPages * p.limit
      && (p.hasNextPage <==> p.currentPage * p.limit < totalCount)
      && (p.hasPreviousPage <==> p.currentPage >= 2)
  {
    var p := Paginate(page, limit, totalCount);
    BeforeLastPage(p.currentPage, p.totalPages, p.limit, totalCount);
  }

  /** With no query, 25 providers give the first of three pages of ten. */
  lemma PaginateDefaults()
    ensures Paginate(None, None, 25) == Pagination(1, 3, 25, 10, true, false)
    ensures Paginate(Some(3), Some(10), 25) == Pagination(3, 3, 25, 10, false, true)
  {
  }

  // ---------------------------------------------------------------------------
  // POST /api/providers

  /** The fields of a provider in a request body; `config` is not modelled. */
  datatype ProviderFields = ProviderFields(
    name: Option<string>, apiKey: Option<string>, baseUrl: Option<string>,
    isActive: Option<bool>, markup: Option<int>, currency: Option<string>)

  /** A supplied markup lies within 0..1000 percent. */
  predicate MarkupAllowed(markup: Option<int>) {
    markup.Some? ==> 0 <= markup.value <= 1000
  }

  /** Some provider other than `except` has the name or the base URL. */
  predicate Clashes(providers: map<CatalogId, Provider>, name: string, baseUrl: string, except: Option<CatalogId>) {
    exists id :: id in providers && Some(id) != except && (providers[id].name == name || providers[id].baseUrl == baseUrl)
  }

  function CreateError(t: Tables, f: ProviderFields): (e: Option<ErrorKind>)
    ensures e.None? <==>
      Given(f.name) && Given(f.apiKey) && Given(f.baseUrl) && MarkupAllowed(f.markup)
      && !Clashes(t.providers, f.name.value, f.baseUrl.value, None)
    ensures e == Some(Conflict) <==>
      Given(f.name) && Given(f.apiKey) && Given(f.baseUrl) && MarkupAllowed(f.markup)
      && Clashes(t.providers, f.name.value, f.baseUrl.value, None)
  {
    if !Given(f.name) || !Given(f.apiKey) || !Given(f.baseUrl) then Some(MissingFields)
    else if !MarkupAllowed(f.markup) then Some(InvalidMarkup)
    else if Clashes(t.providers, f.name.value, f.baseUrl.value, None) then Some(Conflict)
    else None
  }

  /** The provider a create writes: active unless told otherwise, a markup
      of 10 percent when none (or zero) is given, and the rupiah as currency. */
  function NewProvider(f: ProviderFields): (p: Provider)
    requires Given(f.name) && Given(f.apiKey) && Given(f.baseUrl)
    ensures p.name == f.name.value && p.apiKey == f.apiKey.value && p.baseUrl == f.baseUrl.value
    ensures p.isActive == (f.isActive != Some(false))
    ensures MarkupAllowed(f.markup) ==> 0 <= p.markup <= 1000
    ensures !GivenNumber(f.markup) ==> p.markup == 10
    ensures p.currency != "" && (!Given(f.currency) ==> p.currency == "IDR")
  {
    Provider(f.name.value, f.apiKey.value, f.baseUrl.value, ValueOr(f.isActive, true),
             if GivenNumber(f.markup) then f.markup.value else 10, TextOr(f.currency, "IDR"))
  }

  /** POST /api/providers: the new provider stored under the next catalog
      identifier; the response shows it masked. */
  function CreateStep(t: Tables, f: ProviderFields): (s: Step<Provider>)
    ensures s.response.Ok? <==> CreateError(t, f).None?
    ensures s.response.Err? ==> s.tables == t && Some(s.response.kind) == CreateError(t, f)
    ensures s.response.Ok? ==>
      && s.tables == t.(providers := t.providers[t.nextId := NewProvider(f)], nextId := t.nextId + 1)
      && s.response.value == Masked(NewProvider(f))
  {
    var e := CreateError(t, f);
    if e.Some? then Step(t, Err(e.value))
    else Step(t.(providers := t.providers[t.nextId := NewProvider(f)], nextId := t.nextId + 1), Ok(Masked(NewProvider(f))))
  }

  /** A created provider has a markup within 0..1000, 10 when none or zero
      was given; it is active unless told otherwise; its currency defaults to
      IDR; its name and base URL are shared with no other provider; the
      response never shows its key in full. */
  lemma CreateEffect(t: Tables, f: ProviderFields)
    requires TablesValid(t)
    requires CreateStep(t, f).response.Ok?
    ensures var s := CreateStep(t, f);
      var p := s.tables.providers[t.nextId];
      && t.nextId !in t.providers
      && 0 <= p.markup <= 1000
      && (f.markup.None? || f.markup == Some(0) ==> p.markup == 10)
      && (f.markup.Some? && f.markup.value != 0 ==> p.markup == f.markup.value)
      && p.isActive == (f.isActive != Some(false))
      && p.currency == (if Given(f.currency) then f.currency.value else "IDR")
      && (forall id :: id in t.providers ==> t.providers[id].name != p.name && t.providers[id].baseUrl != p.baseUrl)
      && s.response.value.apiKey == MaskApiKey(p.apiKey)
  {
  }

  lemma CreateKeeps(t: Tables, f: ProviderFields)
    requires TablesValid(t)
    ensures var s := CreateStep(t, f);
      TablesValid(s.tables) && CatalogOnly(t, s.tables) && s.tables.products == t.products
  {
  }

  method CreateProvider(db: Store, f: ProviderFields) returns (r: Result<Provider>)
    requires db.Valid()
    modifies db
    ensures db.Valid()
    ensures Step(db.Snapshot(), r) == CreateStep(old(db.Snapshot()), f)
  {
    ghost var t := db.Snapshot();
    var e := CreateError(db.Snapshot(), f);
    if e.Some? {
      return Err(e.value);
    }
    var p := NewProvider(f);
    db.providers := db.providers[db.nextId := p];
    db.nextId := db.nextId + 1;
    r := Ok(Masked(p));
    assert Step(db.Snapshot(), r) == CreateStep(t, f);
    CreateKeeps(t, f);
  }

  // ---------------------------------------------------------------------------
  // PUT /api/providers/:id

  /** The first check the update fails. The clash check runs only when a
      truthy name or base URL differs from the stored one, and compares the
      resulting pair (a falsy field falls back to the stored value) with
      every other provider. */
  function UpdateError(t: Tables, id: CatalogId, f: ProviderFields): (e: Option<ErrorKind>)
    ensures e.None? <==>
      && id in t.providers
      && MarkupAllowed(f.markup)
      && (var p := t.providers[id];
          (Given(f.name) && f.name.value != p.name) || (Given(f.baseUrl) && f.baseUrl.value != p.baseUrl) ==>
            !Clashes(t.providers, TextOr(f.name, p.name), TextOr(f.baseUrl, p.baseUrl), Some(id)))
  {
    if id !in t.providers then Some(NotFound)
    else if !MarkupAllowed(f.markup) then Some(InvalidMarkup)
    else
      var p := t.providers[id];
      if ((Given(f.name) && f.name.value != p.name) || (Given(f.baseUrl) && f.baseUrl.value != p.baseUrl))
         && Clashes(t.providers, TextOr(f.name, p.name), TextOr(f.baseUrl, p.baseUrl), Some(id))
      then Some(Conflict)
      else None
  }

  /** `p` with every supplied field written over it. */
  function UpdatedProvider(p: Provider, f: ProviderFields): (q: Provider)
    ensures q.name == (if f.name.Some? then f.name.value else p.name)
    ensures q.apiKey == (if f.apiKey.Some? then f.apiKey.value else p.apiKey)
    ensures q.baseUrl == (if f.baseUrl.Some? then f.baseUrl.value else p.baseUrl)
    ensures q.isActive == (if f.isActive.Some? then f.isActive.value else p.isActive)
    ensures q.markup == (if f.markup.Some? then f.markup.value else p.markup)
    ensures q.currency == (if f.currency.Some? then f.currency.value else p.currency)
    ensures f == ProviderFields(None, None, None, None, None, None) ==> q == p
  {
    p.(name := ValueOr(f.name, p.name), apiKey := ValueOr(f.apiKey, p.apiKey), baseUrl := ValueOr(f.baseUrl, p.baseUrl),
       isActive := ValueOr(f.isActive, p.isActive), markup := ValueOr(f.markup, p.markup),
       currency := ValueOr(f.currency, p.currency))
  }

  function UpdateStep(t: Tables, id: CatalogId, f: ProviderFields): (s: Step<Provider>)
    ensures s.response.Ok? <==> UpdateError(t, id, f).None?
    ensures s.response.Err? ==> s.tables == t && Some(s.response.kind) == UpdateError(t, id, f)
  {
    var e := UpdateError(t, id, f);
    if e.Some? then Step(t, Err(e.value))
    else
      var q := UpdatedProvider(t.providers[id], f);
      Step(t.(providers := t.providers[id := q]), Ok(Masked(q)))
  }

  /** An update writes exactly the supplied fields, keeps the markup within
      0..1000, masks the key in its response, and reprices nothing: a markup
      changed here leaves every product's price as it was. */
  lemma UpdateEffect(t: Tables, id: CatalogId, f: ProviderFields)
    requires TablesValid(t)
    requires UpdateStep(t, id, f).response.Ok?
    ensures var s := UpdateStep(t, id, f);
      var p := t.providers[id];
      var q := s.tables.providers[id];
      && s.tables == t.(providers := t.providers[id := q])
      && s.tables.products == t.products
      && q.name == (if f.name.Some? then f.name.value else p.name)
      && q.apiKey == (if f.apiKey.Some? then f.apiKey.value else p.apiKey)
      && q.baseUrl == (if f.baseUrl.Some? then f.baseUrl.value else p.baseUrl)
      && q.isActive == (if f.isActive.Some? then f.isActive.value else p.isActive)
      && q.markup == (if f.markup.Some? then f.markup.value else p.markup)
      && q.currency == (if f.currency.Some? then f.currency.value else p.currency)
      && 0 <= q.markup <= 1000
      && s.response.value.apiKey == MaskApiKey(q.apiKey)
  {
  }

  /** An update keeps non-empty names and base URLs unique among providers. */
  lemma UpdateKeeps(t: Tables, id: CatalogId, f: ProviderFields)
    requires TablesValid(t)
    ensures var s := UpdateStep(t, id, f);
      TablesValid(s.tables) && CatalogOnly(t, s.tables) && s.tables.products == t.products
  {
    if UpdateError(t, id, f).None? {
      var p := t.providers[id];
      var q := UpdatedProvider(p, f);
      var ps := t.providers[id := q];
      forall a, b | a in ps && b in ps && a != b
        ensures ps[a].name != "" ==> ps[a].name != ps[b].name
        ensures ps[a].baseUrl != "" ==> ps[a].baseUrl != ps[b].baseUrl
      {
        if a == id || b == id {
          var other := if a == id then b else a;
          assert ps[other] == t.providers[other];
          if (Given(f.name) && f.name.value != p.name) || (Given(f.baseUrl) && f.baseUrl.value != p.baseUrl) {
            assert !(t.providers[other].name == TextOr(f.name, p.name) || t.providers[other].baseUrl == TextOr(f.baseUrl, p.baseUrl));
          }
        }
      }
      assert ProviderKeysDistinct(ps);
    }
  }

  method UpdateProvider(db: Store, id: CatalogId, f: ProviderFields) returns (r: Result<Provider>)
    requires db.Valid()
    modifies db
    ensures db.Valid()
    ensures Step(db.Snapshot(), r) == UpdateStep(old(db.Snapshot()), id, f)
  {
    ghost var t := db.Snapshot();
    var e := UpdateError(db.Snapshot(), id, f);
    if e.Some? {
      return Err(e.value);
    }
    var q := UpdatedProvider(db.providers[id], f);
    db.providers := db.providers[id := q];
    r := Ok(Masked(q));
    assert Step(db.Snapshot(), r) == UpdateStep(t, id, f);
    UpdateKeeps(t, id, f);
  }

  // ---------------------------------------------------------------------------
  // DELETE /api/providers/:id

  /** The identifier and name a delete answers with. */
  datatype Deleted = Deleted(id: CatalogId, name: string)

  function DeleteError(t: Tables, id: CatalogId): (e: Option<ErrorKind>)
    ensures e.None? <==> id in t.providers && Owned(t.products, id) == {}
    ensures e == Some(HasDependants) <==> id in t.providers && Owned(t.products, id) != {}
  {
    if id !in t.providers then Some(NotFound)
    else if |Owned(t.products, id)| > 0 then Some(HasDependants)
    else None
  }

  /** DELETE /api/providers/:id: refused while the provider owns a product. */
  function DeleteStep(t: Tables, id: CatalogId): (s: Step<Deleted>)
    ensures s.response.Ok? <==> DeleteError(t, id).None?
    ensures s.response.Err? ==> s.tables == t && Some(s.response.kind) == DeleteError(t, id)
    ensures s.response.Ok? ==>
      && s.tables == t.(providers := s.tables.providers)
      && s.tables.providers.Keys == t.providers.Keys - {id}
      && (forall k :: k in s.tables.providers ==> s.tables.providers[k] == t.providers[k])
      && s.response.value == Deleted(id, t.providers[id].name)
  {
    var e := DeleteError(t, id);
    if e.Some? then Step(t, Err(e.value))
    else Step(t.(providers := t.providers - {id}), Ok(Deleted(id, t.providers[id].name)))
  }

  /** Deleting a provider leaves no product without its provider. */
  lemma DeleteKeeps(t: Tables, id: CatalogId)
    requires TablesValid(t)
    ensures var s := DeleteStep(t, id);
      TablesValid(s.tables) && CatalogOnly(t, s.tables)
  {
    if DeleteError(t, id).None? {
      var s := DeleteStep(t, id);
      forall k | k in t.products
        ensures t.products[k].providerId in s.tables.providers
      {
        assert k !in Owned(t.products, id);
      }
    }
  }

  method DeleteProvider(db: Store, id: CatalogId) returns (r: Result<Deleted>)
    requires db.Valid()
    modifies db
    ensures db.Valid()
    ensures Step(db.Snapshot(), r) == DeleteStep(old(db.Snapshot()), id)
  {
    ghost var t := db.Snapshot();
    var e := DeleteError(db.Snapshot(), id);
    if e.Some? {
      return Err(e.value);
    }
    r := Ok(Deleted(id, db.providers[id].name));
    db.providers := db.providers - {id};
    assert Step(db.Snapshot(), r) == DeleteStep(t, id);
    DeleteKeeps(t, id);
  }
}

=== FILE: services.dfy ===
/** The service catalog handlers: create, update and delete one service, bulk
    create or update a list of them, and import a provider's list, creating
    or refreshing each service keyed by its provider-side identifier. */
module Services {
  import opened Common
  import opened Model
  import opened Pricing

  /** The fields of one service object in a request body; each may be
      absent. `id` is read only by a bulk update, `price` only by a bulk
      update, which copies every supplied field into the product. */
  datatype ServiceFields = ServiceFields(
    id: Option<CatalogId>,
    name: Option<string>, customName: Option<string>,
    description: Option<string>, customDescription: Option<string>,
    categoryId: Option<CatalogId>, providerId: Option<CatalogId>, serviceType: Option<string>,
    minQuantity: Option<int>, maxQuantity: Option<int>, originalPrice: Option<int>, price: Option<int>,
    isActive: Option<bool>, apiServiceId: Option<string>)

  /** A quantity range a service may carry. */
  predicate ValidRange(minQuantity: int, maxQuantity: int) {
    1 <= minQuantity <= maxQuantity
  }

  /** `t` with product `p` added under the next catalog identifier. */
  function AddProduct(t: Tables, p: Product): Tables {
    t.(products := t.products[t.nextId := p], nextId := t.nextId + 1)
  }

  /** Adding a product whose provider and category exist keeps every integrity rule. */
  lemma AddProductValid(t: Tables, p: Product)
    requires TablesValid(t) && p.providerId in t.providers
    requires p.categoryId.Some? ==> p.categoryId.value in t.categories
    ensures TablesValid(AddProduct(t, p)) && t.nextId !in t.products
  {
  }

  /** Replacing a product by one whose provider and category exist keeps
      every integrity rule. */
  lemma ReplaceProductValid(t: Tables, id: CatalogId, q: Product)
    requires TablesValid(t) && id in t.products && q.providerId in t.providers
    requires q.categoryId.Some? ==> q.categoryId.value in t.categories
    ensures TablesValid(t.(products := t.products[id := q]))
  {
  }

  // ---------------------------------------------------------------------------
  // POST /api/services

  /** `!name || !providerId || !serviceType || !minQuantity || !maxQuantity ||
      !originalPrice` is false: a zero quantity or price counts as missing. */
  predicate HasRequired(f: ServiceFields) {
    Given(f.name) && f.providerId.Some? && Given(f.serviceType)
    && GivenNumber(f.minQuantity) && GivenNumber(f.maxQuantity) && GivenNumber(f.originalPrice)
  }

  /** The first check the create handler fails, in the order it checks them. */
  function CreateError(t: Tables, f: ServiceFields): (e: Option<ErrorKind>)
    ensures e.None? <==>
      && HasRequired(f)
      && ValidRange(f.minQuantity.value, f.maxQuantity.value)
      && f.originalPrice.value > 0
      && f.providerId.value in t.providers
      && (f.categoryId.Some? ==> f.categoryId.value in t.categories)
    ensures e == Some(InvalidQuantityRange) ==> HasRequired(f) && !ValidRange(f.minQuantity.value, f.maxQuantity.value)
    ensures e == Some(InvalidPrice) ==> HasRequired(f) && f.originalPrice.value < 0
  {
    if !HasRequired(f) then Some(MissingFields)
    else if f.minQuantity.value < 1 || f.maxQuantity.value < f.minQuantity.value then Some(InvalidQuantityRange)
    else if f.originalPrice.value < 0 then Some(InvalidPrice)
    else if f.providerId.value !in t.providers then Some(NotFound)
    else if f.categoryId.Some? && f.categoryId.value !in t.categories then Some(NotFound)
    else None
  }

  /** The product a create writes: priced at the provider's markup, with the
      custom name and description falling back to the plain ones, active
      unless told otherwise, and a generated provider-side identifier when
      none is given. */
  function CustomProduct(f: ServiceFields, markup: int, now: nat): (p: Product)
    requires HasRequired(f)
    ensures p.providerId == f.providerId.value && p.originalPrice == f.originalPrice.value
    ensures p.price == Price(p.originalPrice, markup)
    ensures p.customName == (if Given(f.customName) then f.customName.value else f.name.value)
    ensures p.isActive == (f.isActive != Some(false)) && p.isCustom && !p.isImported
    ensures Given(f.apiServiceId) ==> p.apiServiceId == f.apiServiceId.value
    ensures !Given(f.apiServiceId) ==>
      |p.apiServiceId| > 7 && p.apiServiceId[..7] == "custom_"
      && (forall i :: 7 <= i < |p.apiServiceId| ==> IsDigit(p.apiServiceId[i]))
      && DigitsValue(p.apiServiceId[7..]) == now
  {
    DecimalRoundTrip(now);
    assert ("custom_" + Decimal(now))[7..] == Decimal(now);
    Product(
      f.name.value, if Given(f.customName) then f.customName.value else f.name.value,
      f.description, OrElse(f.customDescription, f.description),
      f.categoryId, f.providerId.value, f.serviceType.value,
      f.minQuantity.value, f.maxQuantity.value, f.originalPrice.value,
      Price(f.originalPrice.value, markup), ValueOr(f.isActive, true),
      if Given(f.apiServiceId) then f.apiServiceId.value else "custom_" + Decimal(now),
      false, true)
  }

  /** POST /api/services: the tables afterwards and the new service's identifier. */
  function CreateStep(t: Tables, f: ServiceFields, now: nat): (s: Step<CatalogId>)
    ensures s.response.Ok? <==> CreateError(t, f).None?
    ensures s.response.Err? ==> s.tables == t && Some(s.response.kind) == CreateError(t, f)
    ensures s.response.Ok? ==> s.response.value == t.nextId && s.tables.nextId == t.nextId + 1
  {
    var e := CreateError(t, f);
    if e.Some? then Step(t, Err(e.value))
    else Step(AddProduct(t, CustomProduct(f, t.providers[f.providerId.value].markup, now)), Ok(t.nextId))
  }

  /** A created service is new, its range is valid, its cost positive, and
      it sells at its cost raised by the provider's markup, which is never
      below the cost and above it exactly when the markup amounts to at
      least half a rupiah; the name and description defaults are applied;
      nothing but the product table and the identifier counter changes. */
  lemma CreateEffect(t: Tables, f: ServiceFields, now: nat)
    requires TablesValid(t)
    requires CreateStep(t, f, now).response.Ok?
    ensures var s := CreateStep(t, f, now);
      var id := s.response.value;
      var p := s.tables.products[id];
      var markup := t.providers[f.providerId.value].markup;
      && id !in t.products
      && s.tables == t.(products := t.products[id := p], nextId := id + 1)
      && p.name == f.name.value && p.providerId == f.providerId.value
      && p.categoryId == f.categoryId
      && ValidRange(p.minQuantity, p.maxQuantity)
      && p.originalPrice == f.originalPrice.value > 0
      && p.price == Price(p.originalPrice, markup)
      && p.price >= p.originalPrice
      && (p.price > p.originalPrice <==> p.originalPrice * markup >= 50)
      && p.customName == (if Given(f.customName) then f.customName.value else p.name)
      && p.customDescription == (if Given(f.customDescription) then f.customDescription else f.description)
      && p.isActive == (f.isActive != Some(false))
      && !p.isImported && p.isCustom
  {
    var markup := t.providers[f.providerId.value].markup;
    PriceAboveOriginalIff(f.originalPrice.value, markup);
  }

  lemma CreateKeeps(t: Tables, f: ServiceFields, now: nat)
    requires TablesValid(t)
    ensures var s := CreateStep(t, f, now);
      TablesValid(s.tables) && CatalogOnly(t, s.tables) && s.tables.providers == t.providers
  {
    if CreateError(t, f).None? {
      AddProductValid(t, CustomProduct(f, t.providers[f.providerId.value].markup, now));
    }
  }

  method CreateService(db: Store, f: ServiceFields, now: nat) returns (r: Result<CatalogId>)
    requires db.Valid()
    modifies db
    ensures db.Valid()
    ensures Step(db.Snapshot(), r) == CreateStep(old(db.Snapshot()), f, now)
  {
    ghost var t := db.Snapshot();
    var e := CreateError(db.Snapshot(), f);
    if e.Some? {
      return Err(e.value);
    }
    var p := CustomProduct(f, db.providers[f.providerId.value].markup, now);
    r := Ok(db.nextId);
    db.products := db.products[db.nextId := p];
    db.nextId := db.nextId + 1;
    assert db.Snapshot() == AddProduct(t, p);
    assert Step(db.Snapshot(), r) == CreateStep(t, f, now);
    CreateKeeps(t, f, now);
  }

  // ---------------------------------------------------------------------------
  // PUT /api/services/:id

  /** The first check the update handler fails. The quantity range is
      checked, merged with the stored one, only when a bound is supplied; a
      provider or category is looked up only when it differs from the
      stored one. */
  function UpdateError(t: Tables, id: CatalogId, f: ServiceFields): (e: Option<ErrorKind>)
    ensures e.None? <==>
      && id in t.products
      && (var p := t.products[id];
          && (f.minQuantity.Some? || f.maxQuantity.Some? ==>
                ValidRange(ValueOr(f.minQuantity, p.minQuantity), ValueOr(f.maxQuantity, p.maxQuantity)))
          && (f.originalPrice.Some? ==> f.originalPrice.value >= 0)
          && (f.providerId.Some? ==> f.providerId.value == p.providerId || f.providerId.value in t.providers)
          && (f.categoryId.Some? ==> p.categoryId == f.categoryId || f.categoryId.value in t.categories))
    ensures e == Some(InvalidQuantityRange) ==>
      id in t.products && (f.minQuantity.Some? || f.maxQuantity.Some?) &&
      !ValidRange(ValueOr(f.minQuantity, t.products[id].minQuantity), ValueOr(f.maxQuantity, t.products[id].maxQuantity))
    ensures e == Some(InvalidPrice) ==> f.originalPrice.Some? && f.originalPrice.value < 0
  {
    if id !in t.products then Some(NotFound)
    else
      var p := t.products[id];
      if (f.minQuantity.Some? || f.maxQuantity.Some?)
         && !ValidRange(ValueOr(f.minQuantity, p.minQuantity), ValueOr(f.maxQuantity, p.maxQuantity))
      then Some(InvalidQuantityRange)
      else if f.originalPrice.Some? && f.originalPrice.value < 0 then Some(InvalidPrice)
      else if f.providerId.Some? && f.providerId.value != p.providerId && f.providerId.value !in t.providers
      then Some(NotFound)
      else if f.categoryId.Some? && p.categoryId != f.categoryId && f.categoryId.value !in t.categories
      then Some(NotFound)
      else None
  }

  /** `p` with every supplied field of `f` written over it (except `id`). */
  function Patched(p: Product, f: ServiceFields): (q: Product)
    ensures q.isImported == p.isImported && q.isCustom == p.isCustom
    ensures q.providerId == ValueOr(f.providerId, p.providerId)
    ensures f.categoryId.Some? ==> q.categoryId == f.categoryId
    ensures f.categoryId.None? ==> q.categoryId == p.categoryId
    ensures q.originalPrice == ValueOr(f.originalPrice, p.originalPrice)
    ensures q.price == ValueOr(f.price, p.price)
    ensures q.apiServiceId == ValueOr(f.apiServiceId, p.apiServiceId)
    ensures q.name == ValueOr(f.name, p.name) && q.customName == ValueOr(f.customName, p.customName)
    ensures f.description.Some? ==> q.description == f.description
    ensures f.description.None? ==> q.description == p.description
    ensures f.customDescription.Some? ==> q.customDescription == f.customDescription
    ensures f.customDescription.None? ==> q.customDescription == p.customDescription
    ensures q.serviceType == ValueOr(f.serviceType, p.serviceType)
    ensures q.minQuantity == ValueOr(f.minQuantity, p.minQuantity)
    ensures q.maxQuantity == ValueOr(f.maxQuantity, p.maxQuantity)
    ensures q.isActive == ValueOr(f.isActive, p.isActive)
  {
    p.(name := ValueOr(f.name, p.name), customName := ValueOr(f.customName, p.customName),
       description := if f.description.Some? then f.description else p.description,
       customDescription := if f.customDescription.Some? then f.customDescription else p.customDescription,
       categoryId := if f.categoryId.Some? then f.categoryId else p.categoryId,
       providerId := ValueOr(f.providerId, p.providerId), serviceType := ValueOr(f.serviceType, p.serviceType),
       minQuantity := ValueOr(f.minQuantity, p.minQuantity), maxQuantity := ValueOr(f.maxQuantity, p.maxQuantity),
       originalPrice := ValueOr(f.originalPrice, p.originalPrice), price := ValueOr(f.price, p.price),
       isActive := ValueOr(f.isActive, p.isActive), apiServiceId := ValueOr(f.apiServiceId, p.apiServiceId))
  }

  /** A body that supplies no field leaves the product as it was. */
  lemma PatchedWithNothing(p: Product, id: Option<CatalogId>)
    ensures Patched(p, ServiceFields(id, None, None, None, None, None, None, None, None, None, None, None, None, None)) == p
  {
  }

  /** The product the update handler writes: the fields it reads from the
      body (not the price and not the provider-side identifier) written over
      the stored ones, and the price recomputed at the markup of the
      resulting provider when the cost or the provider is supplied. */
  function UpdatedProduct(providers: map<CatalogId, Provider>, p: Product, f: ServiceFields): (q: Product)
    requires ValueOr(f.providerId, p.providerId) in providers
    ensures q.apiServiceId == p.apiServiceId && q.isImported == p.isImported && q.isCustom == p.isCustom
    ensures q.providerId == (if f.providerId.Some? then f.providerId.value else p.providerId)
    ensures q.originalPrice == (if f.originalPrice.Some? then f.originalPrice.value else p.originalPrice)
    ensures f.originalPrice.Some? || f.providerId.Some? ==>
      q.price == Price(q.originalPrice, providers[q.providerId].markup)
    ensures f.originalPrice.None? && f.providerId.None? ==> q.price == p.price
  {
    var q := Patched(p, f.(price := None, apiServiceId := None));
    if f.originalPrice.Some? || f.providerId.Some? then q.(price := Price(q.originalPrice, providers[q.providerId].markup))
    else q
  }

  /** PUT /api/services/:id: the tables afterwards and the updated service. */
  function UpdateStep(t: Tables, id: CatalogId, f: ServiceFields): (s: Step<Product>)
    requires TablesValid(t)
    ensures s.response.Ok? <==> UpdateError(t, id, f).None?
    ensures s.response.Err? ==> s.tables == t && Some(s.response.kind) == UpdateError(t, id, f)
    ensures s.response.Ok? ==> s.tables == t.(products := t.products[id := s.response.value])
  {
    var e := UpdateError(t, id, f);
    if e.Some? then Step(t, Err(e.value))
    else
      var q := UpdatedProduct(t.providers, t.products[id], f);
      Step(t.(products := t.products[id := q]), Ok(q))
  }

  /** The update handler writes exactly the supplied fields it reads and
      leaves every other field as it was; the price follows the cost and the
      markup of the resulting provider when either is supplied and is
      untouched otherwise. */
  lemma UpdatedFields(providers: map<CatalogId, Provider>, p: Product, f: ServiceFields)
    requires ValueOr(f.providerId, p.providerId) in providers
    ensures var q := UpdatedProduct(providers, p, f);
      && q.name == (if f.name.Some? then f.name.value else p.name)
      && q.customName == (if f.customName.Some? then f.customName.value else p.customName)
      && q.description == (if f.description.Some? then f.description else p.description)
      && q.customDescription == (if f.customDescription.Some? then f.customDescription else p.customDescription)
      && q.categoryId == (if f.categoryId.Some? then f.categoryId else p.categoryId)
      && q.providerId == (if f.providerId.Some? then f.providerId.value else p.providerId)
      && q.serviceType == (if f.serviceType.Some? then f.serviceType.value else p.serviceType)
      && q.minQuantity == (if f.minQuantity.Some? then f.minQuantity.value else p.minQuantity)
      && q.maxQuantity == (if f.maxQuantity.Some? then f.maxQuantity.value else p.maxQuantity)
      && q.originalPrice == (if f.originalPrice.Some? then f.originalPrice.value else p.originalPrice)
      && q.isActive == (if f.isActive.Some? then f.isActive.value else p.isActive)
      && q.apiServiceId == p.apiServiceId && q.isImported == p.isImported && q.isCustom == p.isCustom
      && (f.originalPrice.Some? || f.providerId.Some? ==> q.price == Price(q.originalPrice, providers[q.providerId].markup))
      && (f.originalPrice.None? && f.providerId.None? ==> q.price == p.price)
  {
    var q := UpdatedProduct(providers, p, f);
    var q0 := Patched(p, f.(price := None, apiServiceId := None));
    assert q.(price := q0.price) == q0;
  }

  /** A successful update leaves the product pointing at an existing
      provider and category, with a valid range when a bound was supplied and
      a non-negative cost when one was supplied, and is the product the
      handler's field rules give. */
  lemma UpdateEffect(t: Tables, id: CatalogId, f: ServiceFields)
    requires TablesValid(t)
    requires UpdateStep(t, id, f).response.Ok?
    ensures var q := UpdateStep(t, id, f).response.value;
      && id in t.products
      && q == UpdatedProduct(t.providers, t.products[id], f)
      && q.providerId in t.providers
      && (q.categoryId.Some? ==> q.categoryId.value in t.categories)
      && (f.minQuantity.Some? || f.maxQuantity.Some? ==> ValidRange(q.minQuantity, q.maxQuantity))
      && (f.originalPrice.Some? ==> q.originalPrice >= 0)
  {
    UpdatedFields(t.providers, t.products[id], f);
  }

  lemma UpdateKeeps(t: Tables, id: CatalogId, f: ServiceFields)
    requires TablesValid(t)
    ensures var s := UpdateStep(t, id, f);
      TablesValid(s.tables) && CatalogOnly(t, s.tables) && s.tables.providers == t.providers
  {
    if UpdateError(t, id, f).None? {
      ReplaceProductValid(t, id, UpdatedProduct(t.providers, t.products[id], f));
    }
  }

  method UpdateService(db: Store, id: CatalogId, f: ServiceFields) returns (r: Result<Product>)
    requires db.Valid()
    modifies db
    ensures db.Valid()
    ensures Step(db.Snapshot(), r) == UpdateStep(old(db.Snapshot()), id, f)
  {
    ghost var t := db.Snapshot();
    var e := UpdateError(db.Snapshot(), id, f);
    if e.Some? {
      return Err(e.value);
    }
    var q := UpdatedProduct(db.providers, db.products[id], f);
    db.products := db.products[id := q];
    r := Ok(q);
    assert db.Snapshot() == t.(products := t.products[id := q]);
    assert Step(db.Snapshot(), r) == UpdateStep(t, id, f);
    UpdateKeeps(t, id, f);
  }

  // ---------------------------------------------------------------------------
  // DELETE /api/services/:id

  /** The order statuses that block deleting the ordered service. */
  predicate IsOpen(s: OrderStatus) {
    s == OrderStatus.Pending || s == Processing || s == InProgress
  }

  /** Some order on product `id` is in a status the predicate accepts. */
  ghost predicate Ordered(orders: seq<Order>, id: CatalogId, open: bool) {
    exists i :: 0 <= i < |orders| && orders[i].productId == id && (open ==> IsOpen(orders[i].status))
  }

  /** The first position from `i` holding an order on product `id` (open,
      when `open`), if there is one. */
  function FindOrder(orders: seq<Order>, id: CatalogId, open: bool, i: nat): (r: Option<OrderId>)
    requires i <= |orders|
    ensures r.Some? ==> i <= r.value < |orders| && orders[r.value].productId == id
                        && (open ==> IsOpen(orders[r.value].status))
    ensures r.None? ==> forall k :: i <= k < |orders| && orders[k].productId == id ==>
                          open && !IsOpen(orders[k].status)
    decreases |orders| - i
  {
    if i == |orders| then None
    else if orders[i].productId == id && (open ==> IsOpen(orders[i].status)) then Some(i)
    else FindOrder(orders, id, open, i + 1)
  }

  /** Why a delete is refused: a missing service, an open order on it, or
      (from the store, which keeps every order's product) any order on it. */
  function DeleteError(t: Tables, id: CatalogId): (e: Option<ErrorKind>)
    ensures e.None? <==> id in t.products && !Ordered(t.orders, id, false)
    ensures e == Some(HasDependants) <==> id in t.products && Ordered(t.orders, id, true)
    ensures e == Some(StoreRejected) ==> Ordered(t.orders, id, false)
  {
    if id !in t.products then Some(NotFound)
    else if FindOrder(t.orders, id, true, 0).Some? then Some(HasDependants)
    else if FindOrder(t.orders, id, false, 0).Some? then Some(StoreRejected)
    else None
  }

  /** DELETE /api/services/:id: the tables afterwards and the removed service. */
  function DeleteStep(t: Tables, id: CatalogId): (s: Step<Product>)
    ensures s.response.Ok? <==> DeleteError(t, id).None?
    ensures s.response.Err? ==> s.tables == t && Some(s.response.kind) == DeleteError(t, id)
    ensures s.response.Ok? ==>
      && s.response.value == t.products[id]
      && s.tables == t.(products := s.tables.products)
      && id !in s.tables.products
      && s.tables.products.Keys == t.products.Keys - {id}
      && (forall k :: k in s.tables.products ==> s.tables.products[k] == t.products[k])
  {
    var e := DeleteError(t, id);
    if e.Some? then Step(t, Err(e.value)) else Step(t.(products := t.products - {id}), Ok(t.products[id]))
  }

  lemma DeleteKeeps(t: Tables, id: CatalogId)
    requires TablesValid(t)
    ensures var s := DeleteStep(t, id);
      TablesValid(s.tables) && CatalogOnly(t, s.tables) && s.tables.providers == t.providers
  {
  }

  method DeleteService(db: Store, id: CatalogId) returns (r: Result<Product>)
    requires db.Valid()
    modifies db
    ensures db.Valid()
    ensures Step(db.Snapshot(), r) == DeleteStep(old(db.Snapshot()), id)
  {
    ghost var t := db.Snapshot();
    var e := DeleteError(db.Snapshot(), id);
    if e.Some? {
      return Err(e.value);
    }
    r := Ok(db.products[id]);
    db.products := db.products - {id};
    assert Step(db.Snapshot(), r) == DeleteStep(t, id);
    DeleteKeeps(t, id);
  }

  // ---------------------------------------------------------------------------
  // Batches: POST /api/services/bulk and POST /api/services/import

  /** What a batch does with each of its items. */
  datatype Batch =
    | CreateEach(now: nat)             // bulk create
    | UpdateEach                       // bulk update
    | ImportFor(providerId: CatalogId) // import for one provider

  /** The partial-success summary a batch answers with. */
  datatype BatchReport = BatchReport(successful: nat, failed: nat, total: nat)

  /** Bulk create of one item: the create handler's product, but only field
      presence and the provider are checked; an unknown category makes the
      store refuse the write. */
  function BulkCreateItem(t: Tables, f: ServiceFields, now: nat): (s: Step<CatalogId>)
    ensures s.response.Ok? <==>
      HasRequired(f) && f.providerId.value in t.providers && (f.categoryId.Some? ==> f.categoryId.value in t.categories)
    ensures s.response.Err? ==> s.tables == t
  {
    if !HasRequired(f) then Step(t, Err(MissingFields))
    else if f.providerId.value !in t.providers then Step(t, Err(NotFound))
    else if f.categoryId.Some? && f.categoryId.value !in t.categories then Step(t, Err(StoreRejected))
    else Step(AddProduct(t, CustomProduct(f, t.providers[f.providerId.value].markup, now)), Ok(t.nextId))
  }

  /** Where the create handler accepts an item, a bulk create does exactly
      what the create handler does. */
  lemma BulkCreateAgreesWithCreate(t: Tables, f: ServiceFields, now: nat)
    requires CreateError(t, f).None?
    ensures BulkCreateItem(t, f, now) == CreateStep(t, f, now)
  {
  }

  /** A bulk create accepts an item with an invalid quantity range or a
      negative cost that the create handler refuses. */
  lemma BulkCreateSkipsRangeAndPrice(t: Tables, f: ServiceFields, now: nat)
    requires HasRequired(f) && f.providerId.value in t.providers
    requires f.categoryId.None?
    requires !ValidRange(f.minQuantity.value, f.maxQuantity.value) || f.originalPrice.value < 0
    ensures BulkCreateItem(t, f, now).response.Ok?
    ensures CreateStep(t, f, now).response.Err?
  {
  }

  /** Bulk update of one item: every supplied field is copied into the
      product; a supplied cost is repriced at the markup of the product's
      current provider; the store refuses an unknown provider or category. */
  function BulkUpdateItem(t: Tables, f: ServiceFields): (s: Step<CatalogId>)
    requires TablesValid(t)
    ensures s.response.Err? ==> s.tables == t
    ensures s.response.Ok? ==> f.id == Some(s.response.value) && s.response.value in t.products
    ensures s.response.Ok? <==>
      && f.id.Some? && f.id.value in t.products
      && ValueOr(f.providerId, t.products[f.id.value].providerId) in t.providers
      && (Patched(t.products[f.id.value], f).categoryId.Some? ==>
            Patched(t.products[f.id.value], f).categoryId.value in t.categories)
    ensures f.id.None? ==> s.response == Err(MissingFields)
    ensures f.id.Some? && f.id.value !in t.products ==> s.response == Err(NotFound)
    ensures s.response.Err? && f.id.Some? && f.id.value in t.products ==> s.response == Err(StoreRejected)
  {
    if f.id.None? then Step(t, Err(MissingFields))
    else if f.id.value !in t.products then Step(t, Err(NotFound))
    else
      var id := f.id.value;
      var p := t.products[id];
      var q := Patched(p, f);
      var q' := if f.originalPrice.Some? then q.(price := Price(q.originalPrice, t.providers[p.providerId].markup)) else q;
      if q'.providerId !in t.providers || (q'.categoryId.Some? && q'.categoryId.value !in t.categories)
      then Step(t, Err(StoreRejected))
      else Step(t.(products := t.products[id := q']), Ok(id))
  }

  /** A bulk update prices a supplied cost at the markup of the provider the
      product had BEFORE the update, even when the same item moves it to
      another provider; without a cost it keeps the supplied price, or the
      stored one. */
  lemma BulkUpdateEffect(t: Tables, f: ServiceFields)
    requires TablesValid(t)
    requires BulkUpdateItem(t, f).response.Ok?
    ensures var id := f.id.value;
      var p := t.products[id];
      var q := BulkUpdateItem(t, f).tables.products[id];
      && BulkUpdateItem(t, f).tables == t.(products := t.products[id := q])
      && q.originalPrice == ValueOr(f.originalPrice, p.originalPrice)
      && q.providerId == ValueOr(f.providerId, p.providerId)
      && (f.originalPrice.Some? ==> q.price == Price(f.originalPrice.value, t.providers[p.providerId].markup))
      && (f.originalPrice.None? ==> q.price == ValueOr(f.price, p.price))
  {
  }

  /** `!name || !serviceType || !minQuantity || !maxQuantity || !originalPrice
      || !apiServiceId` is false. */
  predicate ImportRequired(f: ServiceFields) {
    Given(f.name) && Given(f.serviceType) && GivenNumber(f.minQuantity) && GivenNumber(f.maxQuantity)
    && GivenNumber(f.originalPrice) && Given(f.apiServiceId)
  }

  /** The upsert key of an import: the provider-side identifier and the provider. */
  predicate HasKey(p: Product, apiServiceId: string, providerId: CatalogId) {
    p.apiServiceId == apiServiceId && p.providerId == providerId
  }

  /** The lowest identifier from `i` below `n` of a product with the key, if any. */
  function FindKey(products: map<CatalogId, Product>, apiServiceId: string, providerId: CatalogId, i: nat, n: nat)
    : (r: Option<CatalogId>)
    requires i <= n
    ensures r.Some? ==> i <= r.value < n && r.value in products && HasKey(products[r.value], apiServiceId, providerId)
    ensures r.Some? ==> forall k :: i <= k < r.value && k in products ==> !HasKey(products[k], apiServiceId, providerId)
    ensures r.None? ==> forall k :: i <= k < n && k in products ==> !HasKey(products[k], apiServiceId, providerId)
    decreases n - i
  {
    if i == n then None
    else if i in products && HasKey(products[i], apiServiceId, providerId) then Some(i)
    else FindKey(products, apiServiceId, providerId, i + 1, n)
  }

  /** The product an import creates: named and described as given, active,
      imported rather than custom, priced at the provider's markup. */
  function ImportedProduct(f: ServiceFields, providerId: CatalogId, markup: int): (p: Product)
    requires ImportRequired(f)
    ensures HasKey(p, f.apiServiceId.value, providerId)
    ensures p.originalPrice == f.originalPrice.value && p.price == Price(p.originalPrice, markup)
    ensures p.isImported && !p.isCustom && p.isActive
    ensures p.name == f.name.value && p.customName == f.name.value
    ensures p.description == f.description && p.customDescription == f.description
    ensures p.categoryId == f.categoryId && p.serviceType == f.serviceType.value
    ensures p.minQuantity == f.minQuantity.value && p.maxQuantity == f.maxQuantity.value
  {
    Product(
      f.name.value, f.name.value, f.description, f.description, f.categoryId, providerId,
      f.serviceType.value, f.minQuantity.value, f.maxQuantity.value, f.originalPrice.value,
      Price(f.originalPrice.value, markup), true, f.apiServiceId.value, true, false)
  }

  /** An existing product refreshed by an import: the listed fields written
      and the price recomputed at the provider's markup. */
  function Refreshed(p: Product, f: ServiceFields, markup: int): (q: Product)
    requires ImportRequired(f)
    ensures q.apiServiceId == p.apiServiceId && q.providerId == p.providerId
    ensures q.originalPrice == f.originalPrice.value && q.price == Price(q.originalPrice, markup)
    ensures q.customName == p.customName && q.isActive == p.isActive
    ensures q.isImported == p.isImported && q.isCustom == p.isCustom
    ensures q.name == f.name.value && q.serviceType == f.serviceType.value
    ensures q.minQuantity == f.minQuantity.value && q.maxQuantity == f.maxQuantity.value
    ensures f.description.Some? ==> q.description == f.description
    ensures f.description.None? ==> q.description == p.description
    ensures f.categoryId.Some? ==> q.categoryId == f.categoryId
    ensures f.categoryId.None? ==> q.categoryId == p.categoryId
    ensures q.customDescription == p.customDescription
  {
    p.(name := f.name.value,
       description := if f.description.Some? then f.description else p.description,
       categoryId := if f.categoryId.Some? then f.categoryId else p.categoryId,
       serviceType := f.serviceType.value, minQuantity := f.minQuantity.value, maxQuantity := f.maxQuantity.value,
       originalPrice := f.originalPrice.value, price := Price(f.originalPrice.value, markup))
  }

  /** Import of one item for provider `providerId`. */
  function ImportItem(t: Tables, providerId: CatalogId, f: ServiceFields): (s: Step<CatalogId>)
    requires providerId in t.providers
    ensures s.response.Ok? <==> ImportRequired(f) && (f.categoryId.Some? ==> f.categoryId.value in t.categories)
    ensures s.response.Err? ==> s.tables == t
  {
    if !ImportRequired(f) then Step(t, Err(MissingFields))
    else if f.categoryId.Some? && f.categoryId.value !in t.categories then Step(t, Err(StoreRejected))
    else
      var markup := t.providers[providerId].markup;
      match FindKey(t.products, f.apiServiceId.value, providerId, 0, t.nextId)
      case Some(id) => Step(t.(products := t.products[id := Refreshed(t.products[id], f, markup)]), Ok(id))
      case None => Step(AddProduct(t, ImportedProduct(f, providerId, markup)), Ok(t.nextId))
  }

  /** Some product carries the key. */
  ghost predicate KeyTaken(products: map<CatalogId, Product>, apiServiceId: string, providerId: CatalogId) {
    exists k :: k in products && HasKey(products[k], apiServiceId, providerId)
  }

  /** The upsert: an imported item ends as a product with its key, cost and
      the price of the provider's current markup. When a product already
      carries the key, that one is refreshed and no product is added;
      otherwise exactly one new, active, imported product is added. */
  lemma ImportUpsert(t: Tables, providerId: CatalogId, f: ServiceFields)
    requires TablesValid(t) && providerId in t.providers
    requires ImportItem(t, providerId, f).response.Ok?
    ensures var s := ImportItem(t, providerId, f);
      var id := s.response.value;
      var q := s.tables.products[id];
      && s.tables == t.(products := s.tables.products, nextId := s.tables.nextId)
      && id in s.tables.products
      && HasKey(q, f.apiServiceId.value, providerId)
      && q.originalPrice == f.originalPrice.value
      && q.price == Price(f.originalPrice.value, t.providers[providerId].markup)
      && (forall k :: k in t.products && k != id ==> s.tables.products[k] == t.products[k])
      && (KeyTaken(t.products, f.apiServiceId.value, providerId) ==>
            id in t.products && HasKey(t.products[id], f.apiServiceId.value, providerId)
            && s.tables.products.Keys == t.products.Keys
            && q.isImported == t.products[id].isImported && q.isActive == t.products[id].isActive)
      && (!KeyTaken(t.products, f.apiServiceId.value, providerId) ==>
            id !in t.products && s.tables.products.Keys == t.products.Keys + {id}
            && q.isActive && q.isImported && !q.isCustom && q.customName == q.name)
  {
    var key := f.apiServiceId.value;
    var markup := t.providers[providerId].markup;
    var r := FindKey(t.products, key, providerId, 0, t.nextId);
    if r.Some? {
      var q := Refreshed(t.products[r.value], f, markup);
      assert ImportItem(t, providerId, f) == Step(t.(products := t.products[r.value := q]), Ok(r.value));
      assert KeyTaken(t.products, key, providerId);
    } else {
      var p := ImportedProduct(f, providerId, markup);
      assert ImportItem(t, providerId, f) == Step(AddProduct(t, p), Ok(t.nextId));
      assert !KeyTaken(t.products, key, providerId) by {
        forall k | k in t.products
          ensures !HasKey(t.products[k], key, providerId)
        {
          assert k < t.nextId;
        }
      }
    }
  }

  /** The lowest identifier below `n` carrying the key is the one found. */
  lemma FindKeyLowest(products: map<CatalogId, Product>, apiServiceId: string, providerId: CatalogId, n: nat, m: nat)
    requires m < n && m in products && HasKey(products[m], apiServiceId, providerId)
    requires forall k :: 0 <= k < m && k in products ==> !HasKey(products[k], apiServiceId, providerId)
    ensures FindKey(products, apiServiceId, providerId, 0, n) == Some(m)
  {
  }

  /** Importing the same item twice creates at most one product: the second
      import refreshes the product the first one wrote. */
  lemma ImportTwiceAddsNothing(t: Tables, providerId: CatalogId, f: ServiceFields)
    requires TablesValid(t) && providerId in t.providers
    requires ImportItem(t, providerId, f).response.Ok?
    ensures var s1 := ImportItem(t, providerId, f);
      var s2 := ImportItem(s1.tables, providerId, f);
      && s2.response == s1.response
      && s2.tables.products.Keys == s1.tables.products.Keys
  {
    var s1 := ImportItem(t, providerId, f);
    var id := s1.response.value;
    var key := f.apiServiceId.value;
    var r1 := FindKey(t.products, key, providerId, 0, t.nextId);
    assert id < s1.tables.nextId && id in s1.tables.products && HasKey(s1.tables.products[id], key, providerId);
    forall k | 0 <= k < id && k in s1.tables.products
      ensures !HasKey(s1.tables.products[k], key, providerId)
    {
      assert k in t.products && s1.tables.products[k] == t.products[k];
    }
    FindKeyLowest(s1.tables.products, key, providerId, s1.tables.nextId, id);
  }

  lemma ImportKeeps(t: Tables, providerId: CatalogId, f: ServiceFields)
    requires TablesValid(t) && providerId in t.providers
    ensures var s := ImportItem(t, providerId, f);
      TablesValid(s.tables) && CatalogOnly(t, s.tables) && s.tables.providers == t.providers
  {
    if ImportItem(t, providerId, f).response.Ok? {
      var markup := t.providers[providerId].markup;
      match FindKey(t.products, f.apiServiceId.value, providerId, 0, t.nextId)
      case Some(id) => ReplaceProductValid(t, id, Refreshed(t.products[id], f, markup));
      case None => AddProductValid(t, ImportedProduct(f, providerId, markup));
    }
  }

  /** A batch can run on `t`: an import's provider exists. */
  predicate BatchReady(t: Tables, b: Batch) {
    b.ImportFor? ==> b.providerId in t.providers
  }

  /** What a batch does with one item. */
  function ItemStep(t: Tables, b: Batch, f: ServiceFields): Step<CatalogId>
    requires TablesValid(t) && BatchReady(t, b)
  {
    match b
    case CreateEach(now) => BulkCreateItem(t, f, now)
    case UpdateEach => BulkUpdateItem(t, f)
    case ImportFor(providerId) => ImportItem(t, providerId, f)
  }

  lemma ItemKeeps(t: Tables, b: Batch, f: ServiceFields)
    requires TablesValid(t) && BatchReady(t, b)
    ensures var s := ItemStep(t, b, f);
      TablesValid(s.tables) && CatalogOnly(t, s.tables) && s.tables.providers == t.providers
      && s.tables == t.(products := s.tables.products, nextId := s.tables.nextId)
  {
    match b
    case CreateEach(now) =>
      if BulkCreateItem(t, f, now).response.Ok? {
        AddProductValid(t, CustomProduct(f, t.providers[f.providerId.value].markup, now));
      }
    case UpdateEach =>
      var s := BulkUpdateItem(t, f);
      if s.response.Ok? {
        ReplaceProductValid(t, f.id.value, s.tables.products[f.id.value]);
        assert s.tables == t.(products := t.products[f.id.value := s.tables.products[f.id.value]]);
      }
    case ImportFor(providerId) => ImportKeeps(t, providerId, f);
  }

  /** The tables after a batch's items and the outcome of each. */
  datatype Run = Run(tables: Tables, outcomes: seq<Result<CatalogId>>)

  /** Runs the items in order; an item that fails leaves the tables as they
      were and the next item runs regardless. Only the product table (and the
      identifier counter) changes. */
  function RunBatch(t: Tables, b: Batch, items: seq<ServiceFields>): (r: Run)
    requires TablesValid(t) && BatchReady(t, b)
    ensures |r.outcomes| == |items|
    ensures TablesValid(r.tables) && CatalogOnly(t, r.tables) && r.tables.providers == t.providers
    ensures r.tables == t.(products := r.tables.products, nextId := r.tables.nextId)
    decreases |items|
  {
    if items == [] then Run(t, [])
    else
      var r := RunBatch(t, b, items[..|items| - 1]);
      var s := ItemStep(r.tables, b, items[|items| - 1]);
      ItemKeeps(r.tables, b, items[|items| - 1]);
      Run(s.tables, r.outcomes + [s.response])
  }

  /** Each item's outcome is what its step gives on the tables the items
      before it left: a failing item does not stop or undo the others. */
  lemma {:induction false} RunBatchOutcome(t: Tables, b: Batch, items: seq<ServiceFields>, i: nat)
    requires TablesValid(t) && BatchReady(t, b) && i < |items|
    ensures RunBatch(t, b, items).outcomes[i] == ItemStep(RunBatch(t, b, items[..i]).tables, b, items[i]).response
    decreases |items|
  {
    if i < |items| - 1 {
      var front := items[..|items| - 1];
      assert front[..i] == items[..i];
      RunBatchOutcome(t, b, front, i);
    } else {
      assert items[..i] == items[..|items| - 1];
    }
  }

  /** The identifiers of the items that succeeded (`results`). */
  function Successes(os: seq<Result<CatalogId>>): seq<CatalogId> {
    if os == [] then []
    else Successes(os[..|os| - 1]) + (if os[|os| - 1].Ok? then [os[|os| - 1].value] else [])
  }

  /** The failures of the items that failed (`errors`). */
  function Failures(os: seq<Result<CatalogId>>): seq<ErrorKind> {
    if os == [] then []
    else Failures(os[..|os| - 1]) + (if os[|os| - 1].Err? then [os[|os| - 1].kind] else [])
  }

  /** Every item lands in exactly one of the two lists: successful + failed = total. */
  lemma {:induction false} OutcomesPartition(os: seq<Result<CatalogId>>)
    ensures |Successes(os)| + |Failures(os)| == |os|
    decreases |os|
  {
    if os != [] {
      OutcomesPartition(os[..|os| - 1]);
    }
  }

  /** The report of a finished run. */
  function Report(r: Run): (rep: BatchReport)
    ensures rep.successful + rep.failed == rep.total == |r.outcomes|
  {
    OutcomesPartition(r.outcomes);
    BatchReport(|Successes(r.outcomes)|, |Failures(r.outcomes)|, |r.outcomes|)
  }

  /** The bulk operations by name. */
  function ParseOperation(operation: Option<string>, now: nat): (b: Option<Batch>)
    ensures b.Some? <==> operation == Some("create") || operation == Some("update")
    ensures b.Some? ==> !b.value.ImportFor?
  {
    if operation == Some("create") then Some(CreateEach(now))
    else if operation == Some("update") then Some(UpdateEach)
    else None
  }

  /** POST /api/services/bulk. */
  function BulkStep(t: Tables, services: Option<seq<ServiceFields>>, operation: Option<string>, now: nat)
    : (s: Step<BatchReport>)
    requires TablesValid(t)
    ensures s.response.Err? ==> s.tables == t
    ensures s.response == Err(InvalidServices) <==> services.None? || services.value == []
    ensures s.response.Ok? <==> services.Some? && services.value != [] && ParseOperation(operation, now).Some?
    ensures s.response.Ok? ==>
      s.response.value.successful + s.response.value.failed == s.response.value.total == |services.value|
  {
    if services.None? || services.value == [] then Step(t, Err(InvalidServices))
    else
      var b := ParseOperation(operation, now);
      if b.None? then Step(t, Err(InvalidOperation))
      else
        var r := RunBatch(t, b.value, services.value);
        Step(r.tables, Ok(Report(r)))
  }

  /** POST /api/services/import. */
  function ImportStep(t: Tables, providerId: Option<CatalogId>, services: Option<seq<ServiceFields>>)
    : (s: Step<BatchReport>)
    requires TablesValid(t)
    ensures s.response.Err? ==> s.tables == t
    ensures s.response.Ok? <==>
      providerId.Some? && services.Some? && services.value != [] && providerId.value in t.providers
    ensures s.response.Ok? ==>
      s.response.value.successful + s.response.value.failed == s.response.value.total == |services.value|
  {
    if providerId.None? then Step(t, Err(MissingFields))
    else if services.None? || services.value == [] then Step(t, Err(InvalidServices))
    else if providerId.value !in t.providers then Step(t, Err(NotFound))
    else
      var r := RunBatch(t, ImportFor(providerId.value), services.value);
      Step(r.tables, Ok(Report(r)))
  }

  /** One item of a bulk create. */
  method CreateItem(db: Store, f: ServiceFields, now: nat) returns (o: Result<CatalogId>)
    requires db.Valid()
    modifies db
    ensures db.Valid()
    ensures Step(db.Snapshot(), o) == BulkCreateItem(old(db.Snapshot()), f, now)
  {
    ghost var t := db.Snapshot();
    if !HasRequired(f) {
      return Err(MissingFields);
    }
    if f.providerId.value !in db.providers {
      return Err(NotFound);
    }
    if f.categoryId.Some? && f.categoryId.value !in db.categories {
      return Err(StoreRejected);
    }
    var p := CustomProduct(f, db.providers[f.providerId.value].markup, now);
    o := Ok(db.nextId);
    db.products := db.products[db.nextId := p];
    db.nextId := db.nextId + 1;
    assert db.Snapshot() == AddProduct(t, p);
    assert Step(db.Snapshot(), o) == BulkCreateItem(t, f, now);
    ItemKeeps(t, CreateEach(now), f);
  }

  /** One item of a bulk update. */
  method UpdateItem(db: Store, f: ServiceFields) returns (o: Result<CatalogId>)
    requires db.Valid()
    modifies db
    ensures db.Valid()
    ensures Step(db.Snapshot(), o) == BulkUpdateItem(old(db.Snapshot()), f)
  {
    ghost var t := db.Snapshot();
    if f.id.None? {
      return Err(MissingFields);
    }
    var id := f.id.value;
    if id !in db.products {
      return Err(NotFound);
    }
    var p := db.products[id];
    var q := Patched(p, f);
    if f.originalPrice.Some? {
      q := q.(price := Price(q.originalPrice, db.providers[p.providerId].markup));
    }
    if q.providerId !in db.providers || (q.categoryId.Some? && q.categoryId.value !in db.categories) {
      return Err(StoreRejected);
    }
    db.products := db.products[id := q];
    o := Ok(id);
    assert db.Snapshot() == t.(products := t.products[id := q]);
    assert Step(db.Snapshot(), o) == BulkUpdateItem(t, f);
    ItemKeeps(t, UpdateEach, f);
  }

  /** One item of an import: refresh the product with the key, or add one. */
  method ImportOne(db: Store, providerId: CatalogId, f: ServiceFields) returns (o: Result<CatalogId>)
    requires db.Valid() && providerId in db.providers
    modifies db
    ensures db.Valid()
    ensures Step(db.Snapshot(), o) == ImportItem(old(db.Snapshot()), providerId, f)
  {
    ghost var t := db.Snapshot();
    if !ImportRequired(f) {
      return Err(MissingFields);
    }
    if f.categoryId.Some? && f.categoryId.value !in db.categories {
      return Err(StoreRejected);
    }
    var markup := db.providers[providerId].markup;
    var existing := FindKey(db.products, f.apiServiceId.value, providerId, 0, db.nextId);
    if existing.Some? {
      var q := Refreshed(db.products[existing.value], f, markup);
      db.products := db.products[existing.value := q];
      o := Ok(existing.value);
      assert db.Snapshot() == t.(products := t.products[existing.value := q]);
    } else {
      var p := ImportedProduct(f, providerId, markup);
      o := Ok(db.nextId);
      db.products := db.products[db.nextId := p];
      db.nextId := db.nextId + 1;
      assert db.Snapshot() == AddProduct(t, p);
    }
    assert Step(db.Snapshot(), o) == ImportItem(t, providerId, f);
    ImportKeeps(t, providerId, f);
  }

  /** Runs a batch's step for one item. */
  method ApplyItem(db: Store, b: Batch, f: ServiceFields) returns (o: Result<CatalogId>)
    requires db.Valid() && BatchReady(db.Snapshot(), b)
    modifies db
    ensures db.Valid()
    ensures Step(db.Snapshot(), o) == ItemStep(old(db.Snapshot()), b, f)
  {
    match b
    case CreateEach(now) => o := CreateItem(db, f, now);
    case UpdateEach => o := UpdateItem(db, f);
    case ImportFor(providerId) => o := ImportOne(db, providerId, f);
  }

  /** One more item extends the run by that item's step. */
  lemma RunBatchNext(t: Tables, b: Batch, items: seq<ServiceFields>, i: nat,
                     before: Tables, outcomes: seq<Result<CatalogId>>, after: Tables, o: Result<CatalogId>)
    requires TablesValid(t) && BatchReady(t, b) && i < |items|
    requires RunBatch(t, b, items[..i]) == Run(before, outcomes)
    requires ItemStep(before, b, items[i]) == Step(after, o)
    ensures RunBatch(t, b, items[..i + 1]) == Run(after, outcomes + [o])
  {
    assert items[..i + 1][..i] == items[..i];
  }

  /** One more outcome extends `results` or `errors` by it. */
  lemma OutcomesNext(os: seq<Result<CatalogId>>, o: Result<CatalogId>)
    ensures Successes(os + [o]) == Successes(os) + (if o.Ok? then [o.value] else [])
    ensures Failures(os + [o]) == Failures(os) + (if o.Err? then [o.kind] else [])
  {
    assert (os + [o])[..|os|] == os;
  }

  /** One turn of the loop below: item `i` applied to the store left by the
      items before it. */
  method RunOne(db: Store, ghost t: Tables, b: Batch, items: seq<ServiceFields>, i: nat,
                ghost outcomes: seq<Result<CatalogId>>) returns (o: Result<CatalogId>)
    requires TablesValid(t) && BatchReady(t, b) && i < |items|
    requires RunBatch(t, b, items[..i]) == Run(db.Snapshot(), outcomes)
    modifies db
    ensures RunBatch(t, b, items[..i + 1]) == Run(db.Snapshot(), outcomes + [o])
  {
    ghost var before := db.Snapshot();
    o := ApplyItem(db, b, items[i]);
    RunBatchNext(t, b, items, i, before, outcomes, db.Snapshot(), o);
  }

  /** The loop of the bulk and import handlers: each item in turn, its
      product identifier pushed to `results` or its failure to `errors`. */
  method RunItems(db: Store, b: Batch, items: seq<ServiceFields>) returns (rep: BatchReport)
    requires db.Valid() && BatchReady(db.Snapshot(), b)
    modifies db
    ensures db.Valid()
    ensures var r := RunBatch(old(db.Snapshot()), b, items);
      db.Snapshot() == r.tables && rep == Report(r)
  {
    ghost var t := db.Snapshot();
    var results: seq<CatalogId> := [];
    var errors: seq<ErrorKind> := [];
    ghost var outcomes: seq<Result<CatalogId>> := [];
    var i := 0;
    while i < |items|
      invariant 0 <= i <= |items|
      invariant RunBatch(t, b, items[..i]) == Run(db.Snapshot(), outcomes)
      invariant results == Successes(outcomes) && errors == Failures(outcomes)
    {
      var o := RunOne(db, t, b, items, i, outcomes);
      OutcomesNext(outcomes, o);
      outcomes := outcomes + [o];
      if o.Ok? {
        results := results + [o.value];
      } else {
        errors := errors + [o.kind];
      }
      i := i + 1;
    }
    assert items[..i] == items;
    rep := BatchReport(|results|, |errors|, |items|);
    assert rep == Report(Run(db.Snapshot(), outcomes));
  }

  method BulkServices(db: Store, services: Option<seq<ServiceFields>>, operation: Option<string>, now: nat)
    returns (r: Result<BatchReport>)
    requires db.Valid()
    modifies db
    ensures db.Valid()
    ensures Step(db.Snapshot(), r) == BulkStep(old(db.Snapshot()), services, operation, now)
  {
    if services.None? || services.value == [] {
      return Err(InvalidServices);
    }
    var b := ParseOperation(operation, now);
    if b.None? {
      return Err(InvalidOperation);
    }
    var rep := RunItems(db, b.value, services.value);
    r := Ok(rep);
  }

  method ImportServices(db: Store, providerId: Option<CatalogId>, services: Option<seq<ServiceFields>>)
    returns (r: Result<BatchReport>)
    requires db.Valid()
    modifies db
    ensures db.Valid()
    ensures Step(db.Snapshot(), r) == ImportStep(old(db.Snapshot()), providerId, services)
  {
    if providerId.None? {
      return Err(MissingFields);
    }
    if services.None? || services.value == [] {
      return Err(InvalidServices);
    }
    if providerId.value !in db.providers {
      return Err(NotFound);
    }
    var rep := RunItems(db, ImportFor(providerId.value), services.value);
    r := Ok(rep);
  }
}

=== FILE: transactions.dfy ===
/** The balance routes: deposits and their confirmation by an administrator,
    and withdrawals an administrator initiates and later processes. */
module Transactions {
  import opened Common
  import opened Model

  // ---------------------------------------------------------------------------
  // Payment instructions

  /** The reference a customer quotes when paying deposit `txnId`. */
  function Reference(txnId: TxnId): (r: string)
    ensures |r| > 19 && r[..19] == "Use reference: DEP-"
    ensures forall i :: 19 <= i < |r| ==> IsDigit(r[i])
    ensures DigitsValue(r[19..]) == txnId
  {
    var d := Decimal(txnId);
    DecimalRoundTrip(txnId);
    assert ("Use reference: DEP-" + d)[19..] == d;
    "Use reference: DEP-" + d
  }

  /** Different deposits are quoted under different references. */
  lemma ReferenceInjective(a: TxnId, b: TxnId)
    requires Reference(a) == Reference(b)
    ensures a == b
  {
    assert Reference(a)[19..] == Reference(b)[19..];
  }

  function TransferLine(amount: nat, destination: string): string {
    "Please transfer " + Decimal(amount) + " IDR to " + destination
  }

  /** The lines that tell a customer how to pay a deposit of `amount` under
      transaction `txnId` with `paymentMethod`. */
  function PaymentInstructions(amount: nat, paymentMethod: PaymentMethod, txnId: TxnId): (lines: seq<string>)
    ensures |lines| == (if paymentMethod in {Midtrans, Xendit, BankTransfer} then 3 else 2)
    ensures Reference(txnId) in lines
  {
    match paymentMethod
    case Midtrans =>
      [TransferLine(amount, "account: 1234-5678-9012"), Reference(txnId), "Payment gateway: Midtrans"]
    case Xendit =>
      [TransferLine(amount, "account: 1234-5678-9012"), Reference(txnId), "Payment gateway: Xendit"]
    case BankTransfer =>
      [TransferLine(amount, "account: 1234-5678-9012"), "Bank: BCA (Bank Central Asia)", Reference(txnId)]
    case EWallet =>
      [TransferLine(amount, "e-wallet: 0812-3456-7890"), Reference(txnId)]
    case CreditCard =>
      ["Please use your CREDIT CARD to pay " + Decimal(amount) + " IDR", Reference(txnId)]
    case DebitCard =>
      ["Please use your DEBIT CARD to pay " + Decimal(amount) + " IDR", Reference(txnId)]
  }

  /** The instructions of two different deposits never quote the same
      reference: each carries its own, and the other's appears nowhere in it. */
  lemma InstructionsIdentifyDeposit(a1: nat, m1: PaymentMethod, id1: TxnId, a2: nat, m2: PaymentMethod, id2: TxnId)
    requires id1 != id2
    ensures Reference(id1) in PaymentInstructions(a1, m1, id1)
    ensures Reference(id1) != Reference(id2)
    ensures Reference(id1) !in PaymentInstructions(a2, m2, id2)
  {
    if Reference(id1) == Reference(id2) {
      ReferenceInjective(id1, id2);
    }
    var r := Reference(id1);
    assert r[0] == 'U';
    forall l | l in PaymentInstructions(a2, m2, id2)
      ensures l != r
    {
      if l != Reference(id2) {
        assert l[0] in {'P', 'B'};
      }
    }
  }

  // ---------------------------------------------------------------------------
  // Deposits

  /** The response of a created deposit. */
  datatype DepositCreated = DepositCreated(txnId: TxnId, amount: int, instructions: seq<string>)

  /** The first check a deposit request fails, in the handler's order. */
  function DepositError(users: map<UserId, User>, userId: Option<UserId>, amount: Option<int>, paymentMethod: Option<string>)
    : (e: Option<ErrorKind>)
    ensures e.None? <==>
      amount.Some? && amount.value > 0 && paymentMethod.Some? && ParsePaymentMethod(paymentMethod.value).Some? &&
      Given(userId) && userId.value in users && users[userId.value].isActive
    ensures e == Some(InvalidPaymentMethod) ==> paymentMethod.Some? && ParsePaymentMethod(paymentMethod.value).None?
    ensures amount.Some? && amount.value < 0 && Given(paymentMethod) ==> e == Some(InvalidAmount)
  {
    if !GivenNumber(amount) || !Given(paymentMethod) then Some(MissingFields)
    else if amount.value <= 0 then Some(InvalidAmount)
    else if !Given(userId) then Some(Unauthorized)
    else if userId.value !in users then Some(NotFound)
    else if !users[userId.value].isActive then Some(Suspended)
    else if ParsePaymentMethod(paymentMethod.value).None? then Some(InvalidPaymentMethod)
    else None
  }

  /** Creating a deposit, as a change of the tables: a PENDING deposit is
      recorded and no balance moves until it is confirmed. */
  function DepositStep(t: Tables, userId: Option<UserId>, amount: Option<int>, paymentMethod: Option<string>)
    : (s: Step<DepositCreated>)
    ensures s.response.Ok? <==> DepositError(t.users, userId, amount, paymentMethod).None?
    ensures s.response.Err? ==> s.tables == t && Some(s.response.kind) == DepositError(t.users, userId, amount, paymentMethod)
  {
    var e := DepositError(t.users, userId, amount, paymentMethod);
    if e.Some? then Step(t, Err(e.value))
    else
      var m := ParsePaymentMethod(paymentMethod.value).value;
      var x := Transaction(userId.value, None, Deposit, amount.value, TxnStatus.Pending, Some(m), None);
      Step(t.(txns := t.txns + [x]), Ok(DepositCreated(|t.txns|, amount.value, PaymentInstructions(amount.value, m, |t.txns|))))
  }

  /** A created deposit is a PENDING deposit of the requested amount by the
      caller, quoted under its own reference; no balance changes. */
  lemma DepositEffect(t: Tables, userId: Option<UserId>, amount: Option<int>, paymentMethod: Option<string>)
    ensures var s := DepositStep(t, userId, amount, paymentMethod);
      s.response.Ok? ==>
        && s.tables.users == t.users
        && s.tables.txns == t.txns + [Transaction(userId.value, None, Deposit, amount.value, TxnStatus.Pending,
                                                  ParsePaymentMethod(paymentMethod.value), None)]
        && s.response.value.txnId == |t.txns|
        && Reference(|t.txns|) in s.response.value.instructions
  {
  }

  /** Creating a deposit keeps the ledger and every integrity rule. */
  lemma DepositKeeps(t: Tables, userId: Option<UserId>, amount: Option<int>, paymentMethod: Option<string>)
    requires TablesValid(t)
    ensures var s := DepositStep(t, userId, amount, paymentMethod);
      TablesValid(s.tables) && LedgerPreserved(t.users, t.txns, s.tables.users, s.tables.txns) &&
      NoBalanceTurnsNegative(t.users, s.tables.users)
  {
    var s := DepositStep(t, userId, amount, paymentMethod);
    if s.response.Ok? {
      var x := Transaction(userId.value, None, Deposit, amount.value, TxnStatus.Pending,
                           ParsePaymentMethod(paymentMethod.value), None);
      LedgerAppend(t.users, t.txns, x, 0);
      assert WithBalance(t.users, x.userId, 0) == t.users;
    }
  }

  /** Creates a PENDING deposit for the caller and answers with the
      instructions for paying it. */
  method CreateDeposit(db: Store, userId: Option<UserId>, amount: Option<int>, paymentMethod: Option<string>)
    returns (r: Result<DepositCreated>)
    requires db.Valid()
    modifies db
    ensures db.Valid()
    ensures Step(db.Snapshot(), r) == DepositStep(old(db.Snapshot()), userId, amount, paymentMethod)
  {
    ghost var t := db.Snapshot();
    var e := DepositError(db.users, userId, amount, paymentMethod);
    if e.Some? {
      return Err(e.value);
    }
    var m := ParsePaymentMethod(paymentMethod.value).value;
    var x := Transaction(userId.value, None, Deposit, amount.value, TxnStatus.Pending, Some(m), None);
    var id := |db.txns|;
    db.txns := db.txns + [x];
    r := Ok(DepositCreated(id, amount.value, PaymentInstructions(amount.value, m, id)));
    assert Step(db.Snapshot(), r) == DepositStep(t, userId, amount, paymentMethod);
    DepositKeeps(t, userId, amount, paymentMethod);
  }

  // ---------------------------------------------------------------------------
  // Confirming a deposit

  /** The response of a confirmation. */
  datatype Confirmation = Confirmation(txn: Transaction, balanceUpdated: bool, newBalance: int)

  /** The first check a confirmation fails: a final status is required, and
      the transaction must exist, be a deposit and still be PENDING. */
  function ConfirmError(txns: seq<Transaction>, txnId: TxnId, status: Option<string>): (e: Option<ErrorKind>)
    ensures e.None? <==>
      status.Some? && ParseFinalStatus(status.value).Some? && txnId < |txns| &&
      txns[txnId].kind == Deposit && txns[txnId].status == TxnStatus.Pending
    ensures e == Some(InvalidTransactionState) ==> txnId < |txns| && txns[txnId].status != TxnStatus.Pending
  {
    if !Given(status) then Some(MissingFields)
    else if ParseFinalStatus(status.value).None? then Some(InvalidStatus)
    else if txnId >= |txns| then Some(NotFound)
    else if txns[txnId].kind != Deposit then Some(InvalidTransactionType)
    else if txns[txnId].status != TxnStatus.Pending then Some(InvalidTransactionState)
    else None
  }

  /** `x` settled with `status`; its payment reference becomes `paymentId || null`. */
  function Settled(x: Transaction, status: TxnStatus, paymentId: Option<string>): (y: Transaction)
    ensures y.status == status
    ensures y.paymentId == (if Given(paymentId) then paymentId else None)
    ensures y.userId == x.userId && y.orderId == x.orderId && y.kind == x.kind && y.amount == x.amount
    ensures y.paymentMethod == x.paymentMethod
  {
    x.(status := status, paymentId := if Given(paymentId) then paymentId else None)
  }

  /** Confirming a deposit, as a change of the tables: the deposit takes its
      final status, and only a successful one credits the customer and
      notifies them. */
  function ConfirmStep(t: Tables, txnId: TxnId, status: Option<string>, paymentId: Option<string>)
    : (s: Step<Confirmation>)
    requires TablesValid(t)
    ensures s.response.Ok? <==> ConfirmError(t.txns, txnId, status).None?
    ensures s.response.Err? ==> s.tables == t && Some(s.response.kind) == ConfirmError(t.txns, txnId, status)
    ensures s.response.Ok? ==>
      var x := t.txns[txnId];
      && s.response.value.balanceUpdated == (ParseFinalStatus(status.value) == Some(Success))
      && s.tables.notifications == t.notifications +
           (if s.response.value.balanceUpdated then [Notification(x.userId, DepositSuccessful, SuccessLevel, x.amount)] else [])
  {
    var e := ConfirmError(t.txns, txnId, status);
    if e.Some? then Step(t, Err(e.value))
    else
      var x := t.txns[txnId];
      var final := ParseFinalStatus(status.value).value;
      var t1 := t.(txns := t.txns[txnId := Settled(x, final, paymentId)]);
      if final == Success then
        var t2 := t1.(users := WithBalance(t1.users, x.userId, x.amount),
                      notifications := t1.notifications + [Notification(x.userId, DepositSuccessful, SuccessLevel, x.amount)]);
        Step(t2, Ok(Confirmation(Settled(x, final, paymentId), true, t.users[x.userId].balance + x.amount)))
      else
        Step(t1, Ok(Confirmation(Settled(x, final, paymentId), false, t.users[x.userId].balance)))
  }

  /** A confirmed deposit is no longer PENDING; SUCCESS credits exactly its
      amount to its owner, FAILED and CANCELLED credit nothing; the reported
      balance is the new one. */
  lemma ConfirmEffect(t: Tables, txnId: TxnId, status: Option<string>, paymentId: Option<string>)
    requires TablesValid(t)
    ensures var s := ConfirmStep(t, txnId, status, paymentId);
      s.response.Ok? ==>
        var x := t.txns[txnId];
        var final := ParseFinalStatus(status.value).value;
        && |s.tables.txns| == |t.txns|
        && s.tables.txns[txnId].status == final != TxnStatus.Pending
        && s.tables.txns[txnId].amount == x.amount
        && (forall i :: 0 <= i < |t.txns| && i != txnId ==> s.tables.txns[i] == t.txns[i])
        && s.tables.users.Keys == t.users.Keys
        && s.tables.users[x.userId].balance == t.users[x.userId].balance + (if final == Success then x.amount else 0)
        && s.response.value.newBalance == s.tables.users[x.userId].balance
        && s.response.value.balanceUpdated == (final == Success)
        && (forall v :: v in t.users && v != x.userId ==> s.tables.users[v] == t.users[v])
        && s.tables.txns[txnId] == Settled(x, final, paymentId)
        && s.tables.notifications == t.notifications +
             (if final == Success then [Notification(x.userId, DepositSuccessful, SuccessLevel, x.amount)] else [])
        && s.tables == t.(txns := s.tables.txns, users := s.tables.users, notifications := s.tables.notifications)
  {
  }

  /** Confirming keeps the ledger and every integrity rule, and turns no
      balance negative. */
  lemma ConfirmKeeps(t: Tables, txnId: TxnId, status: Option<string>, paymentId: Option<string>)
    requires TablesValid(t)
    ensures var s := ConfirmStep(t, txnId, status, paymentId);
      TablesValid(s.tables) && LedgerPreserved(t.users, t.txns, s.tables.users, s.tables.txns) &&
      NoBalanceTurnsNegative(t.users, s.tables.users)
  {
    if ConfirmError(t.txns, txnId, status).None? {
      var x := t.txns[txnId];
      var final := ParseFinalStatus(status.value).value;
      var y := Settled(x, final, paymentId);
      var delta := if final == Success then x.amount else 0;
      LedgerReplace(t.users, t.txns, txnId, y, delta);
      var t1 := t.(txns := t.txns[txnId := y]);
      AmendValid(t, txnId, y);
      if final == Success {
        CreditValid(t1, x.userId, x.amount);
        NotifyValid(t1.(users := WithBalance(t1.users, x.userId, x.amount)),
                    Notification(x.userId, DepositSuccessful, SuccessLevel, x.amount));
      } else {
        assert WithBalance(t.users, x.userId, 0) == t.users;
      }
    }
  }

  /** Confirms a PENDING deposit with its final status, crediting the
      customer when it succeeded. */
  method ConfirmPayment(db: Store, txnId: TxnId, status: Option<string>, paymentId: Option<string>)
    returns (r: Result<Confirmation>)
    requires db.Valid()
    modifies db
    ensures db.Valid()
    ensures Step(db.Snapshot(), r) == ConfirmStep(old(db.Snapshot()), txnId, status, paymentId)
  {
    ghost var t := db.Snapshot();
    var e := ConfirmError(db.txns, txnId, status);
    if e.Some? {
      return Err(e.value);
    }
    var x := db.txns[txnId];
    var final := ParseFinalStatus(status.value).value;
    var oldBalance := db.users[x.userId].balance;
    db.txns := db.txns[txnId := Settled(x, final, paymentId)];
    if final == Success {
      db.users := WithBalance(db.users, x.userId, x.amount);
      db.notifications := db.notifications + [Notification(x.userId, DepositSuccessful, SuccessLevel, x.amount)];
      r := Ok(Confirmation(Settled(x, final, paymentId), true, oldBalance + x.amount));
    } else {
      r := Ok(Confirmation(Settled(x, final, paymentId), false, oldBalance));
    }
    assert Step(db.Snapshot(), r) == ConfirmStep(t, txnId, status, paymentId);
    ConfirmKeeps(t, txnId, status, paymentId);
  }

  /** A deposit confirmed as paid raises its owner's balance by its amount,
      and a second confirmation of it is refused: a deposit is credited at
      most once. */
  lemma DepositCreditedOnce(t: Tables, u: UserId, amount: int, paymentMethod: string, paymentId: Option<string>)
    requires TablesValid(t)
    ensures var created := DepositStep(t, Some(u), Some(amount), Some(paymentMethod));
      created.response.Ok? ==>
        (DepositKeeps(t, Some(u), Some(amount), Some(paymentMethod));
         var id := created.response.value.txnId;
         var paid := ConfirmStep(created.tables, id, Some("SUCCESS"), paymentId);
         && paid.response.Ok?
         && paid.tables.users[u].balance == t.users[u].balance + amount
         && (ConfirmKeeps(created.tables, id, Some("SUCCESS"), paymentId);
             ConfirmStep(paid.tables, id, Some("SUCCESS"), paymentId).response == Err(InvalidTransactionState)))
  {
    var created := DepositStep(t, Some(u), Some(amount), Some(paymentMethod));
    if created.response.Ok? {
      DepositEffect(t, Some(u), Some(amount), Some(paymentMethod));
      DepositKeeps(t, Some(u), Some(amount), Some(paymentMethod));
      var id := created.response.value.txnId;
      ConfirmEffect(created.tables, id, Some("SUCCESS"), paymentId);
      ConfirmKeeps(created.tables, id, Some("SUCCESS"), paymentId);
    }
  }

  // ---------------------------------------------------------------------------
  // Withdrawals

  /** The response of an initiated withdrawal. */
  datatype WithdrawalCreated = WithdrawalCreated(txnId: TxnId, amount: int, newBalance: int)

  /** The first check a withdrawal request fails, in the handler's order. */
  function WithdrawalError(users: map<UserId, User>, userId: Option<UserId>, amount: Option<int>)
    : (e: Option<ErrorKind>)
    ensures e.None? <==>
      Given(userId) && amount.Some? && amount.value > 0 && userId.value in users &&
      users[userId.value].isActive && users[userId.value].balance >= amount.value
    ensures e == Some(InsufficientBalance) <==>
      Given(userId) && amount.Some? && amount.value > 0 && userId.value in users &&
      users[userId.value].isActive && users[userId.value].balance < amount.value
  {
    if !Given(userId) || !GivenNumber(amount) then Some(MissingFields)
    else if amount.value <= 0 then Some(InvalidAmount)
    else if userId.value !in users then Some(NotFound)
    else if !users[userId.value].isActive then Some(Suspended)
    else if users[userId.value].balance < amount.value then Some(InsufficientBalance)
    else None
  }

  /** The PENDING withdrawal of `amount` from `u`, by bank transfer. */
  function WithdrawalOf(u: UserId, amount: int): (x: Transaction)
    ensures x.userId == u && x.kind == Withdrawal && x.status == TxnStatus.Pending && x.amount == -amount
    ensures Share(x, u) == -amount
  {
    Transaction(u, None, Withdrawal, -amount, TxnStatus.Pending, Some(BankTransfer), None)
  }

  /** Initiating a withdrawal, as a change of the tables: the funds leave the
      balance at once, held by the PENDING withdrawal. */
  function WithdrawalStep(t: Tables, userId: Option<UserId>, amount: Option<int>): (s: Step<WithdrawalCreated>)
    ensures s.response.Ok? <==> WithdrawalError(t.users, userId, amount).None?
    ensures s.response.Err? ==> s.tables == t && Some(s.response.kind) == WithdrawalError(t.users, userId, amount)
  {
    var e := WithdrawalError(t.users, userId, amount);
    if e.Some? then Step(t, Err(e.value))
    else
      var u := userId.value;
      var t' := Record(t, WithdrawalOf(u, amount.value));
      Step(t'.(notifications := t'.notifications + [Notification(u, WithdrawalInitiated, InfoLevel, amount.value)]),
           Ok(WithdrawalCreated(|t.txns|, -amount.value, t.users[u].balance - amount.value)))
  }

  /** A withdrawal takes exactly its amount from the balance, never below
      zero, and records it as a PENDING withdrawal of the negated amount. */
  lemma WithdrawalEffect(t: Tables, userId: Option<UserId>, amount: Option<int>)
    ensures var s := WithdrawalStep(t, userId, amount);
      s.response.Ok? ==>
        var u := userId.value;
        && s.tables.txns == t.txns + [Transaction(u, None, Withdrawal, -amount.value, TxnStatus.Pending,
                                                  Some(BankTransfer), None)]
        && s.tables.users.Keys == t.users.Keys
        && s.tables.users[u].balance == t.users[u].balance - amount.value >= 0
        && s.response.value.newBalance == s.tables.users[u].balance
        && (forall v :: v in t.users && v != u ==> s.tables.users[v] == t.users[v])
        && s.tables.notifications == t.notifications + [Notification(u, WithdrawalInitiated, InfoLevel, amount.value)]
        && s.tables == t.(txns := s.tables.txns, users := s.tables.users, notifications := s.tables.notifications)
  {
  }

  /** A withdrawal keeps the ledger and every integrity rule, and turns no
      balance negative. */
  lemma WithdrawalKeeps(t: Tables, userId: Option<UserId>, amount: Option<int>)
    requires TablesValid(t)
    ensures var s := WithdrawalStep(t, userId, amount);
      TablesValid(s.tables) && LedgerPreserved(t.users, t.txns, s.tables.users, s.tables.txns) &&
      NoBalanceTurnsNegative(t.users, s.tables.users)
  {
    if WithdrawalError(t.users, userId, amount).None? {
      RecordValid(t, WithdrawalOf(userId.value, amount.value));
      RecordKeepsLedger(t, WithdrawalOf(userId.value, amount.value));
    }
  }

  /** Initiates a withdrawal from a customer's balance (an administrative action). */
  method InitiateWithdrawal(db: Store, userId: Option<UserId>, amount: Option<int>)
    returns (r: Result<WithdrawalCreated>)
    requires db.Valid()
    modifies db
    ensures db.Valid()
    ensures Step(db.Snapshot(), r) == WithdrawalStep(old(db.Snapshot()), userId, amount)
  {
    ghost var t := db.Snapshot();
    var e := WithdrawalError(db.users, userId, amount);
    if e.Some? {
      return Err(e.value);
    }
    var u := userId.value;
    var balance := db.users[u].balance;
    var id := |db.txns|;
    db.txns := db.txns + [WithdrawalOf(u, amount.value)];
    db.users := WithBalance(db.users, u, -amount.value);
    db.notifications := db.notifications + [Notification(u, WithdrawalInitiated, InfoLevel, amount.value)];
    r := Ok(WithdrawalCreated(id, -amount.value, balance - amount.value));
    ghost var t' := Record(t, WithdrawalOf(u, amount.value));
    assert db.Snapshot() == t'.(notifications := t'.notifications + [Notification(u, WithdrawalInitiated, InfoLevel, amount.value)]);
    assert Step(db.Snapshot(), r) == WithdrawalStep(t, userId, amount);
    WithdrawalKeeps(t, userId, amount);
  }

  // ---------------------------------------------------------------------------
  // Processing a withdrawal

  /** The response of a processed withdrawal: refunded when it failed or was
      cancelled, paid out (less the processing fee) when it succeeded. */
  datatype Processing =
    | Refunded(txn: Transaction, refundAmount: int)
    | PaidOut(txn: Transaction, processingFee: int, netAmount: int)

  /** `Math.abs`. */
  function Abs(x: int): (r: nat)
    ensures r == x || r == -x
  {
    if x < 0 then -x else x
  }

  /** The first check processing fails: a final status is required, and the
      transaction must exist, be a withdrawal and still be PENDING. */
  function ProcessError(txns: seq<Transaction>, txnId: TxnId, status: Option<string>): (e: Option<ErrorKind>)
    ensures e.None? <==>
      status.Some? && ParseFinalStatus(status.value).Some? && txnId < |txns| &&
      txns[txnId].kind == Withdrawal && txns[txnId].status == TxnStatus.Pending
    ensures e == Some(InvalidTransactionState) ==> txnId < |txns| && txns[txnId].status != TxnStatus.Pending
  {
    if !Given(status) then Some(MissingFields)
    else if ParseFinalStatus(status.value).None? then Some(InvalidStatus)
    else if txnId >= |txns| then Some(NotFound)
    else if txns[txnId].kind != Withdrawal then Some(InvalidTransactionType)
    else if txns[txnId].status != TxnStatus.Pending then Some(InvalidTransactionState)
    else None
  }

  /** Processing a withdrawal, as a change of the tables: the withdrawal
      takes its final status; a failed or cancelled one gives the held funds
      back. The processing fee (0 when absent) only enters the response. */
  function ProcessStep(t: Tables, txnId: TxnId, status: Option<string>, processingFee: Option<int>)
    : (s: Step<Processing>)
    requires TablesValid(t)
    ensures s.response.Ok? <==> ProcessError(t.txns, txnId, status).None?
    ensures s.response.Err? ==> s.tables == t && Some(s.response.kind) == ProcessError(t.txns, txnId, status)
  {
    var e := ProcessError(t.txns, txnId, status);
    if e.Some? then Step(t, Err(e.value))
    else
      var x := t.txns[txnId];
      var final := ParseFinalStatus(status.value).value;
      var y := x.(status := final);
      var t1 := t.(txns := t.txns[txnId := y]);
      if final == TxnStatus.Failed || final == TxnStatus.Cancelled then
        var refund := Abs(x.amount);
        var t2 := t1.(users := WithBalance(t1.users, x.userId, refund),
                      notifications := t1.notifications + [Notification(x.userId, WithdrawalFailed, WarningLevel, refund)]);
        Step(t2, Ok(Refunded(y, refund)))
      else
        var fee := if processingFee.Some? then processingFee.value else 0;
        Step(t1, Ok(PaidOut(y, fee, Abs(x.amount) - fee)))
  }

  /** A processed withdrawal is no longer PENDING. Failed or cancelled, its
      owner gets back exactly what it held; paid out, no balance moves and
      the net amount is what it held less the fee. */
  lemma ProcessEffect(t: Tables, txnId: TxnId, status: Option<string>, processingFee: Option<int>)
    requires TablesValid(t)
    ensures var s := ProcessStep(t, txnId, status, processingFee);
      s.response.Ok? ==>
        var x := t.txns[txnId];
        var held := -x.amount;
        && held > 0
        && |s.tables.txns| == |t.txns|
        && s.tables.txns[txnId] == x.(status := ParseFinalStatus(status.value).value)
        && s.tables.txns[txnId].status != TxnStatus.Pending
        && (forall i :: 0 <= i < |t.txns| && i != txnId ==> s.tables.txns[i] == t.txns[i])
        && s.tables.users.Keys == t.users.Keys
        && (s.response.value.Refunded? <==> s.tables.txns[txnId].status != Success)
        && (s.response.value.Refunded? ==>
              s.response.value.refundAmount == held &&
              s.tables.users[x.userId].balance == t.users[x.userId].balance + held)
        && (s.response.value.PaidOut? ==>
              s.tables.users == t.users &&
              s.response.value.netAmount == held - (if processingFee.Some? then processingFee.value else 0))
        && (forall v :: v in t.users && v != x.userId ==> s.tables.users[v] == t.users[v])
        && s.tables.notifications == t.notifications +
             (if s.response.value.Refunded? then [Notification(x.userId, WithdrawalFailed, WarningLevel, held)] else [])
        && s.tables == t.(txns := s.tables.txns, users := s.tables.users, notifications := s.tables.notifications)
  {
    if ProcessError(t.txns, txnId, status).None? {
      assert t.txns[txnId].kind == Withdrawal;
    }
  }

  /** Processing keeps the ledger and every integrity rule, and turns no
      balance negative. */
  lemma ProcessKeeps(t: Tables, txnId: TxnId, status: Option<string>, processingFee: Option<int>)
    requires TablesValid(t)
    ensures var s := ProcessStep(t, txnId, status, processingFee);
      TablesValid(s.tables) && LedgerPreserved(t.users, t.txns, s.tables.users, s.tables.txns) &&
      NoBalanceTurnsNegative(t.users, s.tables.users)
  {
    if ProcessError(t.txns, txnId, status).None? {
      var x := t.txns[txnId];
      var final := ParseFinalStatus(status.value).value;
      var y := x.(status := final);
      assert x.amount < 0;
      var refunded := final == TxnStatus.Failed || final == TxnStatus.Cancelled;
      LedgerReplace(t.users, t.txns, txnId, y, if refunded then Abs(x.amount) else 0);
      var t1 := t.(txns := t.txns[txnId := y]);
      AmendValid(t, txnId, y);
      if refunded {
        CreditValid(t1, x.userId, Abs(x.amount));
        NotifyValid(t1.(users := WithBalance(t1.users, x.userId, Abs(x.amount))),
                    Notification(x.userId, WithdrawalFailed, WarningLevel, Abs(x.amount)));
      } else {
        assert WithBalance(t.users, x.userId, 0) == t.users;
      }
    }
  }

  /** Processes a PENDING withdrawal with its final status (an administrative action). */
  method ProcessWithdrawal(db: Store, txnId: TxnId, status: Option<string>, processingFee: Option<int>)
    returns (r: Result<Processing>)
    requires db.Valid()
    modifies db
    ensures db.Valid()
    ensures Step(db.Snapshot(), r) == ProcessStep(old(db.Snapshot()), txnId, status, processingFee)
  {
    ghost var t := db.Snapshot();
    var e := ProcessError(db.txns, txnId, status);
    if e.Some? {
      return Err(e.value);
    }
    var x := db.txns[txnId];
    var final := ParseFinalStatus(status.value).value;
    var y := x.(status := final);
    db.txns := db.txns[txnId := y];
    if final == TxnStatus.Failed || final == TxnStatus.Cancelled {
      var refund := Abs(x.amount);
      db.users := WithBalance(db.users, x.userId, refund);
      db.notifications := db.notifications + [Notification(x.userId, WithdrawalFailed, WarningLevel, refund)];
      r := Ok(Refunded(y, refund));
    } else {
      var fee := if processingFee.Some? then processingFee.value else 0;
      r := Ok(PaidOut(y, fee, Abs(x.amount) - fee));
    }
    assert Step(db.Snapshot(), r) == ProcessStep(t, txnId, status, processingFee);
    ProcessKeeps(t, txnId, status, processingFee);
  }

  /** A withdrawal that is initiated and then fails gives the customer back
      the balance they started from. */
  lemma WithdrawalFailedRestoresBalance(t: Tables, u: UserId, amount: int)
    requires TablesValid(t)
    ensures var w := WithdrawalStep(t, Some(u), Some(amount));
      w.response.Ok? ==>
        (WithdrawalKeeps(t, Some(u), Some(amount));
         var p := ProcessStep(w.tables, w.response.value.txnId, Some("FAILED"), None);
         p.response.Ok? && p.tables.users[u].balance == t.users[u].balance)
  {
    var w := WithdrawalStep(t, Some(u), Some(amount));
    if w.response.Ok? {
      WithdrawalEffect(t, Some(u), Some(amount));
      WithdrawalKeeps(t, Some(u), Some(amount));
      ProcessEffect(w.tables, w.response.value.txnId, Some("FAILED"), None);
    }
  }
}

=== FILE: users.dfy ===
/** The user handlers: creating, updating and deleting accounts, with the
    email-format and identifier-format checks they make and emails kept
    unique. */
module Users {
  import opened Common
  import opened Model

  // ---------------------------------------------------------------------------
  // The identifier check: `/^[a-z0-9]{1,}$/i` on the trimmed path parameter

  predicate IsAlnum(c: char) {
    ('a' <= c <= 'z') || ('A' <= c <= 'Z') || ('0' <= c <= '9')
  }

  /** One or more ASCII letters or digits, in either case. */
  predicate IsAlnumId(s: string)
    ensures IsAlnumId(s) ==> s != [] && forall i :: 0 <= i < |s| ==> !IsSpace(s[i]) && s[i] != '-'
  {
    |s| > 0 && forall i :: 0 <= i < |s| ==> IsAlnum(s[i])
  }

  /** The identifier check of get, update and delete: a parameter that is
      blank once trimmed, or that holds anything but letters and digits
      once trimmed, is refused before any lookup. */
  function UserIdError(raw: string): (e: Option<ErrorKind>)
    ensures e.None? <==> IsAlnumId(Trim(raw))
    ensures e.Some? ==> e.value == InvalidId
  {
    if Trim(raw) == "" || !IsAlnumId(Trim(raw)) then Some(InvalidId) else None
  }

  /** A string without white space is its own trim. */
  lemma TrimWithoutSpaces(s: string)
    requires forall i :: 0 <= i < |s| ==> !IsSpace(s[i])
    ensures Trim(s) == s
  {
    assert SkipSpaces(s, 0) == 0;
    assert SkipSpacesBack(s, 0, |s|) == |s|;
  }

  /** An accepted identifier is looked up as it stands once trimmed, and it
      holds no white space, so trimming it again changes nothing; an
      identifier already free of white space is accepted exactly when it is
      alphanumeric. */
  lemma UserIdAccepted(raw: string)
    ensures UserIdError(raw).None? ==> Trim(Trim(raw)) == Trim(raw)
    ensures (forall i :: 0 <= i < |raw| ==> !IsSpace(raw[i])) ==> (UserIdError(raw).None? <==> IsAlnumId(raw))
  {
    TrimIdempotent(raw);
    if forall i :: 0 <= i < |raw| ==> !IsSpace(raw[i]) {
      TrimWithoutSpaces(raw);
    }
  }

  /** The identifiers the handlers' tests use: a hyphenated one is refused,
      a numeric one and one padded with spaces are accepted, a blank one is
      refused. */
  lemma UserIdExamples()
    ensures UserIdError("invalid-id") == Some(InvalidId)
    ensures UserIdError("99999").None?
    ensures UserIdError(" ab12 ").None?
    ensures UserIdError("   ") == Some(InvalidId)
  {
    TrimWithoutSpaces("invalid-id");
    assert !IsAlnum("invalid-id"[7]);
    TrimWithoutSpaces("99999");
    PaddedIdTrimmed();
    TrimEmptyIff("   ");
  }

  /** Trimming the padded test identifier leaves its four inner characters. */
  lemma PaddedIdTrimmed()
    ensures Trim(" ab12 ") == "ab12"
  {
    assert " ab12 "[..1] == " " && " ab12 "[5..] == " ";
    TrimUnique(" ab12 ", 1, 5);
  }

  // ---------------------------------------------------------------------------
  // The email check: `/^[^\s@]+@[^\s@]+\.[^\s@]+$/`

  /** `[^\s@]*`: no white space and no `@`. */
  predicate NoSpaceOrAt(s: string) {
    forall i :: 0 <= i < |s| ==> s[i] != '@' && !IsSpace(s[i])
  }

  /** `[^\s@]+\.[^\s@]+`: a part without white space or `@` holding a dot
      that is neither its first nor its last character. */
  predicate DottedDomain(d: string) {
    NoSpaceOrAt(d) && exists j :: 0 < j < |d| - 1 && d[j] == '.'
  }

  /** The email regular expression: a non-empty local part, an `@`, and a
      dotted domain. */
  predicate IsEmail(s: string)
    ensures IsEmail(s) ==> |s| >= 5
  {
    exists k :: 0 < k < |s| && s[k] == '@' && NoSpaceOrAt(s[..k]) && DottedDomain(s[k + 1..])
  }

  /** An accepted email holds exactly one `@`, no white space and at least
      five characters. */
  lemma EmailShape(s: string)
    requires IsEmail(s)
    ensures exists k :: 0 <= k < |s| && s[k] == '@'
    ensures forall i, j :: 0 <= i < j < |s| ==> !(s[i] == '@' && s[j] == '@')
    ensures forall i :: 0 <= i < |s| ==> !IsSpace(s[i])
    ensures |s| >= 5
  {
    var k :| 0 < k < |s| && s[k] == '@' && NoSpaceOrAt(s[..k]) && DottedDomain(s[k + 1..]);
    forall i | 0 <= i < |s| && i != k
      ensures s[i] != '@' && !IsSpace(s[i])
    {
      if i < k {
        assert s[i] == s[..k][i];
      } else {
        assert s[i] == s[k + 1..][i - k - 1];
      }
    }
    var j :| 0 < j < |s[k + 1..]| - 1 && s[k + 1..][j] == '.';
  }

  /** Every local part and dotted domain join into an accepted email. */
  lemma EmailIntro(local: string, domain: string)
    requires |local| > 0 && NoSpaceOrAt(local) && DottedDomain(domain)
    ensures IsEmail(local + "@" + domain)
  {
    var s := local + "@" + domain;
    var k := |local|;
    assert s[..k] == local && s[k + 1..] == domain && s[k] == '@';
  }

  /** Lower-case letters and dots hold no white space and no `@`. */
  lemma LettersAndDots(s: string)
    requires forall i :: 0 <= i < |s| ==> 'a' <= s[i] <= 'z' || s[i] == '.'
    ensures NoSpaceOrAt(s)
  {
  }

  /** The address the handlers' tests create users with is accepted. */
  lemma EmailAccepted()
    ensures IsEmail("test@example.com")
  {
    var local, domain := "test", "example.com";
    LettersAndDots(local);
    LettersAndDots(domain);
    assert domain[7] == '.';
    EmailIntro(local, domain);
    assert local + "@" + domain == "test@example.com";
  }

  /** An address without `@`, one without a dotted domain and one holding
      a space are refused. */
  lemma EmailRefused()
    ensures !IsEmail("invalid-email")
    ensures !IsEmail("a@b")
    ensures !IsEmail("a b@c.d")
  {
    var s := "invalid-email";
    forall k | 0 <= k < |s|
      ensures s[k] != '@'
    {
    }
    assert !IsEmail("a@b") by {
      if IsEmail("a@b") {
        EmailShape("a@b");
      }
    }
    assert !IsEmail("a b@c.d") by {
      assert IsSpace("a b@c.d"[1]);
      if IsEmail("a b@c.d") {
        EmailShape("a b@c.d");
      }
    }
  }

  // ---------------------------------------------------------------------------
  // POST /api/users

  /** The fields of a user in a request body. */
  datatype UserFields = UserFields(
    email: Option<string>, name: Option<string>, role: Option<Role>, balance: Option<int>, isActive: Option<bool>)

  /** Some user other than `except` has the email. */
  predicate EmailTaken(users: map<UserId, User>, email: string, except: Option<UserId>) {
    exists u :: u in users && Some(u) != except && users[u].email == email
  }

  /** The first check a create fails; `newId` is the identifier the store
      hands out, refused by the store when it is already in use. */
  function CreateError(t: Tables, newId: UserId, f: UserFields): (e: Option<ErrorKind>)
    ensures e.None? <==>
      Given(f.email) && Given(f.name) && IsEmail(f.email.value)
      && !EmailTaken(t.users, f.email.value, None) && newId !in t.users
    ensures e == Some(InvalidEmail) <==> Given(f.email) && Given(f.name) && !IsEmail(f.email.value)
    ensures e == Some(Conflict) <==>
      Given(f.email) && Given(f.name) && IsEmail(f.email.value) && EmailTaken(t.users, f.email.value, None)
  {
    if !Given(f.email) || !Given(f.name) then Some(MissingFields)
    else if !IsEmail(f.email.value) then Some(InvalidEmail)
    else if EmailTaken(t.users, f.email.value, None) then Some(Conflict)
    else if newId in t.users then Some(StoreRejected)
    else None
  }

  /** The user a create writes: a customer with a zero balance, active,
      unless the request says otherwise. */
  function NewUser(f: UserFields): (u: User)
    requires Given(f.email) && Given(f.name)
    ensures u.email == f.email.value && u.name == f.name.value
    ensures u.role == (if f.role.Some? then f.role.value else Customer)
    ensures u.balance == (if f.balance.Some? then f.balance.value else 0)
    ensures u.isActive == (f.isActive != Some(false))
  {
    User(f.email.value, f.name.value, ValueOr(f.role, Customer), ValueOr(f.balance, 0), ValueOr(f.isActive, true))
  }

  function CreateStep(t: Tables, newId: UserId, f: UserFields): (s: Step<User>)
    ensures s.response.Ok? <==> CreateError(t, newId, f).None?
    ensures s.response.Err? ==> s.tables == t && Some(s.response.kind) == CreateError(t, newId, f)
    ensures s.response.Ok? ==> s.tables == t.(users := t.users[newId := s.response.value])
  {
    var e := CreateError(t, newId, f);
    if e.Some? then Step(t, Err(e.value))
    else Step(t.(users := t.users[newId := NewUser(f)]), Ok(NewUser(f)))
  }

  /** A created user has a well-formed email no other user has, is a
      customer with a zero balance and active unless told otherwise, and
      nobody else's account changes. */
  lemma CreateEffect(t: Tables, newId: UserId, f: UserFields)
    requires CreateStep(t, newId, f).response.Ok?
    ensures var s := CreateStep(t, newId, f);
      var u := s.response.value;
      && newId !in t.users && s.tables.users[newId] == u
      && u.email == f.email.value && u.name == f.name.value && IsEmail(u.email)
      && (forall v :: v in t.users ==> t.users[v].email != u.email && s.tables.users[v] == t.users[v])
      && u.role == (if f.role.Some? then f.role.value else Customer)
      && (f.balance.None? ==> u.balance == 0)
      && u.isActive == (f.isActive != Some(false))
  {
  }

  lemma CreateKeeps(t: Tables, newId: UserId, f: UserFields)
    requires TablesValid(t)
    ensures TablesValid(CreateStep(t, newId, f).tables)
  {
  }

  method CreateUser(db: Store, newId: UserId, f: UserFields) returns (r: Result<User>)
    requires db.Valid()
    modifies db
    ensures db.Valid()
    ensures Step(db.Snapshot(), r) == CreateStep(old(db.Snapshot()), newId, f)
  {
    ghost var t := db.Snapshot();
    var e := CreateError(db.Snapshot(), newId, f);
    if e.Some? {
      return Err(e.value);
    }
    var u := NewUser(f);
    db.users := db.users[newId := u];
    r := Ok(u);
    assert Step(db.Snapshot(), r) == CreateStep(t, newId, f);
    CreateKeeps(t, newId, f);
  }

  // ---------------------------------------------------------------------------
  // PUT /api/users/:id

  /** `u` with every supplied field written over it; the balance is set
      as given. */
  function UpdatedUser(u: User, f: UserFields): (v: User)
    ensures v.email == (if f.email.Some? then f.email.value else u.email)
    ensures v.name == (if f.name.Some? then f.name.value else u.name)
    ensures v.role == (if f.role.Some? then f.role.value else u.role)
    ensures v.balance == (if f.balance.Some? then f.balance.value else u.balance)
    ensures v.isActive == (if f.isActive.Some? then f.isActive.value else u.isActive)
    ensures f == UserFields(None, None, None, None, None) ==> v == u
  {
    u.(email := ValueOr(f.email, u.email), name := ValueOr(f.name, u.name), role := ValueOr(f.role, u.role),
       balance := ValueOr(f.balance, u.balance), isActive := ValueOr(f.isActive, u.isActive))
  }

  /** The first check an update fails: the identifier format, an unknown
      user, a truthy email that is malformed or that another user holds;
      and, past the handler's checks, the store's unique index refusing an
      email another user holds (the empty one, which the handler does not
      check). */
  function UpdateError(t: Tables, raw: string, f: UserFields): (e: Option<ErrorKind>)
    ensures e.None? <==>
      && IsAlnumId(Trim(raw)) && Trim(raw) in t.users
      && (Given(f.email) ==> IsEmail(f.email.value))
      && !EmailTaken(t.users, ValueOr(f.email, t.users[Trim(raw)].email), Some(Trim(raw)))
    ensures e == Some(InvalidEmail) <==>
      IsAlnumId(Trim(raw)) && Trim(raw) in t.users && Given(f.email) && !IsEmail(f.email.value)
  {
    if UserIdError(raw).Some? then Some(InvalidId)
    else
      var id := Trim(raw);
      if id !in t.users then Some(NotFound)
      else if Given(f.email) && !IsEmail(f.email.value) then Some(InvalidEmail)
      else if Given(f.email) && f.email.value != t.users[id].email && EmailTaken(t.users, f.email.value, None)
      then Some(Conflict)
      else if EmailTaken(t.users, ValueOr(f.email, t.users[id].email), Some(id)) then Some(StoreRejected)
      else None
  }

  function UpdateStep(t: Tables, raw: string, f: UserFields): (s: Step<User>)
    ensures s.response.Ok? <==> UpdateError(t, raw, f).None?
    ensures s.response.Err? ==> s.tables == t && Some(s.response.kind) == UpdateError(t, raw, f)
  {
    var e := UpdateError(t, raw, f);
    if e.Some? then Step(t, Err(e.value))
    else
      var u := UpdatedUser(t.users[Trim(raw)], f);
      Step(t.(users := t.users[Trim(raw) := u]), Ok(u))
  }

  /** An update writes exactly the supplied fields of the one user found by
      the trimmed identifier, and leaves it with an email no other user
      has. */
  lemma UpdateEffect(t: Tables, raw: string, f: UserFields)
    requires UpdateStep(t, raw, f).response.Ok?
    ensures var s := UpdateStep(t, raw, f);
      var id := Trim(raw);
      var u := t.users[id];
      var v := s.response.value;
      && s.tables == t.(users := t.users[id := v])
      && v.email == (if f.email.Some? then f.email.value else u.email)
      && v.name == (if f.name.Some? then f.name.value else u.name)
      && v.role == (if f.role.Some? then f.role.value else u.role)
      && v.balance == (if f.balance.Some? then f.balance.value else u.balance)
      && v.isActive == (if f.isActive.Some? then f.isActive.value else u.isActive)
      && (forall w :: w in t.users && w != id ==> t.users[w].email != v.email)
  {
  }

  /** In a store whose emails are unique, the only email the handler lets
      through to the unique index's refusal is the empty one. */
  lemma UpdateRejectedOnlyEmpty(t: Tables, raw: string, f: UserFields)
    requires EmailsDistinct(t.users)
    requires UpdateError(t, raw, f) == Some(StoreRejected)
    ensures f.email == Some("")
  {
    var id := Trim(raw);
    var w :| w in t.users && Some(w) != Some(id) && t.users[w].email == ValueOr(f.email, t.users[id].email);
    assert w != id && t.users[w].email != t.users[id].email;
  }

  /** The balance is written as given, with no transaction recorded: the
      update keeps the ledger exactly when it leaves the balance as it was,
      and any amount, negative ones included, is accepted. */
  lemma UpdateBalanceOffLedger(t: Tables, raw: string, f: UserFields)
    requires UpdateStep(t, raw, f).response.Ok?
    ensures var s := UpdateStep(t, raw, f);
      var id := Trim(raw);
      && s.tables.txns == t.txns
      && Net(s.tables.users, s.tables.txns, id) - Net(t.users, t.txns, id)
         == s.tables.users[id].balance - t.users[id].balance
      && (LedgerPreserved(t.users, t.txns, s.tables.users, s.tables.txns)
          <==> s.tables.users[id].balance == t.users[id].balance)
  {
    var s := UpdateStep(t, raw, f);
    var id := Trim(raw);
    if s.tables.users[id].balance == t.users[id].balance {
      forall w | w in t.users
        ensures Net(s.tables.users, s.tables.txns, w) == Net(t.users, t.txns, w)
      {
      }
    }
  }

  /** Setting only the balance of an existing user succeeds for every
      amount, negative ones included. */
  lemma UpdateAcceptsAnyBalance(t: Tables, raw: string, b: int)
    requires EmailsDistinct(t.users) && IsAlnumId(Trim(raw)) && Trim(raw) in t.users
    ensures var s := UpdateStep(t, raw, UserFields(None, None, None, Some(b), None));
      s.response.Ok? && s.tables.users[Trim(raw)].balance == b
  {
  }

  lemma UpdateKeeps(t: Tables, raw: string, f: UserFields)
    requires TablesValid(t)
    ensures var s := UpdateStep(t, raw, f);
      TablesValid(s.tables) && s.tables.users.Keys == t.users.Keys && s.tables.txns == t.txns
  {
    if UpdateError(t, raw, f).None? {
      var id := Trim(raw);
      var v := UpdatedUser(t.users[id], f);
      var us := t.users[id := v];
      forall a, b | a in us && b in us && a != b
        ensures us[a].email != us[b].email
      {
        if a == id {
          assert !(b in t.users && Some(b) != Some(id) && t.users[b].email == v.email);
        } else if b == id {
          assert !(a in t.users && Some(a) != Some(id) && t.users[a].email == v.email);
        }
      }
    }
  }

  method UpdateUser(db: Store, raw: string, f: UserFields) returns (r: Result<User>)
    requires db.Valid()
    modifies db
    ensures db.Valid()
    ensures Step(db.Snapshot(), r) == UpdateStep(old(db.Snapshot()), raw, f)
  {
    ghost var t := db.Snapshot();
    var e := UpdateError(db.Snapshot(), raw, f);
    if e.Some? {
      return Err(e.value);
    }
    var id := Trim(raw);
    var u := UpdatedUser(db.users[id], f);
    db.users := db.users[id := u];
    r := Ok(u);
    assert Step(db.Snapshot(), r) == UpdateStep(t, raw, f);
    UpdateKeeps(t, raw, f);
  }

  // ---------------------------------------------------------------------------
  // DELETE /api/users/:id

  /** The identifier, email and name a delete answers with. */
  datatype Deleted = Deleted(id: UserId, email: string, name: string)

  /** Some order, transaction or notification belongs to user `u`. */
  predicate Referenced(t: Tables, u: UserId) {
    || (exists i :: 0 <= i < |t.orders| && t.orders[i].userId == u)
    || (exists i :: 0 <= i < |t.txns| && t.txns[i].userId == u)
    || (exists i :: 0 <= i < |t.notifications| && t.notifications[i].userId == u)
  }

  /** The first check a delete fails: the identifier format, an unknown
      user, and the store refusing to delete a user its orders,
      transactions or notifications still point at. */
  function DeleteError(t: Tables, raw: string): (e: Option<ErrorKind>)
    ensures e.None? <==> IsAlnumId(Trim(raw)) && Trim(raw) in t.users && !Referenced(t, Trim(raw))
    ensures e == Some(StoreRejected) <==> IsAlnumId(Trim(raw)) && Trim(raw) in t.users && Referenced(t, Trim(raw))
  {
    if UserIdError(raw).Some? then Some(InvalidId)
    else if Trim(raw) !in t.users then Some(NotFound)
    else if Referenced(t, Trim(raw)) then Some(StoreRejected)
    else None
  }

  function DeleteStep(t: Tables, raw: string): (s: Step<Deleted>)
    ensures s.response.Ok? <==> DeleteError(t, raw).None?
    ensures s.response.Err? ==> s.tables == t && Some(s.response.kind) == DeleteError(t, raw)
    ensures s.response.Ok? ==>
      var id := Trim(raw);
      && s.tables == t.(users := s.tables.users)
      && s.tables.users.Keys == t.users.Keys - {id}
      && (forall w :: w in s.tables.users ==> s.tables.users[w] == t.users[w])
      && s.response.value == Deleted(id, t.users[id].email, t.users[id].name)
  {
    var e := DeleteError(t, raw);
    if e.Some? then Step(t, Err(e.value))
    else
      var id := Trim(raw);
      Step(t.(users := t.users - {id}), Ok(Deleted(id, t.users[id].email, t.users[id].name)))
  }

  /** Deleting a user leaves no order, transaction or notification pointing
      at a missing user, and every remaining user's ledger as it was. */
  lemma DeleteKeeps(t: Tables, raw: string)
    requires TablesValid(t)
    ensures var s := DeleteStep(t, raw);
      && TablesValid(s.tables)
      && forall w :: w in s.tables.users ==> Net(s.tables.users, s.tables.txns, w) == Net(t.users, t.txns, w)
  {
    if DeleteError(t, raw).None? {
      var id := Trim(raw);
      var s := DeleteStep(t, raw);
      forall i | 0 <= i < |t.orders|
        ensures t.orders[i].userId in s.tables.users
      {
        assert t.orders[i].userId != id;
      }
      forall i | 0 <= i < |t.txns|
        ensures t.txns[i].userId in s.tables.users
      {
        assert t.txns[i].userId != id;
      }
      forall i | 0 <= i < |t.notifications|
        ensures t.notifications[i].userId in s.tables.users
      {
        assert t.notifications[i].userId != id;
      }
    }
  }

  method DeleteUser(db: Store, raw: string) returns (r: Result<Deleted>)
    requires db.Valid()
    modifies db
    ensures db.Valid()
    ensures Step(db.Snapshot(), r) == DeleteStep(old(db.Snapshot()), raw)
  {
    ghost var t := db.Snapshot();
    var e := DeleteError(db.Snapshot(), raw);
    if e.Some? {
      return Err(e.value);
    }
    var id := Trim(raw);
    r := Ok(Deleted(id, db.users[id].email, db.users[id].name));
    db.users := db.users - {id};
    assert Step(db.Snapshot(), r) == DeleteStep(t, raw);
    DeleteKeeps(t, raw);
  }
}
